=== FILE: README.md ===
# gcpiam-search in Dafny

A model of the search and indexing core of gcpiam-search, a search service over Google Cloud IAM roles and permissions. The model covers four pieces.

- **Backend engine** (`backend/`): an in-memory engine. Roles are indexed one at a time, and `finalize` attaches to each permission the roles that grant it. The engine answers exact, prefix and fuzzy queries over permissions and roles; fuzzy mode uses a substring shortcut and then trigram Jaccard similarity. Around it sit the HTTP `search` validation, the request defaults, the error-to-status mapping and the `load_iam_data` indexing sequence.
- **Edge service** (`edge/`):
  - a build step that turns role records into a prebuilt index: a name-sorted permission table with role back-references by position, services and lower-cased copies;
  - the request handler: the Host allow-list, routing, query validation, exact lookup (binary search over permission names, first occurrence over role names), prefix and substring search, the permission and role pages, and HTML escaping.
- **Scraper** (`scraper/`):
  - permission-name parsing, stage mapping and keyword extraction;
  - the transformer that builds sorted, de-duplicated reverse references and lookup indexes;
  - the error classification;
  - the GCP client's status classification, rate-limit retry with exponential backoff, and pagination. These are modelled over an abstract service that gives the outcome of each attempt.
- **Static-site dataset builder** (`scripts/generate_static_site.py`): `build_dataset`, the stage badge, the meta description and the role path.

Modelling conventions:
- Strings are `seq<char>`.
- Lower-casing and alphanumeric tests are ASCII (`Text.Lower`, `Text.IsAsciiAlphanumeric`). Where the source measures UTF-8 bytes (`len()` on a Rust `&str`), the model uses `Text.Utf8Len`.
- Scores are `real`.
- Hash maps are `map`s; vectors are `seq`s; hash sets are `set`s, or sorted duplicate-free sequences.
- Each source's insert loop is written out as a fold over the input, so "the last index wins" and "one entry per occurrence, in order" can be stated and proved.

Module layout:
- Shared modules: `Wrappers`, `Text`, `Seqs`, `StringOrder`.
- One module per source component:
  - `Similarity` and `SearchEngine` for `engine.rs`;
  - `BackendApi` for the backend's `main.rs`, `models.rs` and `error.rs`;
  - `EdgeIndex`, `EdgeSearch`, `HtmlEscape` and `EdgeService` for the edge;
  - `ScraperModels`, `ScraperErrors`, `Transformer` and `GcpClient` for the scraper;
  - `SiteDataset` for the Python script.

## Model

| member | source | states |
|---|---|---|
| Similarity.ExtractNgrams | backend/src/search/engine.rs:384-394 | Corrected n-gram extraction. The result is never empty: exactly `[text]` when the text has fewer than n characters, otherwise the (length − n + 1) contiguous windows of length n, in order. |
| Similarity.ExtractNgramsAsWritten | backend/src/search/engine.rs:384-394 | Extraction as written. When the UTF-8 byte length is below n the result is `[text]`; otherwise it has one window per n-character slice, and none when the text has fewer than n characters. |
| Similarity.NgramsAgreeOnAscii | backend/src/search/engine.rs:384-394 | On ASCII text the extractor as written and the corrected one return the same grams. |
| Similarity.ShortNonAsciiTextHasNoGrams | backend/src/search/engine.rs:384-394 | "éa" is 3 UTF-8 bytes, so the extractor as written returns no trigram for it, while the corrected one returns `["éa"]`. |
| Similarity.AsWrittenScoresDifferentTextsAsEqual | backend/src/search/engine.rs:384-413 | As written, two different short non-ASCII texts score 1.0 against each other; with corrected extraction they score 0. |
| Similarity.Jaccard | backend/src/search/engine.rs:397-413 | The similarity always lies in [0, 1]. |
| Similarity.JaccardOneIff | backend/src/search/engine.rs:397-413 | The score is 1 exactly when both gram lists have the same distinct elements; two empty lists give 1. |
| Similarity.JaccardSelf | backend/src/search/engine.rs:397-413 | A gram list compared with itself scores 1. |
| Similarity.JaccardSymmetric | backend/src/search/engine.rs:397-413 | The score does not depend on the order of its arguments. |
| Similarity.JaccardZeroIff | backend/src/search/engine.rs:397-413 | The score is 0 exactly when the lists share no gram and are not both empty. |
| SearchEngine.NewIsValid | backend/src/search/engine.rs:84-93 | A new engine satisfies the index invariant. The invariant says every permission is listed once in the name list under its own key, and is found in its service's list. |
| SearchEngine.AddPermissionKeepsIndex | backend/src/search/engine.rs:140-162 | Adding an absent permission keeps the permission index invariant. |
| SearchEngine.AddGrantKeepsIndex | backend/src/search/engine.rs:98-125 | Recording one role against one permission keeps the permission index invariant. |
| SearchEngine.AddGrantsGranted | backend/src/search/engine.rs:98-125 | After a role's permission list is indexed, each permission's granting list gains the role name once per occurrence of the permission in the list. |
| SearchEngine.AddGrantsPermissions | backend/src/search/engine.rs:98-125 | The permission keys grow by exactly the listed names. Each new permission takes service, resource and action from the '.'-parts of its name. Existing permissions are untouched. |
| SearchEngine.AddGrantsKeepsIndex | backend/src/search/engine.rs:98-125 | Indexing a role's permission list keeps the permission index invariant. |
| SearchEngine.IndexRole | backend/src/search/engine.rs:96-137 | `index_role`: each listed permission's granting list gets the role name once per listing; the role is stored under its name; other roles are unchanged; the name is appended to the role-name list. |
| SearchEngine.IndexRoleKeepsValid | backend/src/search/engine.rs:96-137 | `index_role` keeps the engine invariant. |
| SearchEngine.IndexRoleFile | backend/src/search/engine.rs:127-136 | Filing the role changes only the role map and the role-name list, and keeps both halves of the invariant. |
| SearchEngine.IndexRolePermissions | backend/src/search/engine.rs:98-125 | After `index_role`, the permission keys are the old keys plus the listed names; new permissions get their '.'-parts, and the name list grows by the new names only. |
| SearchEngine.IndexPermission | backend/src/search/engine.rs:140-162 | `index_permission` is a no-op for a known name. Otherwise it adds one permission with the caller's service, appends the name once and keeps the invariant. |
| SearchEngine.Finalize | backend/src/search/engine.rs:165-172 | `finalize` sets `granted_by_roles` from the role map for every permission that has an entry, leaves every other permission as it was, and changes nothing else. |
| SearchEngine.FinalizeKeepsValid | backend/src/search/engine.rs:165-172 | Finalizing keeps the engine invariant. |
| SearchEngine.FinalizeIdempotent | backend/src/search/engine.rs:165-172 | Finalizing twice is the same as finalizing once. |
| SearchEngine.StatsCounts | backend/src/search/engine.rs:379-381 | `stats` gives the number of distinct permission names and the number of distinct role names. |
| SearchEngine.Collect | backend/src/search/engine.rs:183-212 | Filtering names by a scoring decision keeps exactly the names the decision accepts, each with its score. |
| SearchEngine.CollectInOrder | backend/src/search/engine.rs:196-212 | Hits keep the order of the walked name list: of any two hits, the earlier one comes from an earlier position. This is the order `filter_map` and `collect` keep over the name iterator. |
| SearchEngine.CollectAppend | backend/src/search/engine.rs:196-212 | Filtering a concatenation gives the hits of the first part followed by those of the second. One name gives its scored hit or nothing. Together these fix the hit list for every input. |
| SearchEngine.GramSimilarity | backend/src/search/engine.rs:194-205 | The trigram similarity of the lower-cased query and text lies in [0, 1], and is 1 when the two agree up to ASCII case. It uses the corrected extractor. |
| SearchEngine.GramSimilarityAsWritten | backend/src/search/engine.rs:384-413 | The similarity with the byte-length test of `extract_ngrams`, as the source computes it, lies in [0, 1]. |
| SearchEngine.GramSimilarityAgreesOnAscii | backend/src/search/engine.rs:384-394 | For ASCII query and text, the engine's similarity equals the source's. |
| SearchEngine.GramSimilarityDiffersOnShortNonAscii | backend/src/search/engine.rs:194-210 | "éa" against "üb" scores 1.0 in the source, so its fuzzy search keeps the name. The engine here scores 0 and drops it at threshold 0.2. |
| SearchEngine.FuzzyPermissionScore | backend/src/search/engine.rs:198-210 | A name containing the lower-cased query scores 0.85. Any other name is kept iff its similarity reaches the threshold. A kept score lies in [0, 1] and is 0.85 or at least the threshold. |
| SearchEngine.FuzzyRoleScore | backend/src/search/engine.rs:280-297 | A kept role score lies in [0, 1] and is 0.85 or at least the threshold. A role is dropped only when both the name and the title similarity fall below the threshold. |
| SearchEngine.PermissionHits | backend/src/search/engine.rs:176-213 | Exact mode gives at most one hit (score 1.0), by case-sensitive key lookup. Prefix mode gives exactly the names whose lower case starts with the lower-cased query (0.9). Otherwise a name containing the lower-cased query scores 0.85 whatever the threshold, and any other name is kept iff its trigram similarity reaches the threshold, with that score. Prefix and fuzzy hits come in `all_permission_names` order. Every score is in [0, 1]. |
| SearchEngine.RoleHits | backend/src/search/engine.rs:253-299 | Exact mode looks up the role name only (1.0). Prefix mode matches on name or title (0.9). Fuzzy mode uses 0.85 on a substring of name or title, else the larger of the two similarities when it reaches the threshold. Prefix and fuzzy hits come in `all_role_names` order. |
| SearchEngine.FuzzyRoleScoreMeaning | backend/src/search/engine.rs:280-298 | A role's fuzzy score is 0.85 when name or title contains the query. Otherwise it is the max of the name and title similarities, kept only at or above the threshold. |
| SearchEngine.Summaries | backend/src/search/engine.rs:224-229 | Granting-role summaries skip unknown names, and there is one summary per name when all are known. |
| SearchEngine.PermissionResult | backend/src/search/engine.rs:216-231 | A permission result carries the permission's name, service, resource and action and the given score. It lists at most 5 granting roles: the summaries of the first 5 grants, when all of them resolve. |
| SearchEngine.PermissionResults | backend/src/search/engine.rs:216-246 | One result per hit whose permission exists, each with at most 5 granting roles. When every hit resolves, result i has hit i's permission's name, service, resource and action and hit i's score. |
| SearchEngine.PermissionHitsKnown | backend/src/search/engine.rs:176-213 | In a valid engine every permission hit names an indexed permission. |
| SearchEngine.SearchPermissions | backend/src/search/engine.rs:175-247 | `search_permissions` returns at most 20 results, each listing at most 5 granting roles. In a valid engine, result i is built from hit i of the first 20 hits, which come in name-list order. It has that permission's name, service, resource and action, and the hit's score in [0, 1]. |
| SearchEngine.RoleResult | backend/src/search/engine.rs:303-319 | A role result carries the role's name, title, description and stage and the given score. `permission_count` is the length of the role's permission list, and `sample_permissions` is its first min(5, count) entries. |
| SearchEngine.RoleResults | backend/src/search/engine.rs:303-319 | One result per hit whose role exists. When every hit resolves, result i has hit i's role's name, title, description and stage and hit i's score. |
| SearchEngine.RoleHitsKnown | backend/src/search/engine.rs:253-299 | When roles are indexed, every role hit names a stored role. |
| SearchEngine.SearchRoles | backend/src/search/engine.rs:250-320 | `search_roles` returns at most 20 results. With roles indexed, result i comes from hit i of the first 20 role hits, in name-list order. It has the hit's name and score, the role's title, description and stage, the full permission count and the first 5 permissions. |
| SearchEngine.LegacyAgreesWithModes | backend/src/search/engine.rs:323-376 | The legacy `search_exact` finds exactly the exact-mode hit. `search_fuzzy` is the first 20 fuzzy hits. `search_prefix` gives the same names as the first 20 prefix hits, scored 0.8. |
| SearchEngine.SearchExact | backend/src/search/engine.rs:323-330 | `search_exact` finds a hit iff the query is a permission key, scored 1. In a valid engine the hit's name is the query. |
| SearchEngine.SearchPrefix | backend/src/search/engine.rs:333-344 | `search_prefix` returns at most 20 hits in `all_permission_names` order. Each is a listed name whose lower case starts with the lower-cased query, scored 0.8. |
| SearchEngine.SearchFuzzy | backend/src/search/engine.rs:347-376 | `search_fuzzy` returns at most 20 hits in `all_permission_names` order. Each is a listed name scored by its fuzzy decision. |
| SearchEngine.CollectSameNames | backend/src/search/engine.rs:333-344 | Two decisions that accept the same names select the same names in the same order. |
| SearchEngine.LegacyPrefixRelabel | backend/src/search/engine.rs:333-344 | The legacy prefix list is the mode-based prefix list with every score replaced by 0.8. |
| SearchEngine.PrefixHitsAreFuzzyHits | backend/src/search/engine.rs:176-213 | Every prefix hit is also a fuzzy hit, with the substring score 0.85. |
| SearchEngine.ExactIsCaseSensitive | backend/src/search/engine.rs:176-180 | Exact permission search finds an indexed name as written but not the same name in other letter case. |
| BackendApi.ParseMode | backend/src/models.rs:5-23 | A missing mode is Prefix. A given mode is accepted iff it is "prefix", "exact" or "fuzzy", and it parses to the mode of that name. |
| BackendApi.ModeNameRoundTrip | backend/src/models.rs:16-23 | Each mode's lower-case name parses back to that mode. |
| BackendApi.ModeNameInjective | backend/src/main.rs:84-88 | Distinct modes have distinct names. |
| BackendApi.DecodeRequest | backend/src/models.rs:5-47 | A request decodes iff it has `q` and a valid mode. The mode defaults to Prefix, `limit` to 10 and `offset` to 0. |
| BackendApi.Search | backend/src/main.rs:64-103 | A query that is blank after trimming gives 400 with the empty-query message. A trimmed query over 100 UTF-8 bytes gives 400 with the too-long message. Anything else gives 200 with the trimmed query, the mode name, and both searches run on the trimmed query with threshold 0.2. |
| BackendApi.GrantingRolesMembers | backend/src/main.rs:205-216 | A role name is among the loaded grants of p iff some loaded role with that name lists p. |
| BackendApi.IndexAllGranted | backend/src/main.rs:205-216 | Indexing all roles in file order appends, for each permission, every granting role name, in order. |
| BackendApi.IndexAllPermissions | backend/src/main.rs:205-216 | The permission keys after indexing are the old keys plus every listed permission. |
| BackendApi.IndexAllRoleNames | backend/src/main.rs:205-216 | The role-name list gains the roles' names in file order, and validity is kept. |
| BackendApi.LastNamed | backend/src/main.rs:205-216 | A role name resolves iff it is listed, and it resolves to a role with that name. |
| BackendApi.IndexAllRoles | backend/src/main.rs:205-216 | Each listed name maps to the last role of that name. Roles not listed are unchanged. |
| BackendApi.IndexAllSplit | backend/src/main.rs:205-216 | Indexing a list extended by one role is indexing the list and then that role. |
| BackendApi.LoadIamData | backend/src/main.rs:188-231 | Unreadable data leaves the engine new. Loaded data gives a valid engine with exactly the listed permissions, the role names in file order, and each permission's grants equal to its granting roles in order. |
| BackendApi.LoadedPermissionHasGrants | backend/src/main.rs:205-216 | Every permission in a loaded engine has a grant entry. |
| BackendApi.AllListedWitness | backend/src/main.rs:205-216 | A loaded permission is listed by some role. |
| BackendApi.LoadedEngineSearchable | backend/src/main.rs:188-231 | Every role name of a loaded engine resolves to a role, so role search is always defined on it. |
| BackendApi.StatusCode | backend/src/error.rs:22-28 | NotFound is 404, BadRequest 400 and InternalError 500. Each code belongs to one variant only. |
| BackendApi.StatusCodeDistinguishesVariants | backend/src/error.rs:22-28 | Two errors get the same status iff they are the same variant. |
| BackendApi.Display | backend/src/error.rs:12-20 | The display text is the variant's prefix followed by the message, unchanged. |
| BackendApi.DisplayRoundTrip | backend/src/error.rs:12-20 | The variant and the message can be read back from the display text. |
| BackendApi.ErrorResponse | backend/src/error.rs:22-40 | The response has the variant's status and `success = false`, and its `error` text parses back to the error. |
| EdgeIndex.AllIncludedMembers | edge/build.rs:152-171 | A name is among all included permissions iff some role lists it. |
| EdgeIndex.PushAllKeys | edge/build.rs:155-170 | Pushing one role's permissions adds exactly its names as keys. |
| EdgeIndex.PushAllEntry | edge/build.rs:155-170 | A permission's entry gets the role index once per occurrence. |
| EdgeIndex.PermissionMapKeys | edge/build.rs:152-171 | The permission map's keys are exactly the listed names. |
| EdgeIndex.PermissionMapEntry | edge/build.rs:152-171 | Each permission's `granted_by_roles` is one index per listing, in role order. |
| EdgeIndex.TableNames | edge/build.rs:174-179 | The table names are strictly sorted and are each listed name exactly once. |
| EdgeIndex.NamesResolve | edge/build.rs:134 | Every role name resolves in the name-to-index map. |
| EdgeIndex.TableEntry | edge/build.rs:152-171 | A table entry is a fresh permission with its '.'-parts and its grant indices. |
| EdgeIndex.Table | edge/build.rs:152-179 | The table is parallel to the sorted names. Entry i has name i, its '.'-parts and its grant indices. |
| EdgeIndex.BuildIndex | edge/build.rs:94-189 | Missing data gives the empty index. The parallel vectors have equal lengths. With data, the roles and their names and summaries follow the input order. The permission column holds each listed name once, strictly ascending, and entry i describes name i. |
| EdgeIndex.BuildIndexRoles | edge/build.rs:132-149 | Entry i of `roles`, `role_names` and `role_summaries` all describe input role i. |
| EdgeIndex.BuildIndexPermissions | edge/build.rs:152-179 | `permission_names` is strictly sorted, holds each listed name once, and is parallel to `permissions`. Each entry has its '.'-parts and grant indices. |
| EdgeIndex.GrantIndicesSound | edge/build.rs:134-170 | Every grant index is below the role count and names a role that lists the permission. |
| EdgeIndex.GrantIndicesInRange | edge/build.rs:134-170 | Every grant index in a built index is a valid role position. |
| EdgeIndex.GrantIndicesComplete | edge/build.rs:134-170 | A role that lists p contributes its name's last index to p's grants. |
| EdgeIndex.NoDupSamePosition | edge/build.rs:134 | With distinct names, a name occurs at one position only. |
| EdgeIndex.GrantIndicesDistinctNames | edge/build.rs:134-170 | With distinct role names, index j is among a permission's grants iff role j lists it. |
| EdgeIndex.BuildIndexServices | edge/build.rs:177-184 | `service_to_permissions[s]` is the ascending list of table positions whose service is s. |
| EdgeIndex.BuildIndexLower | edge/build.rs:187-189 | Each lower-case vector is its source vector lower-cased element by element. |
| EdgeSearch.Bisect | edge/src/main.rs:573-577 | The binary search only ever reports a position that holds the key. |
| EdgeSearch.BisectSortedMiss | edge/src/main.rs:523-527 | On a strictly sorted vector, a miss means the key is absent. |
| EdgeSearch.BisectSortedFindsIff | edge/src/main.rs:523-527 | On a strictly sorted vector, the search finds the key iff it is present. |
| EdgeSearch.Position | edge/src/main.rs:573-577 | The corrected role lookup gives the first position of the key, and gives none iff the key is absent. |
| EdgeSearch.Scan | edge/src/main.rs:528-541 | A linear scan keeps exactly the accepted positions, in increasing order, with the mode's score. |
| EdgeSearch.BuildIndexSearchSafe | edge/build.rs:94-189 | A built index has all the parallel lengths the searches rely on. |
| EdgeSearch.PermissionHits | edge/src/main.rs:518-541 | Exact mode gives at most one hit (1.0). On a sorted table it gives one hit iff the name is present. Prefix mode gives exactly the lower-case prefix matches (0.9). Any other mode gives exactly the lower-case substring matches (0.85). Hits come in table order. |
| EdgeSearch.SummariesAt | edge/src/main.rs:544-553 | The summaries at the given role indices. When all are in range, there is one summary per index, in order. When none is in range, the result is empty. |
| EdgeSearch.SummariesAtAppend | edge/src/main.rs:544-553 | The lookup over a concatenation of index lists is the concatenation of the lookups. A single index gives its summary when in range and nothing otherwise. So for any mix of indices the result is the in-range summaries in order, with out-of-range indices dropped. |
| EdgeSearch.SearchPermissions | edge/src/main.rs:518-566 | At most 20 results: result i is hit i, with its permission's fields and score. Its `granted_by_roles` is the summaries at the permission's first 5 grant indices, out-of-range ones dropped. |
| EdgeSearch.RoleScan | edge/src/main.rs:578-595 | Prefix mode matches on lower-case name or title (0.9). Any other mode matches on substrings (0.85). Positions come in increasing order. |
| EdgeSearch.RoleHits | edge/src/main.rs:568-595 | Corrected role hits: exact mode finds the role iff its name is listed. |
| EdgeSearch.RoleHitsAsWritten | edge/src/main.rs:573-577 | As written, exact mode binary-searches the role names in file order. |
| EdgeSearch.RoleHitsAgreeWhenSorted | edge/src/main.rs:573-577 | When role names happen to be sorted, the code as written and the corrected code agree. |
| EdgeSearch.RoleResults | edge/src/main.rs:598-610 | Each result presents its role: name, title, description, stage, the hit's score, the full permission count, and the first min(5, count) permissions as sample. |
| EdgeSearch.SearchRoles | edge/src/main.rs:568-614 | At most 20 results: result i presents the role of hit i, with its fields, full count and first min(5, count) permissions. Exact mode returns one iff the name is listed. |
| EdgeSearch.SearchRolesAsWritten | edge/src/main.rs:568-614 | As written: result i presents the role of hit i of the binary-search lookup, as SearchRoles does, with at most 20 results. |
| EdgeSearch.BisectMissesUnsortedName | edge/src/main.rs:573-577 | Binary search over ["roles/c", "roles/b", "roles/a"] misses "roles/a". |
| EdgeSearch.ExactRoleSearchMissesListedRole | edge/src/main.rs:573-577 | On an index built from roles c, b, a, the exact search as written returns nothing for a listed role; the corrected one returns it. |
| EdgeSearch.ExactPermissionSearchOnBuiltIndex | edge/src/main.rs:523-527 | On any built index, exact permission search finds a name iff some role lists it. |
| HtmlEscape.Escape | edge/src/main.rs:454-460 | The chained replacements equal escaping character by character, and they never shorten the text. |
| HtmlEscape.EscapeIsPerChar | edge/src/main.rs:454-460 | The five chained `replace` calls equal replacing each character by its entity. |
| HtmlEscape.EscapeHasNoMarkup | edge/src/main.rs:454-460 | The output contains no raw `<`, `>`, `"` or `'`. |
| HtmlEscape.EscapeAmpersands | edge/src/main.rs:454-460 | Every `&` in the output starts one of the five entities. |
| HtmlEscape.EscapePlainText | edge/src/main.rs:454-460 | Text without special characters is returned unchanged. |
| HtmlEscape.UnescapeEscape | edge/src/main.rs:454-460 | Decoding the five entities recovers the original text. |
| HtmlEscape.EscapeInjective | edge/src/main.rs:454-460 | Different texts escape differently. |
| EdgeService.IsAllowedHost | edge/src/main.rs:123-134 | True iff there is a Host header and it is an allowed host, alone or followed by ':'. |
| EdgeService.HostAllowedIff | edge/src/main.rs:125-134 | The text before the first ':' is allowed iff the header is an allowed host, alone or followed by ':'. |
| EdgeService.PortDoesNotMatter | edge/src/main.rs:125-134 | Appending a port does not change the decision. |
| EdgeService.LastValue | edge/src/main.rs:487-491 | The parameter is absent iff no pair has the key. |
| EdgeService.LastValueFound | edge/src/main.rs:487-491 | A found value is that of the last pair with the key, as collecting pairs into a map keeps the last one. |
| EdgeService.ValidateSearch | edge/src/main.rs:491-499 | A blank trimmed `q` is refused as missing, and one over 100 UTF-8 bytes as too long. Otherwise the result is the trimmed query and the mode, which defaults to "prefix". |
| EdgeService.HandleSearch | edge/src/main.rs:485-516 | A refused query is answered with its message. An accepted one runs both searches with the same query and mode, each giving at most 20 results. |
| EdgeService.HandleSearchMeaning | edge/src/main.rs:485-516 | The search succeeds iff the trimmed query is non-blank and at most 100 bytes. |
| EdgeService.StageColor | edge/src/main.rs:249-254 | Grey is used exactly for stages other than GA, BETA and ALPHA. |
| EdgeService.Cards | edge/src/main.rs:245-269 | Granting-role cards skip out-of-range indices, with one card per index otherwise. |
| EdgeService.PermissionPage | edge/src/main.rs:226-341 | A page exists iff the name is non-empty and in the table. It shows the first permission of that name: the escaped name, service, resource and action, the grant count, and one card per granting index that resolves to a role. |
| EdgeService.RolePage | edge/src/main.rs:343-452 | A page exists iff the name is non-empty and a listed role. It shows the first role of that name: the escaped name, title, description and stage, the stage colour, the permission count, and each permission escaped, in order. |
| EdgeService.PermissionPageOnBuiltIndex | edge/src/main.rs:226-242 | On a built index, the page exists iff some role lists the name. |
| EdgeService.RoleCardHasNoMarkup | edge/src/main.rs:245-269 | Card text is escaped and contains no raw markup character. |
| EdgeService.SearchResponse | edge/src/main.rs:195-212 | A search success is 200. A failure is 400 with the error text. |
| EdgeService.PermissionResponse | edge/src/main.rs:226-242 | A missing page is 404 with the not-found page. |
| EdgeService.RoleResponse | edge/src/main.rs:343-359 | A missing page is 404 with the not-found page. |
| EdgeService.FixedPathsAreNotRoutes | edge/src/main.rs:158-168 | The fixed paths do not start with any prefix route. |
| EdgeService.RoutesExclusive | edge/src/main.rs:158-168 | No path starts with two prefix routes. |
| EdgeService.Route | edge/src/main.rs:157-168 | `/` and `/index.html` give the page, `/styles.css` and `/app.js` their files, health gives "healthy" with the version, and stats the index sizes. The three prefixes reach search, the permission page and the role page. Any other path gives the 404 page. Only search can give 400. |
| EdgeService.HandleRequest | edge/src/main.rs:136-169 | OPTIONS always gets 204. Any other request from a disallowed host gets 403 with the access-denied message. Everything else is routed. |
| EdgeService.ForeignHostIsRefused | edge/src/main.rs:141-155 | A disallowed host gets only 204 (OPTIONS) or 403. |
| ScraperErrors.RemediationAdvice | scraper/src/error.rs:46-58 | Advice is present exactly for authentication and rate-limit errors, and it is that class's text. |
| ScraperErrors.ClassesAreDisjoint | scraper/src/error.rs:36-58 | No error is both an authentication and a rate-limit error, and the advice identifies the class. |
| ScraperErrors.ClassificationIgnoresMessage | scraper/src/error.rs:36-58 | Changing the message changes neither the class nor the advice. |
| ScraperModels.StageFromGcp | scraper/src/models.rs:136-141 | Any string other than "BETA", "ALPHA" or "DEPRECATED" maps to the default stage. |
| ScraperModels.StageNameRoundTrip | scraper/src/models.rs:6-21 | A stage's name maps back to the stage, and names are distinct. |
| ScraperModels.StageFromGcpIsGaUnlessNamed | scraper/src/models.rs:136-141 | The stage is not GA iff the string is one of the three names, and then it is that stage. |
| ScraperModels.Words | scraper/src/models.rs:161-167 | Whitespace splitting gives non-empty words made of non-whitespace characters of the text. |
| ScraperModels.WordsCoverText | scraper/src/models.rs:161-167 | The words, concatenated, are the text with all whitespace removed. |
| ScraperModels.Clean | scraper/src/models.rs:168-171 | A cleaned word is no longer than the word and keeps only alphanumeric characters of it. |
| ScraperModels.ExtractKeywords | scraper/src/models.rs:160-186 | Each keyword is lower-case alphanumeric, longer than 3, and not a stop word. Keywords form a set, so they are duplicate-free. |
| ScraperModels.KeywordsIff | scraper/src/models.rs:160-186 | k is a keyword iff it is the cleaned form of some word of the lower-cased "title description" and passes the filter. |
| ScraperModels.StopListIsRedundant | scraper/src/models.rs:162-176 | For alphanumeric words, the filter is equivalent to the length test alone. |
| ScraperModels.FromGcp | scraper/src/models.rs:135-157 | Fields are copied. The stage is mapped, and is GA unless named. `permission_count` is the list length. Keywords are the keywords of the title and description, which ScraperModels.KeywordsIff characterises. |
| ScraperModels.FromName | scraper/src/models.rs:192-210 | service, resource and action are '.'-parts 0, 1 and 2, defaulting to "". Optional fields are None and `roles_granting` is empty. |
| ScraperModels.FromNameParts | scraper/src/models.rs:192-197 | For "s.r.a" followed by anything starting with '.', the parts are s, r and a; extra parts are ignored. |
| ScraperModels.FromNameShort | scraper/src/models.rs:192-197 | A name without '.' is its own service, and resource and action are empty. |
| Transformer.PushNamesEntry | scraper/src/transformer.rs:61-69 | One role's pass appends its name to permission i once per listed name that resolves to i. |
| Transformer.PushRolesEntry | scraper/src/transformer.rs:61-69 | The whole loop appends to each permission its granting role names, in role order. |
| Transformer.GrantingMembers | scraper/src/transformer.rs:54-69 | A name is granting for permission i iff some role of that name lists a name that resolves to i. |
| Transformer.BuildRolePermissionReferences | scraper/src/transformer.rs:52-78 | Same permissions in the same order, only `roles_granting` changed, and each list strictly sorted (hence duplicate-free). |
| Transformer.ReferencesMembers | scraper/src/transformer.rs:52-78 | A name ends up in a list iff it was there before or some role of that name lists a name resolving to that permission. |
| Transformer.DistinctNamesResolve | scraper/src/transformer.rs:54-58 | With distinct names, only permission i's own name resolves to i. |
| Transformer.ReferencesExact | scraper/src/transformer.rs:52-78 | With distinct names and empty lists, a role is listed for p iff that role lists p's name. |
| Transformer.StageIndex | scraper/src/transformer.rs:88-95 | Keys are the upper-case stages present, and each key's indices are ascending. An index is under a key iff that role has that stage. |
| Transformer.ServiceIndex | scraper/src/transformer.rs:98-106 | Keys are the non-empty services, and each key's indices are ascending. An index is under a key iff that permission has that service. |
| Transformer.BuildIndexes | scraper/src/transformer.rs:81-121 | Each name maps to the last index holding that name. Stage and service indexes are as above. |
| Transformer.Transform | scraper/src/transformer.rs:15-48 | Roles are kept. Permissions are the reverse references built from the roles, keeping count and order. Metadata totals equal the lengths, the version is "v1" and the change lists are empty. Indexes are built from the result. |
| Transformer.TransformGrantingExact | scraper/src/transformer.rs:15-48 | For fetched data, where permission names are distinct and carry no references yet, a name is among a transformed permission's granting roles iff a role of that name lists the permission. GcpClient.ExtractPermissions produces data of that form. |
| Transformer.TransformKeepsNames | scraper/src/transformer.rs:15-48 | Permission names are unchanged, and every one of them is in the name index. |
| GcpClient.Classify | scraper/src/gcp.rs:136-174 | 401 or 403 gives an authentication error, 429 a rate-limit error, and any other non-2xx an API error. A 2xx response with a body that decodes succeeds; otherwise it is an HTTP error. |
| GcpClient.ApiErrorMessage | scraper/src/gcp.rs:159-168 | The API error message is "GCP API error (status): " followed by the body, or by "Unknown error" when no body can be read. |
| GcpClient.ListRoles | scraper/src/gcp.rs:106-133 | Between 1 and 6 attempts. The result is the last attempt's, and every earlier attempt was rate limited. Before the cap, the result is not rate limited. Wait j is 100·2^j ms. |
| GcpClient.ListRolesFirstSettled | scraper/src/gcp.rs:116-129 | The first attempt that is not rate limited is returned at once. |
| GcpClient.ListRolesGivesUp | scraper/src/gcp.rs:119-129 | When every attempt is rate limited there are 6 attempts, the waits are 100, 200, 400, 800 and 1600 ms, and the rate-limit error is returned. |
| GcpClient.FetchLoop | scraper/src/gcp.rs:54-77 | A page fetch ends in an error that is never a rate limit, or in a collection that extends what was gathered. |
| GcpClient.FetchLoopFollowsChain | scraper/src/gcp.rs:54-77 | Given a server that always answers, the loop follows the page-token chain and collects all pages' roles in order. It stops exactly at the page with no next token. |
| GcpClient.PagesVisitedFollowed | scraper/src/gcp.rs:54-77 | For any server, the pages a successful fetch received form an answered chain: the first page was answered for the starting token, and each later page for its predecessor's next token. The chain stops at the first page with no next token. |
| GcpClient.FetchLoopCollectsVisited | scraper/src/gcp.rs:54-77 | For any server, retries included, a successful fetch returns what it had gathered followed by the roles of the pages it received, page by page. |
| GcpClient.ListedIff | scraper/src/gcp.rs:82-92 | A name is listed iff some role includes it. |
| GcpClient.ExtractPermissions | scraper/src/gcp.rs:82-92 | One `from_name` permission per distinct name listed by any role, and no others. |
| GcpClient.ConvertRoles | scraper/src/gcp.rs:61 | Every fetched role is converted by `from_gcp`, in order. |
| GcpClient.FetchAllData | scraper/src/gcp.rs:46-103 | Errors are passed on and are never rate limits. On success the roles are the converted roles of a chain of pages the server answered, in order. The chain starts at the first page, follows each page's next token, and ends at the first page without one. The permissions are exactly the distinct listed names, and the fetch time is recorded. |
| GcpClient.FetchAllDataCollectsPages | scraper/src/gcp.rs:46-103 | Against a server that always answers, the fetch succeeds with every page's roles converted in order. |
| SiteDataset.AddGrantsLookup | scripts/generate_static_site.py:88-99 | One role's pass appends its grant once per occurrence of p in its list. |
| SiteDataset.GrantMapLookup | scripts/generate_static_site.py:88-99 | The grant map for p is each role's grant, repeated per listing, in role order. |
| SiteDataset.GrantsForMeaning | scripts/generate_static_site.py:88-99 | p gets one grant per occurrence in the roles' lists. A grant is present iff it comes from a role listing p. |
| SiteDataset.BuildDataset | scripts/generate_static_site.py:82-134 | Roles keep length and order. Each role field is the record's value or its default: '' for name, title, description and etag, 'GA' for stage, no permissions. Permission names are strictly sorted and are exactly the listed names. Parts are '.'-pieces. Grants are as above. Metadata totals equal the lengths. |
| SiteDataset.ListedIff | scripts/generate_static_site.py:86-93 | A name is listed iff some role includes it. |
| SiteDataset.RepeatedListingCountsTwice | scripts/generate_static_site.py:88-99 | A role listing p twice grants p twice: grants are not de-duplicated. |
| SiteDataset.StageBadge | scripts/generate_static_site.py:222-226 | The class is "badge-" plus the lower-cased stage for ga, beta, alpha and deprecated, and "badge-ga" otherwise. A missing or empty stage shows "GA". |
| SiteDataset.KnownStagesHaveOwnBadge | scripts/generate_static_site.py:222-226 | Each known stage, in any case, gets its own class, and an empty stage shows GA. |
| SiteDataset.MetaDescription | scripts/generate_static_site.py:280 | "title - " followed by the description: whole when at most 150 characters, else its first 150 characters and "...". |
| SiteDataset.MetaDescriptionCut | scripts/generate_static_site.py:280 | The description is cut iff it is longer than 150 characters. |
| SiteDataset.RolePath | scripts/generate_static_site.py:282 | The path never grows, and a name without "roles/" is unchanged. |
| SiteDataset.PredefinedRolePath | scripts/generate_static_site.py:282 | "roles/x" gives x when x contains no further "roles/". |
| Text.Utf8Len | backend/src/main.rs:76-80 | The UTF-8 byte length lies between the character count and four times it, and equals the count on ASCII text. |
| StringOrder.SortDedup | scraper/src/transformer.rs:72-75 | Sorting and de-duplicating gives a strictly sorted list with the same elements. |
| Seqs.LastIndexMap | scraper/src/transformer.rs:88-99 | A name-to-index map built by inserting in order maps each name to its last index. |

## Left out

- HTTP and server plumbing are not modelled: the actix setup, CORS, headers and Fastly objects. HTML, CSS and XML template text is display only. The model keeps only status codes and which page or body variant is chosen.
- File and network I/O are not modelled: file reads, serde/bincode encoding and decoding, `scraper/src/storage.rs`, the reqwest and urllib calls, `get_token`, and the Python `main`. Parsed data is an input. In the backend a read or parse failure is `None`, and the engine stays empty. In the edge build only a missing data file is `None`, giving the empty index. A read or parse failure there panics through `expect` and aborts the build, which the model does not represent.
- The scraper CLI, logging, the `GcpClient::new` environment lookup, and the re-exporting `lib.rs` files are not modelled.
- Async sleeps and locking are not modelled. The backoff waits are returned as values, and the 10-second wait before a page retry is not recorded.
- Floating point is not modelled: scores are `real`. The `union == 0` branch of `calculate_similarity` is modelled, but cannot be reached.
- Unicode case folding and `is_alphanumeric` are modelled for ASCII only (Rust and Python alike). Where the source compares a UTF-8 byte length (the edge query limit, the length test of `extract_ngrams` in Similarity.ExtractNgramsAsWritten), the model counts bytes exactly.
- Hash map and hash set iteration order is not modelled: keywords are a set, and `finalize`'s visit order does not affect the result.
- GcpClient.ExtractPermissions: produces the permissions in sorted order, which is one of the orders the source's hash set can give.
- GcpClient.FetchAllData: the source retries a rate-limited page forever. The model takes a `fuel` bound on page requests and answers `OutOfFuel` when it runs out. FetchAllDataCollectsPages shows that enough fuel always suffices for a server that answers.
- GcpClient.Classify: the status text and whether a body could be read are inputs. They are not derived from a real response.
- EdgeSearch.SearchRolesAsWritten: whether exact mode finds a listed role is not stated in general. The counterexample lemmas show that it can miss one.
- BackendApi.Search: returns SearchEngine.SearchPermissions and SearchEngine.SearchRoles, so its fuzzy results use the corrected n-gram extractor (see the lines below).
- EdgeService.HandleSearch: runs the corrected EdgeSearch.SearchRoles. Its exact mode finds a listed role by first position, where the deployed handler's binary search over unsorted role names can miss it (see Findings; EdgeSearch.SearchRolesAsWritten is the deployed lookup).
- EdgeService.Route: its search route goes through EdgeService.HandleSearch, so it finds exact role matches the deployed handler misses.
- EdgeService.HandleRequest: routes through EdgeService.Route, with the same corrected exact role lookup.
- SearchEngine.PermissionHits: fuzzy mode scores with the corrected extractor (Similarity.ExtractNgrams), not the source's byte-length test. It differs from the source on short non-ASCII text (SearchEngine.GramSimilarityDiffersOnShortNonAscii) and agrees on ASCII (SearchEngine.GramSimilarityAgreesOnAscii).
- SearchEngine.RoleHits: fuzzy mode uses the corrected extractor, with the same difference on short non-ASCII text as PermissionHits.
- SearchEngine.SearchPermissions: inherits the corrected extractor from PermissionHits in fuzzy mode.
- SearchEngine.SearchRoles: inherits the corrected extractor from RoleHits in fuzzy mode.
- SearchEngine.SearchFuzzy: uses the corrected extractor, like fuzzy mode.
- SearchEngine.FuzzyPermissionScore: scores with SearchEngine.GramSimilarity, the corrected extractor.
- SearchEngine.FuzzyRoleScore: scores with SearchEngine.GramSimilarity, the corrected extractor.
- SearchEngine.GramSimilarity: uses the corrected extractor; SearchEngine.GramSimilarityAsWritten is the source's.
- `u32`/`usize` widths are not modelled: indices and counts are `nat`, and no realistic index size overflows.
- The query-string percent-decoding of edge requests is not modelled: parameters arrive as decoded key/value pairs.
- The frontend client (`app.js`) is not part of this model.
- The backend's static page, sitemap and health handlers are not modelled (`backend/src/main.rs:56-62, 106-186`). For the edge, the choice of route and the health body ("healthy" with the version) are modelled. The bodies of its static assets, their content types and its cache headers are not.
- `fetch_permission_metadata` and the HTML page and sitemap generation of the Python script are not modelled. Neither is its use of `html.escape` and `quote`.
- `SearchRequest.limit` and `offset` are decoded with their defaults, but the source never applies them to a search, and neither does the model.
- Edge permission pages list every granting role, while edge search lists at most 5. The model keeps both as written.

## Findings

| source | as written | input that shows it | evidently intended | confidence | as-written member | corrected member |
|---|---|---|---|---|---|---|
| edge/src/main.rs:573-577 | Exact role search binary-searches `role_names`, which `edge/build.rs:132-149` keeps in file order, unsorted. | Roles named roles/c, roles/b, roles/a; query "roles/a" finds nothing. | Exact role search finds a role iff its name is listed. | high; not executed | EdgeSearch.SearchRolesAsWritten (with EdgeSearch.RoleHitsAsWritten, EdgeSearch.BisectMissesUnsortedName, EdgeSearch.ExactRoleSearchMissesListedRole) | EdgeSearch.SearchRoles (with EdgeSearch.RoleHits, EdgeSearch.Position) |
| backend/src/search/engine.rs:384-394 | `extract_ngrams` tests the text's UTF-8 byte length against n but takes windows over characters. | "éa" (2 characters, 3 bytes) gives no trigram, and "éa" against "üb" scores 1.0. | A text shorter than n characters is its own only gram, so the list is never empty. | high; not executed | Similarity.ExtractNgramsAsWritten (with Similarity.ShortNonAsciiTextHasNoGrams, Similarity.AsWrittenScoresDifferentTextsAsEqual, SearchEngine.GramSimilarityAsWritten, SearchEngine.GramSimilarityDiffersOnShortNonAscii) | Similarity.ExtractNgrams (used by SearchEngine.GramSimilarity and so by the engine's fuzzy searches; SearchEngine.GramSimilarityAgreesOnAscii) |

=== FILE: backend_api.dfy ===
/**
 * The backend's HTTP layer over the engine (backend/src/main.rs,
 * backend/src/models.rs, backend/src/error.rs): the search request with its
 * defaults, the validation and mode dispatch of the search endpoint, the
 * loading sequence that builds the engine from parsed role data, and the API
 * error type's status codes and messages.
 */
module BackendApi {
  import opened Wrappers
  import opened Text
  import opened Seqs
  import opened SearchEngine

  // ---------------------------------------------------------------------------
  // Request model (models.rs)

  datatype SearchMode = Prefix | Exact | Fuzzy

  /** The lower-case name serde uses for each mode, and the string the engine receives. */
  function ModeName(m: SearchMode): string {
    match m
    case Prefix => "prefix"
    case Exact => "exact"
    case Fuzzy => "fuzzy"
  }

  /** The `mode` query parameter: absent means prefix; otherwise one of the lower-case names. */
  function ParseMode(raw: Option<string>): (r: Result<SearchMode, string>)
    ensures raw.None? ==> r == Ok(Prefix)
    ensures raw.Some? ==> (r.Ok? <==> raw.value in {"prefix", "exact", "fuzzy"})
    ensures raw.Some? && r.Ok? ==> ModeName(r.value) == raw.value
  {
    match raw
    case None => Ok(Prefix)
    case Some(s) =>
      if s == "prefix" then Ok(Prefix)
      else if s == "exact" then Ok(Exact)
      else if s == "fuzzy" then Ok(Fuzzy)
      else Err("unknown variant")
  }

  /** Every mode parses back from its name, so the names are pairwise different. */
  lemma ModeNameRoundTrip(m: SearchMode)
    ensures ParseMode(Some(ModeName(m))) == Ok(m)
  {
  }

  lemma ModeNameInjective(a: SearchMode, b: SearchMode)
    ensures ModeName(a) == ModeName(b) <==> a == b
  {
    ModeNameRoundTrip(a);
    ModeNameRoundTrip(b);
  }

  const DefaultLimit: nat := 10
  const DefaultOffset: nat := 0

  datatype SearchRequest = SearchRequest(q: string, mode: SearchMode, limit: nat, offset: nat)

  /**
   * Deserializing the query string: `q` is required, `mode` defaults to
   * prefix, `limit` to 10 and `offset` to 0.
   */
  function DecodeRequest(q: Option<string>, mode: Option<string>, limit: Option<nat>, offset: Option<nat>)
    : (r: Result<SearchRequest, string>)
    ensures r.Ok? <==> q.Some? && ParseMode(mode).Ok?
    ensures r.Ok? ==> r.value.q == q.value
    ensures r.Ok? && mode.None? ==> r.value.mode == Prefix
    ensures r.Ok? && mode.Some? ==> ModeName(r.value.mode) == mode.value
    ensures r.Ok? ==> r.value.limit == (if limit.Some? then limit.value else 10)
    ensures r.Ok? ==> r.value.offset == (if offset.Some? then offset.value else 0)
  {
    if q.None? then Err("missing field `q`")
    else
      match ParseMode(mode)
      case Err(msg) => Err(msg)
      case Ok(m) => Ok(SearchRequest(q.value, m, GetOr(limit, DefaultLimit), GetOr(offset, DefaultOffset)))
  }

  // ---------------------------------------------------------------------------
  // Search endpoint (main.rs)

  const MaxQueryBytes: nat := 100
  const Threshold: real := 0.2

  const EmptyQueryMessage: string := "Query parameter 'q' is required and cannot be empty"
  const LongQueryMessage: string := "Query too long (max 100 characters)"

  datatype SearchData = SearchData(
    permissions: seq<PermissionSearchResult>,
    roles: seq<RoleSearchResult>,
    query: string,
    mode: string)

  datatype SearchBody = Found(data: SearchData) | Rejected(error: string)

  datatype SearchReply = SearchReply(status: nat, body: SearchBody)

  /**
   * The search handler: rejects a query that is empty after trimming, then one
   * longer than 100 bytes, and otherwise runs both searches with the trimmed
   * query, the mode's name and threshold 0.2.
   */
  function Search(req: SearchRequest, e: Engine): (r: SearchReply)
    requires RoleNamesResolve(e)
    ensures r.status == 200 || r.status == 400
    ensures r.status == 200 <==> r.body.Found?
    ensures AllWhitespace(req.q) ==> r == SearchReply(400, Rejected(EmptyQueryMessage))
    ensures !AllWhitespace(req.q) && Utf8Len(Trim(req.q)) > MaxQueryBytes ==>
              r == SearchReply(400, Rejected(LongQueryMessage))
    ensures r.status == 200 <==> !AllWhitespace(req.q) && Utf8Len(Trim(req.q)) <= MaxQueryBytes
    ensures r.body.Found? ==>
              && r.body.data.query == Trim(req.q)
              && r.body.data.mode == ModeName(req.mode)
              && r.body.data.permissions == SearchPermissions(e, Trim(req.q), ModeName(req.mode), Threshold)
              && r.body.data.roles == SearchRoles(e, Trim(req.q), ModeName(req.mode), Threshold)
              && |r.body.data.permissions| <= ResultCap && |r.body.data.roles| <= ResultCap
  {
    var query := Trim(req.q);
    TrimEmptyIff(req.q);
    if |query| == 0 then SearchReply(400, Rejected(EmptyQueryMessage))
    else if Utf8Len(query) > MaxQueryBytes then SearchReply(400, Rejected(LongQueryMessage))
    else
      var mode := ModeName(req.mode);
      SearchReply(200, Found(SearchData(SearchPermissions(e, query, mode, Threshold),
                                        SearchRoles(e, query, mode, Threshold), query, mode)))
  }

  // ---------------------------------------------------------------------------
  // Loading (main.rs load_iam_data), over already parsed data

  datatype RoleData = RoleData(
    name: string,
    title: string,
    description: string,
    stage: string,
    includedPermissions: seq<string>)

  function IndexOne(e: Engine, rd: RoleData): Engine {
    IndexRole(e, rd.name, rd.title, rd.description, rd.stage, rd.includedPermissions)
  }

  /** `index_role` once per role, in file order. */
  function IndexAll(e: Engine, rs: seq<RoleData>): Engine
    decreases |rs|
  {
    if |rs| == 0 then e else IndexAll(IndexOne(e, rs[0]), rs[1..])
  }

  /** The role names recorded for `p` by indexing `rs`: each role once per listing, in role order. */
  function GrantingRoles(rs: seq<RoleData>, p: string): seq<string>
    decreases |rs|
  {
    if |rs| == 0 then [] else Repeat(rs[0].name, Count(rs[0].includedPermissions, p)) + GrantingRoles(rs[1..], p)
  }

  /** A name is among the granting roles of `p` exactly when a role of that name lists `p`. */
  lemma {:induction false} GrantingRolesMembers(rs: seq<RoleData>, p: string, n: string)
    ensures n in GrantingRoles(rs, p) <==>
              exists i :: 0 <= i < |rs| && rs[i].name == n && p in rs[i].includedPermissions
    decreases |rs|
  {
    if |rs| > 0 {
      GrantingRolesMembers(rs[1..], p, n);
      var head := Repeat(rs[0].name, Count(rs[0].includedPermissions, p));
      assert n in head <==> n == rs[0].name && p in rs[0].includedPermissions by {
        if n in head {
          assert head[0] == rs[0].name;
        }
        if n == rs[0].name && p in rs[0].includedPermissions {
          assert head[0] == n;
        }
      }
      if exists i :: 0 < i < |rs| && rs[i].name == n && p in rs[i].includedPermissions {
        var i :| 0 < i < |rs| && rs[i].name == n && p in rs[i].includedPermissions;
        assert rs[1..][i - 1] == rs[i];
      }
      if exists i :: 0 <= i < |rs[1..]| && rs[1..][i].name == n && p in rs[1..][i].includedPermissions {
        var i :| 0 <= i < |rs[1..]| && rs[1..][i].name == n && p in rs[1..][i].includedPermissions;
        assert rs[i + 1] == rs[1..][i];
      }
    }
  }

  function AllListed(rs: seq<RoleData>): set<string>
    decreases |rs|
  {
    if |rs| == 0 then {} else Elems(rs[0].includedPermissions) + AllListed(rs[1..])
  }

  function RoleNames(rs: seq<RoleData>): (r: seq<string>)
    ensures |r| == |rs| && forall i :: 0 <= i < |rs| ==> r[i] == rs[i].name
  {
    seq(|rs|, i requires 0 <= i < |rs| => rs[i].name)
  }

  /** Indexing a list of roles records, for each permission, the roles that list it after what was there. */
  lemma {:induction false} IndexAllGranted(e: Engine, rs: seq<RoleData>, p: string)
    ensures Granted(IndexAll(e, rs), p) == Granted(e, p) + GrantingRoles(rs, p)
    decreases |rs|
  {
    if |rs| > 0 {
      var e1 := IndexOne(e, rs[0]);
      IndexAllGranted(e1, rs[1..], p);
      var head := Repeat(rs[0].name, Count(rs[0].includedPermissions, p));
      assert Granted(e1, p) == Granted(e, p) + head;
      assert GrantingRoles(rs, p) == head + GrantingRoles(rs[1..], p);
      AppendAssoc(Granted(e, p), head, GrantingRoles(rs[1..], p));
    }
  }

  /** Indexing a list of roles adds exactly the permissions they list. */
  lemma {:induction false} IndexAllPermissions(e: Engine, rs: seq<RoleData>)
    ensures IndexAll(e, rs).permissions.Keys == e.permissions.Keys + AllListed(rs)
    decreases |rs|
  {
    if |rs| > 0 {
      IndexRolePermissions(e, rs[0].name, rs[0].title, rs[0].description, rs[0].stage, rs[0].includedPermissions);
      IndexAllPermissions(IndexOne(e, rs[0]), rs[1..]);
    }
  }

  /** Indexing a list of roles appends their names in order and keeps the engine valid. */
  lemma {:induction false} IndexAllRoleNames(e: Engine, rs: seq<RoleData>)
    ensures IndexAll(e, rs).allRoleNames == e.allRoleNames + RoleNames(rs)
    ensures Valid(e) ==> Valid(IndexAll(e, rs))
    decreases |rs|
  {
    if |rs| > 0 {
      IndexAllRoleNames(IndexOne(e, rs[0]), rs[1..]);
      if Valid(e) {
        IndexRoleKeepsValid(e, rs[0].name, rs[0].title, rs[0].description, rs[0].stage, rs[0].includedPermissions);
      }
      assert RoleNames(rs) == [rs[0].name] + RoleNames(rs[1..]);
      AppendAssoc(e.allRoleNames, [rs[0].name], RoleNames(rs[1..]));
    }
  }

  function ToRole(rd: RoleData): Role {
    Role(rd.name, rd.title, rd.description, rd.stage, rd.includedPermissions)
  }

  /** The last role in `rs` named `n`, if any. */
  function LastNamed(rs: seq<RoleData>, n: string): (r: Option<RoleData>)
    ensures r.Some? <==> n in RoleNames(rs)
    ensures r.Some? ==> r.value in rs && r.value.name == n
    decreases |rs|
  {
    if |rs| == 0 then None
    else
      var k := |rs| - 1;
      assert RoleNames(rs) == RoleNames(rs[..k]) + [rs[k].name];
      if rs[k].name == n then Some(rs[k]) else LastNamed(rs[..k], n)
  }

  lemma IndexOneRoles(e: Engine, rd: RoleData)
    ensures IndexOne(e, rd).roles == e.roles[rd.name := ToRole(rd)]
  {
  }

  lemma LastNamedSplit(pre: seq<RoleData>, last: RoleData, n: string)
    ensures LastNamed(pre + [last], n) == if last.name == n then Some(last) else LastNamed(pre, n)
  {
    assert (pre + [last])[..|pre|] == pre;
  }

  /** A role name repeated in the data keeps the record of its last occurrence. */
  lemma {:induction false} IndexAllRoles(e: Engine, rs: seq<RoleData>)
    ensures forall n :: n in RoleNames(rs) ==>
              n in IndexAll(e, rs).roles && IndexAll(e, rs).roles[n] == ToRole(LastNamed(rs, n).value)
    ensures forall n :: n !in RoleNames(rs) && n in e.roles ==>
              n in IndexAll(e, rs).roles && IndexAll(e, rs).roles[n] == e.roles[n]
    decreases |rs|
  {
    if |rs| > 0 {
      var k := |rs| - 1;
      var pre := rs[..k];
      var last := rs[k];
      assert rs == pre + [last];
      IndexAllSplit(e, pre, last);
      IndexAllRoles(e, pre);
      var mid := IndexAll(e, pre);
      IndexOneRoles(mid, last);
      var roles := IndexAll(e, rs).roles;
      assert roles == mid.roles[last.name := ToRole(last)];
      assert RoleNames(rs) == RoleNames(pre) + [last.name];
      forall n | n in RoleNames(rs)
        ensures n in roles && roles[n] == ToRole(LastNamed(rs, n).value)
      {
        LastNamedSplit(pre, last, n);
      }
    }
  }

  /** Indexing a list and then one more role is indexing the extended list. */
  lemma {:induction false} IndexAllSplit(e: Engine, rs: seq<RoleData>, last: RoleData)
    ensures IndexAll(e, rs + [last]) == IndexOne(IndexAll(e, rs), last)
    decreases |rs|
  {
    if |rs| > 0 {
      assert (rs + [last])[1..] == rs[1..] + [last];
      IndexAllSplit(IndexOne(e, rs[0]), rs[1..], last);
    }
  }

  /**
   * `load_iam_data`: with no parsable data the engine stays empty; otherwise
   * every role is indexed in file order and the engine is finalized once, so
   * each permission's `grantedByRoles` lists the roles that list it, once per
   * listing, in file order.
   */
  function LoadIamData(data: Option<seq<RoleData>>): (r: Engine)
    ensures Valid(r)
    ensures data.None? ==> r == New()
    ensures data.Some? ==> r.permissions.Keys == AllListed(data.value)
    ensures data.Some? ==> r.allRoleNames == RoleNames(data.value)
    ensures data.Some? ==> forall n :: n in RoleNames(data.value) ==>
              n in r.roles && r.roles[n] == ToRole(LastNamed(data.value, n).value)
    ensures data.Some? ==> forall p :: p in r.permissions ==> r.permissions[p].grantedByRoles == GrantingRoles(data.value, p)
  {
    match data
    case None =>
      NewIsValid();
      New()
    case Some(rs) =>
      LoadValid(rs);
      LoadContents(rs);
      LoadGrants(rs);
      Finalize(IndexAll(New(), rs))
  }

  lemma LoadValid(rs: seq<RoleData>)
    ensures Valid(Finalize(IndexAll(New(), rs)))
  {
    NewIsValid();
    IndexAllRoleNames(New(), rs);
    FinalizeKeepsValid(IndexAll(New(), rs));
  }

  lemma LoadContents(rs: seq<RoleData>)
    ensures var r := Finalize(IndexAll(New(), rs));
            && r.permissions.Keys == AllListed(rs)
            && r.allRoleNames == RoleNames(rs)
            && forall n :: n in RoleNames(rs) ==> n in r.roles && r.roles[n] == ToRole(LastNamed(rs, n).value)
  {
    IndexAllPermissions(New(), rs);
    IndexAllRoleNames(New(), rs);
    IndexAllRoles(New(), rs);
    var e := IndexAll(New(), rs);
    assert Finalize(e).roles == e.roles && Finalize(e).allRoleNames == e.allRoleNames;
  }

  lemma LoadGrants(rs: seq<RoleData>)
    ensures var r := Finalize(IndexAll(New(), rs));
            forall p :: p in r.permissions ==> r.permissions[p].grantedByRoles == GrantingRoles(rs, p)
  {
    var e := IndexAll(New(), rs);
    forall p | p in Finalize(e).permissions ensures Finalize(e).permissions[p].grantedByRoles == GrantingRoles(rs, p) {
      IndexAllGranted(New(), rs, p);
      LoadedPermissionHasGrants(rs, p);
    }
  }

  /** Every permission in a loaded engine was listed by some role, so it has a recorded grant list. */
  lemma LoadedPermissionHasGrants(rs: seq<RoleData>, p: string)
    requires p in IndexAll(New(), rs).permissions
    ensures p in IndexAll(New(), rs).permissionToRoles
  {
    IndexAllGranted(New(), rs, p);
    IndexAllPermissions(New(), rs);
    AllListedWitness(rs, p);
    var i :| 0 <= i < |rs| && p in rs[i].includedPermissions;
    GrantingRolesMembers(rs, p, rs[i].name);
  }

  lemma {:induction false} AllListedWitness(rs: seq<RoleData>, p: string)
    requires p in AllListed(rs)
    ensures exists i :: 0 <= i < |rs| && p in rs[i].includedPermissions
    decreases |rs|
  {
    if p !in Elems(rs[0].includedPermissions) {
      AllListedWitness(rs[1..], p);
      var i :| 0 <= i < |rs[1..]| && p in rs[1..][i].includedPermissions;
      assert rs[i + 1] == rs[1..][i];
    }
  }

  /** A loaded engine can always be searched: every listed role name resolves. */
  lemma LoadedEngineSearchable(data: Option<seq<RoleData>>)
    ensures RoleNamesResolve(LoadIamData(data))
  {
    var e := LoadIamData(data);
    assert forall n :: n in e.allRoleNames ==> n in Elems(e.allRoleNames);
  }

  // ---------------------------------------------------------------------------
  // Errors (error.rs)

  datatype ApiError = NotFound(msg: string) | BadRequest(msg: string) | InternalError(msg: string)

  /** The HTTP status of each variant. */
  function StatusCode(err: ApiError): (r: nat)
    ensures 400 <= r < 600
    ensures r == 404 <==> err.NotFound?
    ensures r == 400 <==> err.BadRequest?
    ensures r == 500 <==> err.InternalError?
  {
    match err
    case NotFound(_) => 404
    case BadRequest(_) => 400
    case InternalError(_) => 500
  }

  /** Two errors share a status exactly when they are the same variant. */
  lemma StatusCodeDistinguishesVariants(a: ApiError, b: ApiError)
    ensures StatusCode(a) == StatusCode(b) <==>
              (a.NotFound? && b.NotFound?) || (a.BadRequest? && b.BadRequest?) || (a.InternalError? && b.InternalError?)
  {
  }

  function DisplayPrefix(err: ApiError): string {
    match err
    case NotFound(_) => "Not Found: "
    case BadRequest(_) => "Bad Request: "
    case InternalError(_) => "Internal Error: "
  }

  /** The `Display` text: the variant's prefix followed by the message unchanged. */
  function Display(err: ApiError): (r: string)
    ensures StartsWith(r, DisplayPrefix(err))
    ensures r[|DisplayPrefix(err)|..] == err.msg
  {
    DisplayPrefix(err) + err.msg
  }

  /** Recovers an error from its `Display` text. */
  function ParseDisplay(s: string): Option<ApiError> {
    if StartsWith(s, "Not Found: ") then Some(NotFound(s[|"Not Found: "|..]))
    else if StartsWith(s, "Bad Request: ") then Some(BadRequest(s[|"Bad Request: "|..]))
    else if StartsWith(s, "Internal Error: ") then Some(InternalError(s[|"Internal Error: "|..]))
    else None
  }

  /** The display text determines the error: it parses back to exactly the error shown. */
  lemma DisplayRoundTrip(err: ApiError)
    ensures ParseDisplay(Display(err)) == Some(err)
  {
    var s := Display(err);
    assert s[..|DisplayPrefix(err)|] == DisplayPrefix(err);
    match err
    case NotFound(_) =>
    case BadRequest(_) =>
      assert s[..|"Not Found: "|] != "Not Found: " by { assert s[0] == 'B'; }
    case InternalError(_) =>
      assert s[..|"Not Found: "|] != "Not Found: " by { assert s[0] == 'I'; }
      assert s[..|"Bad Request: "|] != "Bad Request: " by { assert s[0] == 'I'; }
  }

  datatype ErrorBody = ErrorBody(success: bool, error: string)

  /** `error_response`: the variant's status and a body with `success = false` and the display text. */
  function ErrorResponse(err: ApiError): (r: (nat, ErrorBody))
    ensures r.0 == StatusCode(err)
    ensures !r.1.success
    ensures ParseDisplay(r.1.error) == Some(err)
  {
    DisplayRoundTrip(err);
    (StatusCode(err), ErrorBody(false, Display(err)))
  }
}

=== FILE: edge_html.dfy ===
/**
 * HTML escaping of the edge service's rendered pages (edge/src/main.rs
 * `html_escape`): five successive whole-string replacements, shown equal to
 * escaping each character on its own, free of markup characters, and undone
 * by decoding the five entities.
 */
module HtmlEscape {

  /** `s.replace(c, rep)` for a single character `c`. */
  function ReplaceChar(s: string, c: char, rep: string): string
    decreases |s|
  {
    if |s| == 0 then [] else (if s[0] == c then rep else [s[0]]) + ReplaceChar(s[1..], c, rep)
  }

  lemma {:induction false} ReplaceCharConcat(a: string, b: string, c: char, rep: string)
    ensures ReplaceChar(a + b, c, rep) == ReplaceChar(a, c, rep) + ReplaceChar(b, c, rep)
    decreases |a|
  {
    if |a| == 0 {
      assert a + b == b;
    } else {
      assert (a + b)[1..] == a[1..] + b;
      ReplaceCharConcat(a[1..], b, c, rep);
    }
  }

  /** A replacement leaves a string without the replaced character alone. */
  lemma {:induction false} ReplaceCharAbsent(s: string, c: char, rep: string)
    requires c !in s
    ensures ReplaceChar(s, c, rep) == s
    decreases |s|
  {
    if |s| > 0 {
      assert c !in s[1..];
      ReplaceCharAbsent(s[1..], c, rep);
    }
  }

  /** The five replacements in the source's order, ampersands first. */
  function Chain(s: string): string {
    ReplaceChar(ReplaceChar(ReplaceChar(ReplaceChar(ReplaceChar(s, '&', "&amp;"), '<', "&lt;"), '>', "&gt;"), '"', "&quot;"), '\'', "&#39;")
  }

  lemma ChainConcat(a: string, b: string)
    ensures Chain(a + b) == Chain(a) + Chain(b)
  {
    var a1, b1 := ReplaceChar(a, '&', "&amp;"), ReplaceChar(b, '&', "&amp;");
    ReplaceCharConcat(a, b, '&', "&amp;");
    var a2, b2 := ReplaceChar(a1, '<', "&lt;"), ReplaceChar(b1, '<', "&lt;");
    ReplaceCharConcat(a1, b1, '<', "&lt;");
    var a3, b3 := ReplaceChar(a2, '>', "&gt;"), ReplaceChar(b2, '>', "&gt;");
    ReplaceCharConcat(a2, b2, '>', "&gt;");
    var a4, b4 := ReplaceChar(a3, '"', "&quot;"), ReplaceChar(b3, '"', "&quot;");
    ReplaceCharConcat(a3, b3, '"', "&quot;");
    ReplaceCharConcat(a4, b4, '\'', "&#39;");
  }

  /** The entity (or the character itself) that stands for one character. */
  function EscapeChar(c: char): string {
    if c == '&' then "&amp;"
    else if c == '<' then "&lt;"
    else if c == '>' then "&gt;"
    else if c == '"' then "&quot;"
    else if c == '\'' then "&#39;"
    else [c]
  }

  /** Replacing one character at a time: each character becomes its `EscapeChar`. */
  function EscapeEach(s: string): string
    decreases |s|
  {
    if |s| == 0 then [] else EscapeChar(s[0]) + EscapeEach(s[1..])
  }

  lemma ReplaceCharOne(x: char, c: char, rep: string)
    ensures ReplaceChar([x], c, rep) == if x == c then rep else [x]
  {
    assert [x][1..] == [];
  }

  /** The replacements after the one that produced entity `e` leave it alone. */
  lemma ChainTail(e: string)
    requires forall i :: 0 <= i < |e| ==> e[i] != '<' && e[i] != '>' && e[i] != '"' && e[i] != '\''
    ensures ReplaceChar(e, '<', "&lt;") == e
    ensures ReplaceChar(e, '>', "&gt;") == e
    ensures ReplaceChar(e, '"', "&quot;") == e
    ensures ReplaceChar(e, '\'', "&#39;") == e
  {
    ReplaceCharAbsent(e, '<', "&lt;");
    ReplaceCharAbsent(e, '>', "&gt;");
    ReplaceCharAbsent(e, '"', "&quot;");
    ReplaceCharAbsent(e, '\'', "&#39;");
  }

  lemma ChainOne(c: char)
    ensures Chain([c]) == EscapeChar(c)
  {
    var s1 := ReplaceChar([c], '&', "&amp;");
    ReplaceCharOne(c, '&', "&amp;");
    if c == '&' {
      ChainTail("&amp;");
    } else {
      assert s1 == [c];
      ReplaceCharOne(c, '<', "&lt;");
      if c == '<' {
        ChainTail("&lt;");
      } else {
        ReplaceCharOne(c, '>', "&gt;");
        if c == '>' {
          ChainTail("&gt;");
        } else {
          ReplaceCharOne(c, '"', "&quot;");
          if c == '"' {
            ChainTail("&quot;");
          } else {
            ReplaceCharOne(c, '\'', "&#39;");
          }
        }
      }
    }
  }

  /**
   * `html_escape`: the five replacements. Because ampersands go first, no
   * later replacement touches an entity an earlier one produced, so the
   * result is escaping each character on its own.
   */
  function Escape(s: string): (r: string)
    ensures r == EscapeEach(s)
    ensures |r| >= |s|
  {
    EscapeIsPerChar(s);
    Chain(s)
  }

  lemma {:induction false} EscapeIsPerChar(s: string)
    ensures Chain(s) == EscapeEach(s)
    ensures |EscapeEach(s)| >= |s|
    decreases |s|
  {
    if |s| > 0 {
      assert s == [s[0]] + s[1..];
      ChainConcat([s[0]], s[1..]);
      ChainOne(s[0]);
      EscapeIsPerChar(s[1..]);
    } else {
      assert Chain([]) == [];
    }
  }

  /** Characters that may not appear raw in escaped text. */
  predicate IsMarkup(c: char) {
    c == '<' || c == '>' || c == '"' || c == '\''
  }

  lemma EscapeCharNoMarkup(c: char)
    ensures forall i :: 0 <= i < |EscapeChar(c)| ==> !IsMarkup(EscapeChar(c)[i])
  {
  }

  /** Escaped text holds no raw `<`, `>`, `"` or `'`. */
  lemma {:induction false} EscapeHasNoMarkup(s: string)
    ensures forall i :: 0 <= i < |Escape(s)| ==> !IsMarkup(Escape(s)[i])
    decreases |s|
  {
    if |s| > 0 {
      EscapeHasNoMarkup(s[1..]);
      var head, tail := EscapeChar(s[0]), EscapeEach(s[1..]);
      assert Escape(s[1..]) == tail;
      assert Escape(s) == head + tail;
      EscapeCharNoMarkup(s[0]);
      forall i | 0 <= i < |head + tail| ensures !IsMarkup((head + tail)[i]) {
        if i >= |head| {
          assert (head + tail)[i] == tail[i - |head|];
        } else {
          assert (head + tail)[i] == head[i];
        }
      }
    }
  }

  /** Escaping leaves text without the five special characters unchanged. */
  lemma {:induction false} EscapePlainText(s: string)
    requires forall i :: 0 <= i < |s| ==> !IsMarkup(s[i]) && s[i] != '&'
    ensures Escape(s) == s
    decreases |s|
  {
    if |s| > 0 {
      EscapePlainText(s[1..]);
      assert EscapeEach(s) == [s[0]] + EscapeEach(s[1..]);
      assert s == [s[0]] + s[1..];
    }
  }

  predicate StartsWithText(s: string, p: string) {
    |p| <= |s| && s[..|p|] == p
  }

  /** One of the five entities begins at position `i` of `s`. */
  predicate EntityAt(s: string, i: nat)
    requires i <= |s|
  {
    var t := s[i..];
    StartsWithText(t, "&amp;") || StartsWithText(t, "&lt;") || StartsWithText(t, "&gt;")
    || StartsWithText(t, "&quot;") || StartsWithText(t, "&#39;")
  }

  lemma EntityAtShift(head: string, tail: string, j: nat)
    requires j <= |tail| && EntityAt(tail, j)
    ensures EntityAt(head + tail, |head| + j)
  {
    assert (head + tail)[|head| + j..] == tail[j..];
  }

  lemma EntityAtFront(e: string, tail: string)
    requires e in ["&amp;", "&lt;", "&gt;", "&quot;", "&#39;"]
    ensures EntityAt(e + tail, 0)
  {
    assert (e + tail)[0..][..|e|] == e;
  }

  /** Within one character's escape, an `&` can only be the first character of an entity. */
  lemma EscapeCharAmpersand(c: char, tail: string, i: nat)
    requires i < |EscapeChar(c)| && EscapeChar(c)[i] == '&'
    ensures EntityAt(EscapeChar(c) + tail, i)
  {
    var e := EscapeChar(c);
    if c == '&' || c == '<' || c == '>' || c == '"' || c == '\'' {
      assert i == 0;
      EntityAtFront(e, tail);
    }
  }

  /** Every `&` in escaped text begins one of the five entities. */
  lemma {:induction false} EscapeAmpersands(s: string)
    ensures forall i :: 0 <= i < |Escape(s)| && Escape(s)[i] == '&' ==> EntityAt(Escape(s), i)
    decreases |s|
  {
    if |s| > 0 {
      EscapeAmpersands(s[1..]);
      var head, tail := EscapeChar(s[0]), EscapeEach(s[1..]);
      assert Escape(s[1..]) == tail;
      assert Escape(s) == head + tail;
      forall i | 0 <= i < |head + tail| && (head + tail)[i] == '&' ensures EntityAt(head + tail, i) {
        if i >= |head| {
          assert tail[i - |head|] == (head + tail)[i];
          EntityAtShift(head, tail, i - |head|);
        } else {
          assert head[i] == '&';
          EscapeCharAmpersand(s[0], tail, i);
        }
      }
    }
  }

  /** Decoding of the five entities the escaper produces; anything else is kept. */
  function Unescape(s: string): string
    decreases |s|
  {
    if |s| == 0 then []
    else if StartsWithText(s, "&amp;") then "&" + Unescape(s[5..])
    else if StartsWithText(s, "&lt;") then "<" + Unescape(s[4..])
    else if StartsWithText(s, "&gt;") then ">" + Unescape(s[4..])
    else if StartsWithText(s, "&quot;") then "\"" + Unescape(s[6..])
    else if StartsWithText(s, "&#39;") then "'" + Unescape(s[5..])
    else [s[0]] + Unescape(s[1..])
  }

  lemma UnescapeEntity(e: string, c: char, rest: string)
    requires e in ["&amp;", "&lt;", "&gt;", "&quot;", "&#39;"]
    requires c == (if e == "&amp;" then '&' else if e == "&lt;" then '<' else if e == "&gt;" then '>'
                   else if e == "&quot;" then '"' else '\'')
    ensures Unescape(e + rest) == [c] + Unescape(rest)
  {
    var s := e + rest;
    assert s[..|e|] == e;
    assert s[|e|..] == rest;
    assert StartsWithText(s, e);
    if e != "&amp;" {
      assert s[1] == e[1] && e[1] != "&amp;"[1];
    }
    if e != "&amp;" && e != "&lt;" {
      assert s[1] == e[1] && e[1] != "&lt;"[1];
    }
    if e != "&amp;" && e != "&lt;" && e != "&gt;" {
      assert s[1] == e[1] && e[1] != "&gt;"[1];
    }
    if e == "&#39;" {
      assert s[1] == e[1] && e[1] != "&quot;"[1];
    }
  }

  lemma UnescapeOne(c: char, rest: string)
    ensures Unescape(EscapeChar(c) + rest) == [c] + Unescape(rest)
  {
    if c == '&' || c == '<' || c == '>' || c == '"' || c == '\'' {
      UnescapeEntity(EscapeChar(c), c, rest);
    } else {
      var s := [c] + rest;
      assert s[0] == c && s[1..] == rest;
      assert !StartsWithText(s, "&amp;") && !StartsWithText(s, "&lt;") && !StartsWithText(s, "&gt;");
      assert !StartsWithText(s, "&quot;") && !StartsWithText(s, "&#39;");
    }
  }

  /** Decoding the entities recovers the original text. */
  lemma {:induction false} UnescapeEscape(s: string)
    ensures Unescape(Escape(s)) == s
    decreases |s|
  {
    if |s| > 0 {
      UnescapeEscape(s[1..]);
      assert EscapeEach(s) == EscapeChar(s[0]) + EscapeEach(s[1..]);
      UnescapeOne(s[0], EscapeEach(s[1..]));
      assert s == [s[0]] + s[1..];
    }
  }

  /** Distinct texts escape to distinct texts. */
  lemma EscapeInjective(a: string, b: string)
    requires Escape(a) == Escape(b)
    ensures a == b
  {
    UnescapeEscape(a);
    UnescapeEscape(b);
  }
}

=== FILE: edge_index.dfy ===
/**
 * The edge service's prebuilt index (edge/build.rs, the part of `main` that
 * turns parsed role records into a `PrebuiltIndex`): roles in input order, a
 * name-sorted permission table whose entries point back to roles by index, the
 * service-to-permission groups, and lower-case copies of the searchable names.
 */
module EdgeIndex {
  import opened Wrappers
  import opened Text
  import opened Seqs
  import opened StringOrder

  datatype Role = Role(
    name: string,
    title: string,
    description: string,
    stage: string,
    includedPermissions: seq<string>)

  datatype Permission = Permission(
    name: string,
    service: string,
    resource: string,
    action: string,
    grantedByRoles: seq<nat>)

  datatype RoleSummary = RoleSummary(name: string, title: string, stage: string)

  datatype PrebuiltIndex = PrebuiltIndex(
    permissions: seq<Permission>,
    permissionNames: seq<string>,
    roles: seq<Role>,
    roleNames: seq<string>,
    roleSummaries: seq<RoleSummary>,
    serviceToPermissions: map<string, seq<nat>>,
    permissionNamesLower: seq<string>,
    roleNamesLower: seq<string>,
    roleTitlesLower: seq<string>)

  /** The index written when there is no data file. */
  function EmptyIndex(): PrebuiltIndex {
    PrebuiltIndex([], [], [], [], [], map[], [], [], [])
  }

  function Names(roles: seq<Role>): (r: seq<string>)
    ensures |r| == |roles| && forall i :: 0 <= i < |roles| ==> r[i] == roles[i].name
  {
    seq(|roles|, i requires 0 <= i < |roles| => roles[i].name)
  }

  function SummaryOf(role: Role): RoleSummary {
    RoleSummary(role.name, role.title, role.stage)
  }

  function LowerAll(xs: seq<string>): (r: seq<string>)
    ensures |r| == |xs| && forall i :: 0 <= i < |xs| ==> r[i] == Lower(xs[i])
  {
    seq(|xs|, i requires 0 <= i < |xs| => Lower(xs[i]))
  }

  /** Every permission name listed by the roles, in role order, repeats included. */
  function AllIncluded(roles: seq<Role>): seq<string>
    decreases |roles|
  {
    if |roles| == 0 then [] else roles[0].includedPermissions + AllIncluded(roles[1..])
  }

  lemma {:induction false} AllIncludedMembers(roles: seq<Role>, p: string)
    ensures p in AllIncluded(roles) <==> exists i :: 0 <= i < |roles| && p in roles[i].includedPermissions
    decreases |roles|
  {
    if |roles| > 0 {
      AllIncludedMembers(roles[1..], p);
      if exists i :: 0 < i < |roles| && p in roles[i].includedPermissions {
        var i :| 0 < i < |roles| && p in roles[i].includedPermissions;
        assert roles[1..][i - 1] == roles[i];
      }
      if exists i :: 0 <= i < |roles[1..]| && p in roles[1..][i].includedPermissions {
        var i :| 0 <= i < |roles[1..]| && p in roles[1..][i].includedPermissions;
        assert roles[i + 1] == roles[1..][i];
      }
    }
  }

  /** A permission as first created from its dotted name, with no roles yet. */
  function NewPermission(name: string): Permission {
    Permission(name, Part(name, '.', 0), Part(name, '.', 1), Part(name, '.', 2), [])
  }

  /** The table entry for `p` before a push: the existing one, or a new one. */
  function Entry(m: map<string, Permission>, p: string): Permission {
    if p in m then m[p] else NewPermission(p)
  }

  /** `permission_map.entry(p).or_insert_with(..).granted_by_roles.push(idx)`. */
  function Push(m: map<string, Permission>, p: string, idx: nat): map<string, Permission> {
    m[p := Entry(m, p).(grantedByRoles := Entry(m, p).grantedByRoles + [idx])]
  }

  /** The inner loop over one role's permissions. */
  function PushAll(m: map<string, Permission>, perms: seq<string>, idx: nat): map<string, Permission>
    decreases |perms|
  {
    if |perms| == 0 then m else PushAll(Push(m, perms[0], idx), perms[1..], idx)
  }

  /** The outer loop: each role's permissions, pushed with the index its name resolves to. */
  function PermissionMap(m: map<string, Permission>, roles: seq<Role>, idxOf: map<string, nat>): map<string, Permission>
    requires forall i :: 0 <= i < |roles| ==> roles[i].name in idxOf
    decreases |roles|
  {
    if |roles| == 0 then m else PermissionMap(PushAll(m, roles[0].includedPermissions, idxOf[roles[0].name]), roles[1..], idxOf)
  }

  /** The role indices pushed for `p`: each role's resolved index once per listing of `p`, in role order. */
  function GrantIndices(roles: seq<Role>, idxOf: map<string, nat>, p: string): seq<nat>
    requires forall i :: 0 <= i < |roles| ==> roles[i].name in idxOf
    decreases |roles|
  {
    if |roles| == 0 then []
    else Repeat(idxOf[roles[0].name], Count(roles[0].includedPermissions, p)) + GrantIndices(roles[1..], idxOf, p)
  }

  lemma {:induction false} PushAllKeys(m: map<string, Permission>, perms: seq<string>, idx: nat)
    ensures PushAll(m, perms, idx).Keys == m.Keys + Elems(perms)
    decreases |perms|
  {
    if |perms| > 0 {
      PushAllKeys(Push(m, perms[0], idx), perms[1..], idx);
      assert Elems(perms) == {perms[0]} + Elems(perms[1..]);
    }
  }

  lemma {:induction false} PushAllEntry(m: map<string, Permission>, perms: seq<string>, idx: nat, p: string)
    requires p in PushAll(m, perms, idx)
    ensures PushAll(m, perms, idx)[p] == Entry(m, p).(grantedByRoles := Entry(m, p).grantedByRoles + Repeat(idx, Count(perms, p)))
    decreases |perms|
  {
    if |perms| == 0 {
      assert Entry(m, p) == m[p];
    } else {
      var q := perms[0];
      var m1 := Push(m, q, idx);
      PushAllEntry(m1, perms[1..], idx, p);
      if p == q {
        assert Repeat(idx, Count(perms, p)) == [idx] + Repeat(idx, Count(perms[1..], p));
        assert Entry(m1, p).grantedByRoles == Entry(m, p).grantedByRoles + [idx];
      } else {
        assert Entry(m1, p) == Entry(m, p);
      }
    }
  }

  lemma {:induction false} PermissionMapKeys(m: map<string, Permission>, roles: seq<Role>, idxOf: map<string, nat>)
    requires forall i :: 0 <= i < |roles| ==> roles[i].name in idxOf
    ensures PermissionMap(m, roles, idxOf).Keys == m.Keys + Elems(AllIncluded(roles))
    decreases |roles|
  {
    if |roles| > 0 {
      PushAllKeys(m, roles[0].includedPermissions, idxOf[roles[0].name]);
      PermissionMapKeys(PushAll(m, roles[0].includedPermissions, idxOf[roles[0].name]), roles[1..], idxOf);
      assert Elems(AllIncluded(roles)) == Elems(roles[0].includedPermissions) + Elems(AllIncluded(roles[1..]));
    }
  }

  /** Whether or not `p` is listed, one role's pushes extend `p`'s entry by one index per listing. */
  lemma EntryAfterPushAll(m: map<string, Permission>, perms: seq<string>, idx: nat, p: string)
    ensures Entry(PushAll(m, perms, idx), p)
              == Entry(m, p).(grantedByRoles := Entry(m, p).grantedByRoles + Repeat(idx, Count(perms, p)))
  {
    PushAllKeys(m, perms, idx);
    if p in PushAll(m, perms, idx) {
      PushAllEntry(m, perms, idx, p);
    } else {
      assert p !in Elems(perms);
      assert Count(perms, p) == 0;
      assert Entry(m, p).grantedByRoles + [] == Entry(m, p).grantedByRoles;
    }
  }

  lemma ResolvesTail(roles: seq<Role>, idxOf: map<string, nat>)
    requires |roles| > 0
    requires forall i :: 0 <= i < |roles| ==> roles[i].name in idxOf
    ensures forall i :: 0 <= i < |roles[1..]| ==> roles[1..][i].name in idxOf
  {
    forall i | 0 <= i < |roles[1..]| ensures roles[1..][i].name in idxOf {
      assert roles[1..][i] == roles[i + 1];
    }
  }

  lemma GrantIndicesStep(roles: seq<Role>, idxOf: map<string, nat>, p: string)
    requires |roles| > 0
    requires forall i :: 0 <= i < |roles| ==> roles[i].name in idxOf
    ensures forall i :: 0 <= i < |roles[1..]| ==> roles[1..][i].name in idxOf
    ensures GrantIndices(roles, idxOf, p)
              == Repeat(idxOf[roles[0].name], Count(roles[0].includedPermissions, p)) + GrantIndices(roles[1..], idxOf, p)
  {
    ResolvesTail(roles, idxOf);
  }

  /** Two extensions of an entry's role indices make one. */
  lemma ExtendTwice(e: Permission, e1: Permission, e2: Permission, head: seq<nat>, tail: seq<nat>)
    requires e1 == e.(grantedByRoles := e.grantedByRoles + head)
    requires e2 == e1.(grantedByRoles := e1.grantedByRoles + tail)
    ensures e2 == e.(grantedByRoles := e.grantedByRoles + (head + tail))
  {
    assert (e.grantedByRoles + head) + tail == e.grantedByRoles + (head + tail);
  }

  /** After all roles' pushes, `p`'s entry has gained the indices `GrantIndices` lists, in order. */
  lemma {:induction false} PermissionMapEntry(m: map<string, Permission>, roles: seq<Role>, idxOf: map<string, nat>, p: string)
    requires forall i :: 0 <= i < |roles| ==> roles[i].name in idxOf
    ensures Entry(PermissionMap(m, roles, idxOf), p)
              == Entry(m, p).(grantedByRoles := Entry(m, p).grantedByRoles + GrantIndices(roles, idxOf, p))
    decreases |roles|
  {
    if |roles| == 0 {
      assert Entry(m, p).grantedByRoles + [] == Entry(m, p).grantedByRoles;
    } else {
      var idx := idxOf[roles[0].name];
      var perms := roles[0].includedPermissions;
      var m1 := PushAll(m, perms, idx);
      GrantIndicesStep(roles, idxOf, p);
      assert PermissionMap(m, roles, idxOf) == PermissionMap(m1, roles[1..], idxOf);
      PermissionMapEntry(m1, roles[1..], idxOf, p);
      EntryAfterPushAll(m, perms, idx, p);
      ExtendTwice(Entry(m, p), Entry(m1, p), Entry(PermissionMap(m1, roles[1..], idxOf), p),
                  Repeat(idx, Count(perms, p)), GrantIndices(roles[1..], idxOf, p));
    }
  }

  /** The distinct listed names in ascending order: the table's name column. */
  function TableNames(rs: seq<Role>): (r: seq<string>)
    ensures StrictlySorted(r)
    ensures Elems(r) == Elems(AllIncluded(rs))
    ensures |r| == |Elems(AllIncluded(rs))|
  {
    SortDedupCount(AllIncluded(rs));
    SortDedup(AllIncluded(rs))
  }

  /** Role names resolve through the last-position map of all role names. */
  lemma NamesResolve(rs: seq<Role>)
    ensures forall i :: 0 <= i < |rs| ==> rs[i].name in LastIndexMap(Names(rs))
  {
    forall i | 0 <= i < |rs| ensures rs[i].name in LastIndexMap(Names(rs)) {
      assert Names(rs)[i] == rs[i].name;
    }
  }

  /** The role indices pushed for `n` when each role name resolves to its last position. */
  function Grants(rs: seq<Role>, n: string): seq<nat> {
    NamesResolve(rs);
    GrantIndices(rs, LastIndexMap(Names(rs)), n)
  }

  /**
   * `p` is the table entry for the name `n`: service, resource and action are
   * the '.'-parts of `n`, and its role indices are those the roles push.
   */
  predicate Describes(p: Permission, n: string, rs: seq<Role>) {
    && p.name == n
    && p.service == Part(n, '.', 0)
    && p.resource == Part(n, '.', 1)
    && p.action == Part(n, '.', 2)
    && p.grantedByRoles == Grants(rs, n)
  }

  /** The entry the build loop leaves for a listed name. */
  function TableEntry(rs: seq<Role>, n: string): (r: Permission)
    requires n in Elems(AllIncluded(rs))
    ensures Describes(r, n, rs)
  {
    var idxOf := LastIndexMap(Names(rs));
    NamesResolve(rs);
    var empty: map<string, Permission> := map[];
    PermissionMapKeys(empty, rs, idxOf);
    assert n in PermissionMap(empty, rs, idxOf);
    PermissionMapEntry(empty, rs, idxOf, n);
    assert Entry(PermissionMap(empty, rs, idxOf), n) == PermissionMap(empty, rs, idxOf)[n];
    var g := GrantIndices(rs, idxOf, n);
    assert Entry(empty, n) == NewPermission(n);
    assert [] + g == g;
    assert g == Grants(rs, n);
    PermissionMap(empty, rs, idxOf)[n]
  }

  /**
   * The permission table in name order: entry i is the permission named
   * `TableNames(rs)[i]`, its service, resource and action taken from the dotted
   * name, its role indices one per listing in role order.
   */
  function Table(rs: seq<Role>): (r: seq<Permission>)
    ensures |r| == |TableNames(rs)|
    ensures forall i :: 0 <= i < |r| ==> Describes(r[i], TableNames(rs)[i], rs)
  {
    var names := TableNames(rs);
    assert forall i :: 0 <= i < |names| ==> names[i] in Elems(AllIncluded(rs)) by {
      forall i | 0 <= i < |names| ensures names[i] in Elems(AllIncluded(rs)) {
        assert names[i] in Elems(names);
      }
    }
    seq(|names|, i requires 0 <= i < |names| => TableEntry(rs, names[i]))
  }

  /** The service of each table entry, position by position. */
  function Services(perms: seq<Permission>): (r: seq<string>)
    ensures |r| == |perms| && forall i :: 0 <= i < |perms| ==> r[i] == perms[i].service
  {
    seq(|perms|, i requires 0 <= i < |perms| => perms[i].service)
  }

  function Titles(roles: seq<Role>): (r: seq<string>)
    ensures |r| == |roles| && forall i :: 0 <= i < |roles| ==> r[i] == roles[i].title
  {
    seq(|roles|, i requires 0 <= i < |roles| => roles[i].title)
  }

  /**
   * The build step. Without data every table is empty. Otherwise the roles
   * are kept in input order; each role name resolves to its last position;
   * the permission table holds one entry per distinct listed name, sorted by
   * name (collecting the map's values and sorting them by name gives the
   * entries of the sorted distinct names); services are grouped by position;
   * and the lower-case vectors are built.
   */
  function BuildIndex(data: Option<seq<Role>>): (r: PrebuiltIndex)
    ensures data.None? ==> r == EmptyIndex()
    ensures |r.permissions| == |r.permissionNames| == |r.permissionNamesLower|
    ensures |r.roles| == |r.roleNames| == |r.roleSummaries| == |r.roleNamesLower| == |r.roleTitlesLower|
    ensures data.Some? ==> RolesOf(r, data.value) && TableOf(r, data.value)
  {
    match data
    case None => EmptyIndex()
    case Some(rs) =>
      AssembleRoles(rs, TableNames(rs), Table(rs));
      AssembleTable(rs);
      Assemble(rs, TableNames(rs), Table(rs))
  }

  /** The index around a given name column and permission table. */
  function Assemble(rs: seq<Role>, names: seq<string>, perms: seq<Permission>): PrebuiltIndex {
    PrebuiltIndex(perms, names, rs, Names(rs), seq(|rs|, i requires 0 <= i < |rs| => SummaryOf(rs[i])),
                  Group(Services(perms), {}), LowerAll(names), LowerAll(Names(rs)), LowerAll(Titles(rs)))
  }

  /** Entry i of `roles`, `roleNames` and `roleSummaries` all describe input role i. */
  predicate RolesOf(ix: PrebuiltIndex, rs: seq<Role>) {
    && ix.roles == rs && |ix.roleNames| == |rs| && |ix.roleSummaries| == |rs|
    && forall i :: 0 <= i < |rs| ==>
         ix.roleNames[i] == rs[i].name
         && ix.roleSummaries[i] == RoleSummary(rs[i].name, rs[i].title, rs[i].stage)
  }

  lemma AssembleRoles(rs: seq<Role>, names: seq<string>, perms: seq<Permission>)
    ensures RolesOf(Assemble(rs, names, perms), rs)
  {
  }

  lemma BuildIndexRoles(rs: seq<Role>)
    ensures RolesOf(BuildIndex(Some(rs)), rs)
  {
    AssembleRoles(rs, TableNames(rs), Table(rs));
  }

  /**
   * The permission table of `ix` lists the names the roles `rs` list: the name
   * column is strictly ascending, holds each listed name once, and entry i
   * describes name i.
   */
  predicate TableOf(ix: PrebuiltIndex, rs: seq<Role>) {
    && StrictlySorted(ix.permissionNames)
    && Elems(ix.permissionNames) == Elems(AllIncluded(rs))
    && |ix.permissionNames| == |Elems(AllIncluded(rs))|
    && |ix.permissions| == |ix.permissionNames|
    && forall i :: 0 <= i < |ix.permissions| ==> Describes(ix.permissions[i], ix.permissionNames[i], rs)
  }

  lemma AssembleTable(rs: seq<Role>)
    ensures TableOf(Assemble(rs, TableNames(rs), Table(rs)), rs)
  {
  }

  /**
   * The permission table: one entry per distinct listed name, in strictly
   * ascending name order, parallel to `permissionNames`, with service,
   * resource and action from the dotted name.
   */
  lemma BuildIndexPermissions(rs: seq<Role>)
    ensures TableOf(BuildIndex(Some(rs)), rs)
  {
    AssembleTable(rs);
  }

  /** Every pushed index is a valid role position whose name is that of a role listing the permission. */
  lemma {:induction false} GrantIndicesSound(all: seq<Role>, roles: seq<Role>, p: string, j: nat)
    requires forall i :: 0 <= i < |roles| ==> roles[i] in all
    requires forall i :: 0 <= i < |roles| ==> roles[i].name in LastIndexMap(Names(all))
    requires j in GrantIndices(roles, LastIndexMap(Names(all)), p)
    ensures j < |all|
    ensures exists i :: 0 <= i < |roles| && roles[i].name == all[j].name && p in roles[i].includedPermissions
    decreases |roles|
  {
    var idxOf := LastIndexMap(Names(all));
    var head := Repeat(idxOf[roles[0].name], Count(roles[0].includedPermissions, p));
    if j in head {
      assert j == idxOf[roles[0].name];
      assert Names(all)[j] == roles[0].name;
    } else {
      GrantIndicesSound(all, roles[1..], p, j);
      var i :| 0 <= i < |roles[1..]| && roles[1..][i].name == all[j].name && p in roles[1..][i].includedPermissions;
      assert roles[i + 1] == roles[1..][i];
    }
  }

  /**
   * Every index stored in the table is a role position, and the role there
   * shares its name with a role that lists the permission (it is that role
   * itself unless the name repeats, since a repeated name resolves to its
   * last position).
   */
  lemma GrantIndicesInRange(rs: seq<Role>, i: nat, j: nat)
    requires i < |BuildIndex(Some(rs)).permissions|
    requires j in BuildIndex(Some(rs)).permissions[i].grantedByRoles
    ensures j < |rs|
    ensures exists k :: 0 <= k < |rs| && rs[k].name == rs[j].name
              && BuildIndex(Some(rs)).permissionNames[i] in rs[k].includedPermissions
  {
    var name := TableNames(rs)[i];
    assert Describes(Table(rs)[i], name, rs);
    NamesResolve(rs);
    GrantIndicesSound(rs, rs, name, j);
  }

  /** Every role index stored in `ix`'s permission table is a position of `ix.roles`. */
  predicate GrantsInRange(ix: PrebuiltIndex) {
    forall i, j :: 0 <= i < |ix.permissions| && 0 <= j < |ix.permissions[i].grantedByRoles| ==>
      ix.permissions[i].grantedByRoles[j] < |ix.roles|
  }

  lemma BuildIndexGrantsInRange(rs: seq<Role>)
    ensures GrantsInRange(BuildIndex(Some(rs)))
  {
    var ix := BuildIndex(Some(rs));
    BuildIndexRoles(rs);
    forall i, j | 0 <= i < |ix.permissions| && 0 <= j < |ix.permissions[i].grantedByRoles|
      ensures ix.permissions[i].grantedByRoles[j] < |ix.roles|
    {
      GrantIndicesInRange(rs, i, ix.permissions[i].grantedByRoles[j]);
    }
  }

  lemma {:induction false} GrantIndicesComplete(roles: seq<Role>, idxOf: map<string, nat>, p: string, k: nat)
    requires forall i :: 0 <= i < |roles| ==> roles[i].name in idxOf
    requires k < |roles| && p in roles[k].includedPermissions
    ensures idxOf[roles[k].name] in GrantIndices(roles, idxOf, p)
    decreases |roles|
  {
    if k == 0 {
      var head := Repeat(idxOf[roles[0].name], Count(roles[0].includedPermissions, p));
      assert head[0] == idxOf[roles[0].name];
    } else {
      GrantIndicesComplete(roles[1..], idxOf, p, k - 1);
      assert roles[1..][k - 1] == roles[k];
    }
  }

  /** In a duplicate-free list, equal entries sit at equal positions. */
  lemma NoDupSamePosition(xs: seq<string>, a: nat, b: nat)
    requires NoDup(xs) && a < |xs| && b < |xs| && xs[a] == xs[b]
    ensures a == b
  {
  }

  /**
   * When role names are distinct, a permission's table entry holds role index
   * j exactly when role j lists the permission.
   */
  lemma GrantIndicesDistinctNames(rs: seq<Role>, i: nat, j: nat)
    requires NoDup(Names(rs))
    requires i < |Table(rs)|
    ensures j in Table(rs)[i].grantedByRoles <==> j < |rs| && TableNames(rs)[i] in rs[j].includedPermissions
  {
    var name := TableNames(rs)[i];
    assert Describes(Table(rs)[i], name, rs);
    if j in Grants(rs, name) {
      GrantsDistinctSound(rs, name, j);
    }
    if j < |rs| && name in rs[j].includedPermissions {
      GrantsDistinctComplete(rs, name, j);
    }
  }

  lemma GrantsDistinctSound(rs: seq<Role>, name: string, j: nat)
    requires NoDup(Names(rs))
    requires j in Grants(rs, name)
    ensures j < |rs| && name in rs[j].includedPermissions
  {
    NamesResolve(rs);
    GrantIndicesSound(rs, rs, name, j);
    var k :| 0 <= k < |rs| && rs[k].name == rs[j].name && name in rs[k].includedPermissions;
    NoDupSamePosition(Names(rs), k, j);
  }

  lemma GrantsDistinctComplete(rs: seq<Role>, name: string, j: nat)
    requires NoDup(Names(rs))
    requires j < |rs| && name in rs[j].includedPermissions
    ensures j in Grants(rs, name)
  {
    var idxOf := LastIndexMap(Names(rs));
    NamesResolve(rs);
    GrantIndicesComplete(rs, idxOf, name, j);
    var m := idxOf[rs[j].name];
    NoDupSamePosition(Names(rs), m, j);
  }

  /**
   * `serviceToPermissions` sends each service of the table to the ascending
   * list of exactly the positions whose entry has that service.
   */
  predicate ServicesGrouped(ix: PrebuiltIndex) {
    && ix.serviceToPermissions.Keys == Elems(Services(ix.permissions))
    && (forall s :: s in ix.serviceToPermissions ==> Ascending(ix.serviceToPermissions[s]))
    && (forall s, j :: s in ix.serviceToPermissions && 0 <= j < |ix.serviceToPermissions[s]| ==>
          ix.serviceToPermissions[s][j] < |ix.permissions|
          && ix.permissions[ix.serviceToPermissions[s][j]].service == s)
    && (forall i :: 0 <= i < |ix.permissions| ==>
          ix.permissions[i].service in ix.serviceToPermissions
          && i in ix.serviceToPermissions[ix.permissions[i].service])
  }

  lemma AssembleServices(rs: seq<Role>, names: seq<string>, perms: seq<Permission>)
    ensures ServicesGrouped(Assemble(rs, names, perms))
  {
    var svc := Services(perms);
    GroupSpec(svc, {});
    assert Elems(svc) - {} == Elems(svc);
  }

  lemma BuildIndexServices(rs: seq<Role>)
    ensures ServicesGrouped(BuildIndex(Some(rs)))
  {
    AssembleServices(rs, TableNames(rs), Table(rs));
  }

  /** Each lower-case vector is its source, lower-cased entry by entry. */
  lemma BuildIndexLower(data: Option<seq<Role>>)
    ensures var ix := BuildIndex(data);
            && (forall i :: 0 <= i < |ix.permissionNames| ==> ix.permissionNamesLower[i] == Lower(ix.permissionNames[i]))
            && (forall i :: 0 <= i < |ix.roleNames| ==> ix.roleNamesLower[i] == Lower(ix.roleNames[i]))
            && (forall i :: 0 <= i < |ix.roles| ==> ix.roleTitlesLower[i] == Lower(ix.roles[i].title))
  {
  }
}

=== FILE: edge_search.dfy ===
/**
 * The edge service's searches over the prebuilt index (edge/src/main.rs
 * `search_permissions` and `search_roles`): exact lookup by binary search,
 * lower-case prefix and substring scans, the 20-result cap, and the result
 * records with their granting-role and sample-permission lists.
 */
module EdgeSearch {
  import opened Wrappers
  import opened Text
  import opened Seqs
  import opened StringOrder
  import opened EdgeIndex

  const ResultCap: nat := 20
  const GrantingRoleCap: nat := 5
  const SampleCap: nat := 5

  const ExactScore: real := 1.0
  const PrefixScore: real := 0.9
  const SubstringScore: real := 0.85

  /** A scored position in one of the index's vectors. */
  datatype Hit = Hit(idx: nat, score: real)

  datatype PermissionSearchResult = PermissionSearchResult(
    name: string,
    service: string,
    resource: string,
    action: string,
    score: real,
    grantedByRoles: seq<RoleSummary>)

  datatype RoleSearchResult = RoleSearchResult(
    name: string,
    title: string,
    description: string,
    stage: string,
    score: real,
    permissionCount: nat,
    samplePermissions: seq<string>)

  // ---------------------------------------------------------------------------
  // Lookups

  /**
   * `slice::binary_search` for an equal element, as midpoint bisection over
   * positions `lo` to `hi` (exclusive) under the string order.
   */
  function Bisect(xs: seq<string>, key: string, lo: nat, hi: nat): (r: Option<nat>)
    requires lo <= hi <= |xs|
    ensures r.Some? ==> lo <= r.value < hi && xs[r.value] == key
    decreases hi - lo
  {
    if lo == hi then None
    else
      var mid := lo + (hi - lo) / 2;
      if xs[mid] == key then Some(mid)
      else if Less(xs[mid], key) then Bisect(xs, key, mid + 1, hi)
      else Bisect(xs, key, lo, mid)
  }

  /** On a strictly sorted sequence, bisection misses only keys absent from the searched range. */
  lemma {:induction false} BisectSortedMiss(xs: seq<string>, key: string, lo: nat, hi: nat)
    requires lo <= hi <= |xs| && StrictlySorted(xs)
    requires Bisect(xs, key, lo, hi).None?
    ensures forall i :: lo <= i < hi ==> xs[i] != key
    decreases hi - lo
  {
    if lo < hi {
      var mid := lo + (hi - lo) / 2;
      if Less(xs[mid], key) {
        BisectSortedMiss(xs, key, mid + 1, hi);
        forall i | lo <= i <= mid ensures xs[i] != key {
          if i < mid {
            LessTransitive(xs[i], xs[mid], key);
          }
          LessIrreflexive(key);
        }
      } else {
        LessTotal(xs[mid], key);
        BisectSortedMiss(xs, key, lo, mid);
        forall i | mid <= i < hi ensures xs[i] != key {
          if i > mid {
            LessTransitive(key, xs[mid], xs[i]);
          }
          LessIrreflexive(key);
        }
      }
    }
  }

  /** On a strictly sorted sequence, bisection finds a key exactly when it is present. */
  lemma BisectSortedFindsIff(xs: seq<string>, key: string)
    requires StrictlySorted(xs)
    ensures Bisect(xs, key, 0, |xs|).Some? <==> key in xs
  {
    if Bisect(xs, key, 0, |xs|).None? {
      BisectSortedMiss(xs, key, 0, |xs|);
    }
  }

  /** `iter().position(|n| n == key)`: the first position holding `key`. */
  function Position(xs: seq<string>, key: string): (r: Option<nat>)
    ensures r.Some? ==> r.value < |xs| && xs[r.value] == key
    ensures r.Some? ==> forall j :: 0 <= j < r.value ==> xs[j] != key
    ensures r.None? <==> key !in xs
    decreases |xs|
  {
    if |xs| == 0 then None
    else if xs[0] == key then Some(0)
    else
      match Position(xs[1..], key)
      case None => None
      case Some(i) => Some(i + 1)
  }

  /**
   * The loop `for (idx, _) in ..enumerate() { if keep(idx) { push((idx, score)) } }`
   * over positions below `n`: the kept positions, ascending, each with `score`.
   */
  function Scan(n: nat, keep: nat -> bool, score: real): (r: seq<Hit>)
    ensures |r| <= n
    ensures forall h :: h in r ==> h.idx < n && keep(h.idx) && h.score == score
    ensures forall i :: 0 <= i < n && keep(i) ==> Hit(i, score) in r
    ensures forall a, b :: 0 <= a < b < |r| ==> r[a].idx < r[b].idx
    decreases n
  {
    if n == 0 then []
    else
      var pre := Scan(n - 1, keep, score);
      pre + (if keep(n - 1) then [Hit(n - 1, score)] else [])
  }

  // ---------------------------------------------------------------------------
  // Index shape the searches rely on

  /**
   * The vectors the searches index into are at least as long as the vectors
   * they scan (otherwise the source's indexing panics).
   */
  predicate SearchSafe(ix: PrebuiltIndex) {
    && |ix.permissions| >= |ix.permissionNames|
    && |ix.permissions| >= |ix.permissionNamesLower|
    && |ix.roles| >= |ix.roleNames|
    && |ix.roles| >= |ix.roleNamesLower|
    && |ix.roleTitlesLower| >= |ix.roleNamesLower|
  }

  /** Every built index is safe to search. */
  lemma BuildIndexSearchSafe(data: Option<seq<Role>>)
    ensures SearchSafe(BuildIndex(data))
  {
  }

  // ---------------------------------------------------------------------------
  // Permissions

  function PrefixKeep(lower: seq<string>, queryLower: string): nat -> bool {
    (i: nat) => i < |lower| && StartsWith(lower[i], queryLower)
  }

  function SubstringKeep(lower: seq<string>, queryLower: string): nat -> bool {
    (i: nat) => i < |lower| && Contains(lower[i], queryLower)
  }

  function ExactHits(found: Option<nat>): seq<Hit> {
    match found
    case Some(i) => [Hit(i, ExactScore)]
    case None => []
  }

  /** The scored permission positions before the cap. */
  function PermissionHits(ix: PrebuiltIndex, query: string, mode: string): (r: seq<Hit>)
    ensures mode == "exact" ==>
              |r| <= 1 && forall h :: h in r ==>
                h.idx < |ix.permissionNames| && ix.permissionNames[h.idx] == query && h.score == ExactScore
    ensures mode == "exact" && StrictlySorted(ix.permissionNames) ==> (|r| == 1 <==> query in ix.permissionNames)
    ensures mode == "prefix" ==>
              && (forall h :: h in r ==>
                    h.idx < |ix.permissionNamesLower| && h.score == PrefixScore
                    && StartsWith(ix.permissionNamesLower[h.idx], Lower(query)))
              && (forall i :: 0 <= i < |ix.permissionNamesLower| && StartsWith(ix.permissionNamesLower[i], Lower(query)) ==>
                    Hit(i, PrefixScore) in r)
    ensures mode != "exact" && mode != "prefix" ==>
              && (forall h :: h in r ==>
                    h.idx < |ix.permissionNamesLower| && h.score == SubstringScore
                    && Contains(ix.permissionNamesLower[h.idx], Lower(query)))
              && (forall i :: 0 <= i < |ix.permissionNamesLower| && Contains(ix.permissionNamesLower[i], Lower(query)) ==>
                    Hit(i, SubstringScore) in r)
    ensures mode != "exact" ==> forall a, b :: 0 <= a < b < |r| ==> r[a].idx < r[b].idx
  {
    if mode == "exact" then
      if StrictlySorted(ix.permissionNames) then BisectSortedFindsIff(ix.permissionNames, query); ExactHits(Bisect(ix.permissionNames, query, 0, |ix.permissionNames|))
      else ExactHits(Bisect(ix.permissionNames, query, 0, |ix.permissionNames|))
    else if mode == "prefix" then
      Scan(|ix.permissionNamesLower|, PrefixKeep(ix.permissionNamesLower, Lower(query)), PrefixScore)
    else
      Scan(|ix.permissionNamesLower|, SubstringKeep(ix.permissionNamesLower, Lower(query)), SubstringScore)
  }

  /** `filter_map(|&i| role_summaries.get(i))`: the summaries at the in-range positions, in order. */
  function SummariesAt(summaries: seq<RoleSummary>, idxs: seq<nat>): (r: seq<RoleSummary>)
    ensures |r| <= |idxs|
    ensures forall s :: s in r ==> s in summaries
    ensures (forall j :: 0 <= j < |idxs| ==> idxs[j] < |summaries|) ==>
              |r| == |idxs| && forall j :: 0 <= j < |r| ==> r[j] == summaries[idxs[j]]
    ensures (forall j :: 0 <= j < |idxs| ==> idxs[j] >= |summaries|) ==> r == []
    decreases |idxs|
  {
    if |idxs| == 0 then []
    else
      var rest := SummariesAt(summaries, idxs[1..]);
      if idxs[0] < |summaries| then [summaries[idxs[0]]] + rest else rest
  }

  /**
   * The lookup works index by index: over a concatenation it is the
   * summaries of the first part followed by those of the second, and a single
   * index gives its summary when in range and nothing otherwise. These two
   * facts determine `SummariesAt` for any mix of in-range and out-of-range
   * indices.
   */
  lemma {:induction false} SummariesAtAppend(summaries: seq<RoleSummary>, a: seq<nat>, b: seq<nat>)
    ensures SummariesAt(summaries, a + b) == SummariesAt(summaries, a) + SummariesAt(summaries, b)
    ensures |a| == 1 ==> SummariesAt(summaries, a) == if a[0] < |summaries| then [summaries[a[0]]] else []
    decreases |a|
  {
    if |a| == 0 {
      assert a + b == b;
    } else {
      assert (a + b)[0] == a[0];
      assert (a + b)[1..] == a[1..] + b;
      SummariesAtAppend(summaries, a[1..], b);
      if a[0] < |summaries| {
        AppendAssoc([summaries[a[0]]], SummariesAt(summaries, a[1..]), SummariesAt(summaries, b));
      }
      if |a| == 1 {
        assert a[1..] == [];
      }
    }
  }

  function PermissionResult(ix: PrebuiltIndex, h: Hit): PermissionSearchResult
    requires h.idx < |ix.permissions|
  {
    var p := ix.permissions[h.idx];
    PermissionSearchResult(p.name, p.service, p.resource, p.action, h.score,
                           SummariesAt(ix.roleSummaries, Take(p.grantedByRoles, GrantingRoleCap)))
  }

  /**
   * `search_permissions`: the first 20 hits, each with its permission's
   * fields and the summaries of at most the first 5 granting-role indices,
   * out-of-range indices dropped.
   */
  function SearchPermissions(ix: PrebuiltIndex, query: string, mode: string): (r: seq<PermissionSearchResult>)
    requires SearchSafe(ix)
    ensures |r| == |Take(PermissionHits(ix, query, mode), ResultCap)| <= ResultCap
    ensures forall i :: 0 <= i < |r| ==>
              var h := PermissionHits(ix, query, mode)[i];
              && h.idx < |ix.permissions|
              && r[i].name == ix.permissions[h.idx].name
              && r[i].service == ix.permissions[h.idx].service
              && r[i].resource == ix.permissions[h.idx].resource
              && r[i].action == ix.permissions[h.idx].action
              && r[i].score == h.score
              && |r[i].grantedByRoles| <= GrantingRoleCap
              && r[i].grantedByRoles == SummariesAt(ix.roleSummaries, Take(ix.permissions[h.idx].grantedByRoles, GrantingRoleCap))
  {
    var hits := Take(PermissionHits(ix, query, mode), ResultCap);
    assert forall h :: h in hits ==> h.idx < |ix.permissions| by {
      forall h | h in hits ensures h.idx < |ix.permissions| {
        assert h in PermissionHits(ix, query, mode);
      }
    }
    seq(|hits|, i requires 0 <= i < |hits| => PermissionResult(ix, hits[i]))
  }

  // ---------------------------------------------------------------------------
  // Roles

  function RolePrefixKeep(ix: PrebuiltIndex, queryLower: string): nat -> bool {
    (i: nat) => i < |ix.roleNamesLower|
         && (StartsWith(ix.roleNamesLower[i], queryLower)
             || (i < |ix.roleTitlesLower| && StartsWith(ix.roleTitlesLower[i], queryLower)))
  }

  function RoleSubstringKeep(ix: PrebuiltIndex, queryLower: string): nat -> bool {
    (i: nat) => i < |ix.roleNamesLower|
         && (Contains(ix.roleNamesLower[i], queryLower)
             || (i < |ix.roleTitlesLower| && Contains(ix.roleTitlesLower[i], queryLower)))
  }

  /** The prefix and substring scans over role names and titles, shared by both role searches. */
  function RoleScan(ix: PrebuiltIndex, query: string, mode: string): (r: seq<Hit>)
    requires mode != "exact"
    requires SearchSafe(ix)
    ensures mode == "prefix" ==>
              && (forall h :: h in r ==>
                    h.idx < |ix.roleNamesLower| && h.score == PrefixScore
                    && (StartsWith(ix.roleNamesLower[h.idx], Lower(query)) || StartsWith(ix.roleTitlesLower[h.idx], Lower(query))))
              && (forall i :: 0 <= i < |ix.roleNamesLower|
                    && (StartsWith(ix.roleNamesLower[i], Lower(query)) || StartsWith(ix.roleTitlesLower[i], Lower(query)))
                    ==> Hit(i, PrefixScore) in r)
    ensures mode != "prefix" ==>
              && (forall h :: h in r ==>
                    h.idx < |ix.roleNamesLower| && h.score == SubstringScore
                    && (Contains(ix.roleNamesLower[h.idx], Lower(query)) || Contains(ix.roleTitlesLower[h.idx], Lower(query))))
              && (forall i :: 0 <= i < |ix.roleNamesLower|
                    && (Contains(ix.roleNamesLower[i], Lower(query)) || Contains(ix.roleTitlesLower[i], Lower(query)))
                    ==> Hit(i, SubstringScore) in r)
    ensures forall a, b :: 0 <= a < b < |r| ==> r[a].idx < r[b].idx
  {
    if mode == "prefix" then Scan(|ix.roleNamesLower|, RolePrefixKeep(ix, Lower(query)), PrefixScore)
    else Scan(|ix.roleNamesLower|, RoleSubstringKeep(ix, Lower(query)), SubstringScore)
  }

  /**
   * The scored role positions before the cap. Exact mode looks the name up by
   * its first position in `roleNames`, which needs no ordering.
   */
  function RoleHits(ix: PrebuiltIndex, query: string, mode: string): (r: seq<Hit>)
    requires SearchSafe(ix)
    ensures mode == "exact" ==>
              && |r| <= 1
              && (|r| == 1 <==> query in ix.roleNames)
              && forall h :: h in r ==> h.idx < |ix.roleNames| && ix.roleNames[h.idx] == query && h.score == ExactScore
    ensures mode != "exact" ==> r == RoleScan(ix, query, mode)
  {
    if mode == "exact" then ExactHits(Position(ix.roleNames, query)) else RoleScan(ix, query, mode)
  }

  /** The role lookup as written: binary search over `roleNames`, which are in input order. */
  function RoleHitsAsWritten(ix: PrebuiltIndex, query: string, mode: string): (r: seq<Hit>)
    requires SearchSafe(ix)
    ensures mode == "exact" ==>
              |r| <= 1 && forall h :: h in r ==> h.idx < |ix.roleNames| && ix.roleNames[h.idx] == query
    ensures mode != "exact" ==> r == RoleScan(ix, query, mode)
  {
    if mode == "exact" then ExactHits(Bisect(ix.roleNames, query, 0, |ix.roleNames|)) else RoleScan(ix, query, mode)
  }

  /** When the role names happen to be strictly sorted, the lookup as written agrees with the corrected one. */
  lemma RoleHitsAgreeWhenSorted(ix: PrebuiltIndex, query: string, mode: string)
    requires SearchSafe(ix) && StrictlySorted(ix.roleNames)
    ensures RoleHitsAsWritten(ix, query, mode) == RoleHits(ix, query, mode)
  {
    if mode == "exact" {
      BisectSortedFindsIff(ix.roleNames, query);
      var b := Bisect(ix.roleNames, query, 0, |ix.roleNames|);
      var p := Position(ix.roleNames, query);
      if b.Some? {
        SortedNoDup(ix.roleNames);
        assert p.Some?;
        assert b.value == p.value;
      }
    }
  }

  function RoleResult(ix: PrebuiltIndex, h: Hit): RoleSearchResult
    requires h.idx < |ix.roles|
  {
    var role := ix.roles[h.idx];
    RoleSearchResult(role.name, role.title, role.description, role.stage, h.score,
                     |role.includedPermissions|, Take(role.includedPermissions, SampleCap))
  }

  /**
   * `x` presents `role` with `score`: the role's own fields, its full
   * permission count, and as sample its first min(5, count) permissions.
   */
  predicate Presents(x: RoleSearchResult, role: Role, score: real) {
    && x.name == role.name && x.title == role.title && x.description == role.description && x.stage == role.stage
    && x.score == score
    && x.permissionCount == |role.includedPermissions|
    && |x.samplePermissions| == (if |role.includedPermissions| < SampleCap then |role.includedPermissions| else SampleCap)
    && x.samplePermissions == role.includedPermissions[..|x.samplePermissions|]
  }

  function RoleResults(ix: PrebuiltIndex, hits: seq<Hit>): (r: seq<RoleSearchResult>)
    requires forall h :: h in hits ==> h.idx < |ix.roles|
    ensures |r| == |hits|
    ensures forall i :: 0 <= i < |r| ==> Presents(r[i], ix.roles[hits[i].idx], hits[i].score)
  {
    seq(|hits|, i requires 0 <= i < |hits| => RoleResult(ix, hits[i]))
  }

  /**
   * `search_roles` with the corrected exact lookup: the first 20 hits, each
   * with its role's fields, full permission count and first 5 permissions.
   */
  function SearchRoles(ix: PrebuiltIndex, query: string, mode: string): (r: seq<RoleSearchResult>)
    requires SearchSafe(ix)
    ensures |r| == |Take(RoleHits(ix, query, mode), ResultCap)| <= ResultCap
    ensures mode == "exact" ==> (|r| == 1 <==> query in ix.roleNames)
    ensures forall i :: 0 <= i < |r| ==>
              var h := RoleHits(ix, query, mode)[i];
              h.idx < |ix.roles| && Presents(r[i], ix.roles[h.idx], h.score)
  {
    var hits := Take(RoleHits(ix, query, mode), ResultCap);
    assert forall h :: h in hits ==> h.idx < |ix.roles| by {
      forall h | h in hits ensures h.idx < |ix.roles| {
        assert h in RoleHits(ix, query, mode);
      }
    }
    RoleResults(ix, hits)
  }

  /** `search_roles` as written, with the binary-search lookup. */
  function SearchRolesAsWritten(ix: PrebuiltIndex, query: string, mode: string): (r: seq<RoleSearchResult>)
    requires SearchSafe(ix)
    ensures |r| == |Take(RoleHitsAsWritten(ix, query, mode), ResultCap)| <= ResultCap
    ensures forall i :: 0 <= i < |r| ==>
              var h := RoleHitsAsWritten(ix, query, mode)[i];
              h.idx < |ix.roles| && Presents(r[i], ix.roles[h.idx], h.score)
  {
    var hits := Take(RoleHitsAsWritten(ix, query, mode), ResultCap);
    assert forall h :: h in hits ==> h.idx < |ix.roles| by {
      forall h | h in hits ensures h.idx < |ix.roles| {
        assert h in RoleHitsAsWritten(ix, query, mode);
      }
    }
    RoleResults(ix, hits)
  }

  /**
   * Bisection for "roles/a" over names listed c, b, a probes "roles/b", turns
   * left because "roles/b" does not come before "roles/a", probes "roles/c",
   * turns left again and gives up.
   */
  lemma BisectMissesUnsortedName()
    ensures "roles/a" in ["roles/c", "roles/b", "roles/a"]
    ensures Bisect(["roles/c", "roles/b", "roles/a"], "roles/a", 0, 3).None?
  {
    var names := ["roles/c", "roles/b", "roles/a"];
    assert names[2] == "roles/a";
    assert !Less("roles/b", "roles/a") by {
      assert "roles/b"[1..] == "oles/b" && "roles/a"[1..] == "oles/a";
      assert "oles/b"[1..] == "les/b" && "oles/a"[1..] == "les/a";
      assert "les/b"[1..] == "es/b" && "les/a"[1..] == "es/a";
      assert "es/b"[1..] == "s/b" && "es/a"[1..] == "s/a";
      assert "s/b"[1..] == "/b" && "s/a"[1..] == "/a";
      assert "/b"[1..] == "b" && "/a"[1..] == "a";
    }
    assert !Less("roles/c", "roles/a") by {
      assert "roles/c"[1..] == "oles/c" && "roles/a"[1..] == "oles/a";
      assert "oles/c"[1..] == "les/c" && "oles/a"[1..] == "les/a";
      assert "les/c"[1..] == "es/c" && "les/a"[1..] == "es/a";
      assert "es/c"[1..] == "s/c" && "es/a"[1..] == "s/a";
      assert "s/c"[1..] == "/c" && "s/a"[1..] == "/a";
      assert "/c"[1..] == "c" && "/a"[1..] == "a";
    }
    assert Bisect(names, "roles/a", 0, 3) == Bisect(names, "roles/a", 0, 1);
    assert Bisect(names, "roles/a", 0, 1) == Bisect(names, "roles/a", 0, 0);
  }

  /**
   * Exact role search as written misses a role that is in the index: roles
   * listed as c, b, a (not in name order) leave `roleNames` unsorted, so the
   * binary search cannot find "roles/a"; the corrected lookup finds it.
   */
  lemma ExactRoleSearchMissesListedRole()
    ensures var ix := BuildIndex(Some([Role("roles/c", "C", "", "GA", []),
                                        Role("roles/b", "B", "", "GA", []),
                                        Role("roles/a", "A", "", "GA", [])]));
            && SearchSafe(ix)
            && "roles/a" in ix.roleNames
            && SearchRolesAsWritten(ix, "roles/a", "exact") == []
            && |SearchRoles(ix, "roles/a", "exact")| == 1
  {
    var rs := [Role("roles/c", "C", "", "GA", []), Role("roles/b", "B", "", "GA", []), Role("roles/a", "A", "", "GA", [])];
    var ix := BuildIndex(Some(rs));
    BuildIndexRoles(rs);
    BuildIndexSearchSafe(Some(rs));
    assert RolesOf(ix, rs);
    assert |ix.roleNames| == 3 && ix.roleNames[0] == "roles/c" && ix.roleNames[1] == "roles/b" && ix.roleNames[2] == "roles/a";
    assert ix.roleNames == ["roles/c", "roles/b", "roles/a"];
    ExactRoleSearchOnUnsortedNames(ix);
  }

  /** Any index whose role names are c, b, a: the lookup as written misses "roles/a", the corrected one finds it. */
  lemma ExactRoleSearchOnUnsortedNames(ix: PrebuiltIndex)
    requires SearchSafe(ix) && ix.roleNames == ["roles/c", "roles/b", "roles/a"]
    ensures "roles/a" in ix.roleNames
    ensures SearchRolesAsWritten(ix, "roles/a", "exact") == []
    ensures |SearchRoles(ix, "roles/a", "exact")| == 1
  {
    BisectMissesUnsortedName();
    assert RoleHitsAsWritten(ix, "roles/a", "exact") == [];
  }

  /**
   * On a built index exact permission search is right: it returns one result,
   * named by the query, exactly when some role lists that permission.
   */
  lemma ExactPermissionSearchOnBuiltIndex(rs: seq<Role>, query: string)
    ensures var ix := BuildIndex(Some(rs));
            SearchSafe(ix)
            && (|SearchPermissions(ix, query, "exact")| == 1 <==> query in AllIncluded(rs))
            && forall x :: x in SearchPermissions(ix, query, "exact") ==> x.name == query && x.score == ExactScore
  {
    var ix := BuildIndex(Some(rs));
    BuildIndexSearchSafe(Some(rs));
    BuildIndexPermissions(rs);
    ExactPermissionSearchCount(ix, rs, query);
    ExactPermissionSearchNames(ix, rs, query);
  }

  lemma ExactPermissionSearchCount(ix: PrebuiltIndex, rs: seq<Role>, query: string)
    requires SearchSafe(ix) && TableOf(ix, rs)
    ensures |SearchPermissions(ix, query, "exact")| == 1 <==> query in AllIncluded(rs)
  {
    assert query in AllIncluded(rs) <==> query in Elems(AllIncluded(rs));
    assert query in ix.permissionNames <==> query in Elems(ix.permissionNames);
  }

  lemma ExactPermissionSearchNames(ix: PrebuiltIndex, rs: seq<Role>, query: string)
    requires SearchSafe(ix) && TableOf(ix, rs)
    ensures forall x :: x in SearchPermissions(ix, query, "exact") ==> x.name == query && x.score == ExactScore
  {
    var r := SearchPermissions(ix, query, "exact");
    forall x | x in r ensures x.name == query && x.score == ExactScore {
      var i :| 0 <= i < |r| && r[i] == x;
      var h := PermissionHits(ix, query, "exact")[i];
      assert h in PermissionHits(ix, query, "exact");
      assert Describes(ix.permissions[h.idx], ix.permissionNames[h.idx], rs);
    }
  }
}

=== FILE: edge_service.dfy ===
/**
 * The edge service's request handling (edge/src/main.rs `handle_request` and
 * the handlers it routes to): CORS preflight, the host allow-list, routing,
 * the search endpoint, stats, and the permission and role pages, with the
 * pages as the escaped fields they render rather than as HTML text.
 */
module EdgeService {
  import opened Wrappers
  import opened Text
  import opened Seqs
  import opened EdgeIndex
  import opened EdgeSearch
  import HtmlEscape

  const AllowedHosts: seq<string> := ["gcpiam.com", "www.gcpiam.com", "localhost", "127.0.0.1"]

  const Version: string := "0.1.0-edge"
  const MaxQueryBytes: nat := 100
  const MissingQueryMessage: string := "Query parameter 'q' is required"
  const LongQueryMessage: string := "Query too long (max 100 characters)"
  const AccessDeniedMessage: string := "Access denied. Please use gcpiam.com"

  const SearchRoute: string := "/api/v1/search"
  const PermissionRoute: string := "/permissions/"
  const RoleRoute: string := "/roles/"

  // ---------------------------------------------------------------------------
  // Host allow-list

  /** The host header's text before the first colon, as `split(':').next()`. */
  function HostName(host: string): string {
    Part(host, ':', 0)
  }

  /** `is_allowed_host`: a host header whose name (port dropped) is on the allow-list. */
  function IsAllowedHost(host: Option<string>): (r: bool)
    ensures r <==> host.Some? && exists a :: a in AllowedHosts && (host.value == a || StartsWith(host.value, a + ":"))
  {
    match host
    case None => false
    case Some(h) => HostAllowedIff(h); HostName(h) in AllowedHosts
  }

  lemma HostAllowedIff(h: string)
    ensures HostName(h) in AllowedHosts <==> exists a :: a in AllowedHosts && (h == a || StartsWith(h, a + ":"))
  {
    var hosts := AllowedHosts;
    assert hosts == ["gcpiam.com", "www.gcpiam.com", "localhost", "127.0.0.1"];
    forall i | 0 <= i < 4 ensures HostName(h) == hosts[i] <==> h == hosts[i] || StartsWith(h, hosts[i] + ":") {
      assert ':' !in hosts[i];
      FirstPartIs(h, ':', hosts[i]);
      assert hosts[i] + ":" == hosts[i] + [':'];
    }
    assert forall a :: a in hosts <==> exists i :: 0 <= i < 4 && hosts[i] == a;
  }

  // ---------------------------------------------------------------------------
  // Query parameters

  /**
   * The value a query-string map keeps for `key`: collecting pairs into a
   * map keeps the last value given for each key.
   */
  function LastValue(params: seq<(string, string)>, key: string): (r: Option<string>)
    ensures r.None? <==> forall i :: 0 <= i < |params| ==> params[i].0 != key
    decreases |params|
  {
    if |params| == 0 then None
    else
      var k := |params| - 1;
      if params[k].0 == key then Some(params[k].1)
      else
        PrefixEntries(params, k);
        LastValue(params[..k], key)
  }

  lemma PrefixEntries(params: seq<(string, string)>, k: nat)
    requires k <= |params|
    ensures forall i :: 0 <= i < k ==> params[..k][i] == params[i]
  {
  }

  /** A found value is the value of the last pair with the key. */
  lemma {:induction false} LastValueFound(params: seq<(string, string)>, key: string)
    ensures LastValue(params, key).Some? ==>
              exists i :: 0 <= i < |params| && params[i] == (key, LastValue(params, key).value)
                && forall j :: i < j < |params| ==> params[j].0 != key
    decreases |params|
  {
    if |params| > 0 {
      var k := |params| - 1;
      if params[k].0 != key && LastValue(params, key).Some? {
        var pre := params[..k];
        LastValueFound(pre, key);
        PrefixEntries(params, k);
        var i :| 0 <= i < |pre| && pre[i] == (key, LastValue(pre, key).value)
                 && forall j :: i < j < |pre| ==> pre[j].0 != key;
        assert params[i] == pre[i];
      }
    }
  }

  datatype SearchData = SearchData(
    permissions: seq<PermissionSearchResult>,
    roles: seq<RoleSearchResult>,
    query: string,
    mode: string)

  /**
   * The query checks of `handle_search`: the trimmed `q` (missing counts as
   * empty) must be non-empty and at most 100 UTF-8 bytes; `mode` defaults to
   * "prefix". The result is the query and mode, or the refusal message.
   */
  function ValidateSearch(params: seq<(string, string)>): (r: Result<(string, string), string>)
    ensures var q := Trim(GetOr(LastValue(params, "q"), ""));
            && (r.Ok? <==> q != [] && Utf8Len(q) <= MaxQueryBytes)
            && (r.Err? ==> r.error == if q == [] then MissingQueryMessage else LongQueryMessage)
            && (r.Ok? ==> r.value == (q, GetOr(LastValue(params, "mode"), "prefix")))
  {
    var q := Trim(GetOr(LastValue(params, "q"), ""));
    if q == [] then Err(MissingQueryMessage)
    else if Utf8Len(q) > MaxQueryBytes then Err(LongQueryMessage)
    else Ok((q, GetOr(LastValue(params, "mode"), "prefix")))
  }

  /**
   * `handle_search`: a refused query is answered with its message; an
   * accepted one runs both searches with the query and mode unchanged, each
   * giving at most 20 results.
   */
  function HandleSearch(params: seq<(string, string)>, ix: PrebuiltIndex): (r: Result<SearchData, string>)
    requires SearchSafe(ix)
    ensures var v := ValidateSearch(params);
            && (r.Ok? <==> v.Ok?)
            && (r.Err? ==> r.error == v.error)
            && (r.Ok? ==> r.value.query == v.value.0 && r.value.mode == v.value.1)
            && (r.Ok? ==> r.value.permissions == SearchPermissions(ix, v.value.0, v.value.1))
            && (r.Ok? ==> r.value.roles == SearchRoles(ix, v.value.0, v.value.1))
            && (r.Ok? ==> |r.value.permissions| <= ResultCap && |r.value.roles| <= ResultCap)
  {
    match ValidateSearch(params)
    case Err(msg) => Err(msg)
    case Ok((q, mode)) => Ok(SearchData(SearchPermissions(ix, q, mode), SearchRoles(ix, q, mode), q, mode))
  }

  /**
   * A search is refused as missing exactly when `q` is absent or all
   * whitespace; an accepted query has no surrounding whitespace, the mode
   * defaults to "prefix", and both result lists hold at most 20 entries.
   */
  lemma HandleSearchMeaning(params: seq<(string, string)>, ix: PrebuiltIndex)
    requires SearchSafe(ix)
    ensures var raw := GetOr(LastValue(params, "q"), "");
            var r := HandleSearch(params, ix);
            && (r == Err(MissingQueryMessage) <==> AllWhitespace(raw))
            && (r.Ok? ==> |r.value.query| > 0 && !IsWhitespace(r.value.query[0])
                          && !IsWhitespace(r.value.query[|r.value.query| - 1]))
            && (r.Ok? && LastValue(params, "mode").None? ==> r.value.mode == "prefix")
            && (r.Ok? ==> |r.value.permissions| <= ResultCap && |r.value.roles| <= ResultCap)
  {
    HandleSearchRefusal(params, ix);
    HandleSearchAccepted(params, ix);
  }

  lemma HandleSearchRefusal(params: seq<(string, string)>, ix: PrebuiltIndex)
    requires SearchSafe(ix)
    ensures HandleSearch(params, ix) == Err(MissingQueryMessage) <==> AllWhitespace(GetOr(LastValue(params, "q"), ""))
  {
    var raw := GetOr(LastValue(params, "q"), "");
    TrimEmptyIff(raw);
    assert MissingQueryMessage != LongQueryMessage;
    var v := ValidateSearch(params);
    assert HandleSearch(params, ix) == Err(MissingQueryMessage) <==> v == Err(MissingQueryMessage);
  }

  lemma HandleSearchAccepted(params: seq<(string, string)>, ix: PrebuiltIndex)
    requires SearchSafe(ix)
    ensures var r := HandleSearch(params, ix);
            && (r.Ok? ==> |r.value.query| > 0 && !IsWhitespace(r.value.query[0])
                          && !IsWhitespace(r.value.query[|r.value.query| - 1]))
            && (r.Ok? && LastValue(params, "mode").None? ==> r.value.mode == "prefix")
            && (r.Ok? ==> |r.value.permissions| <= ResultCap && |r.value.roles| <= ResultCap)
  {
  }

  // ---------------------------------------------------------------------------
  // Pages

  /** The badge colour for a launch stage. */
  function StageColor(stage: string): (r: string)
    ensures r == "#9E9E9E" <==> stage !in ["GA", "BETA", "ALPHA"]
  {
    if stage == "GA" then "#4CAF50"
    else if stage == "BETA" then "#FF9800"
    else if stage == "ALPHA" then "#2196F3"
    else "#9E9E9E"
  }

  /** One granting role on a permission page: escaped name (link and text), title, colour, stage. */
  datatype RoleCard = RoleCard(name: string, title: string, color: string, stage: string)

  /** What a permission page shows, every text field escaped. */
  datatype PermissionView = PermissionView(
    name: string,
    service: string,
    resource: string,
    action: string,
    grantCount: nat,
    cards: seq<RoleCard>)

  /** What a role page shows, every text field escaped; one item per included permission. */
  datatype RoleView = RoleView(
    name: string,
    title: string,
    description: string,
    color: string,
    stage: string,
    permissionCount: nat,
    items: seq<string>)

  function Card(role: Role): RoleCard {
    RoleCard(HtmlEscape.Escape(role.name), HtmlEscape.Escape(role.title), StageColor(role.stage), HtmlEscape.Escape(role.stage))
  }

  /** `filter_map(|&i| roles.get(i))` over every granting index, each role as its card. */
  function Cards(roles: seq<Role>, idxs: seq<nat>): (r: seq<RoleCard>)
    ensures |r| <= |idxs|
    ensures (forall j :: 0 <= j < |idxs| ==> idxs[j] < |roles|) ==>
              |r| == |idxs| && forall j :: 0 <= j < |r| ==> r[j] == Card(roles[idxs[j]])
    decreases |idxs|
  {
    if |idxs| == 0 then []
    else
      var rest := Cards(roles, idxs[1..]);
      if idxs[0] < |roles| then [Card(roles[idxs[0]])] + rest else rest
  }

  /**
   * `serve_permission_page` for the name after "/permissions/": none (not
   * found) for an empty name or one not among the permission names, else the
   * first permission of that name with all its granting roles.
   */
  function PermissionPage(ix: PrebuiltIndex, name: string): (r: Option<PermissionView>)
    requires SearchSafe(ix)
    ensures r.Some? <==> name != [] && name in ix.permissionNames
    // the page shows the first permission of that name, escaped, with a card per resolvable granting index
    ensures r.Some? ==>
              && Position(ix.permissionNames, name).Some?
              && var p := ix.permissions[Position(ix.permissionNames, name).value];
                 && r.value.name == HtmlEscape.Escape(name)
                 && r.value.service == HtmlEscape.Escape(p.service)
                 && r.value.resource == HtmlEscape.Escape(p.resource)
                 && r.value.action == HtmlEscape.Escape(p.action)
                 && r.value.grantCount == |p.grantedByRoles|
                 && r.value.cards == Cards(ix.roles, p.grantedByRoles)
                 && |r.value.cards| <= r.value.grantCount
  {
    if name == [] then None
    else
      match Position(ix.permissionNames, name)
      case None => None
      case Some(i) =>
        var p := ix.permissions[i];
        Some(PermissionView(HtmlEscape.Escape(name), HtmlEscape.Escape(p.service), HtmlEscape.Escape(p.resource),
                            HtmlEscape.Escape(p.action), |p.grantedByRoles|, Cards(ix.roles, p.grantedByRoles)))
  }

  /**
   * `serve_role_page` for the name after "/roles/": none for an empty or
   * unknown name, else the first role of that name.
   */
  function RolePage(ix: PrebuiltIndex, name: string): (r: Option<RoleView>)
    requires SearchSafe(ix)
    ensures r.Some? <==> name != [] && name in ix.roleNames
    // the page shows the first role of that name, escaped, with one item per included permission
    ensures r.Some? ==>
              && Position(ix.roleNames, name).Some?
              && var role := ix.roles[Position(ix.roleNames, name).value];
                 && r.value.name == HtmlEscape.Escape(role.name)
                 && r.value.title == HtmlEscape.Escape(role.title)
                 && r.value.description == HtmlEscape.Escape(role.description)
                 && r.value.color == StageColor(role.stage)
                 && r.value.stage == HtmlEscape.Escape(role.stage)
                 && r.value.permissionCount == |role.includedPermissions|
                 && |r.value.items| == r.value.permissionCount
                 && forall k :: 0 <= k < |r.value.items| ==>
                      r.value.items[k] == HtmlEscape.Escape(role.includedPermissions[k])
  {
    if name == [] then None
    else
      match Position(ix.roleNames, name)
      case None => None
      case Some(i) =>
        var role := ix.roles[i];
        var perms := role.includedPermissions;
        Some(RoleView(HtmlEscape.Escape(role.name), HtmlEscape.Escape(role.title), HtmlEscape.Escape(role.description),
                      StageColor(role.stage), HtmlEscape.Escape(role.stage), |perms|,
                      seq(|perms|, k requires 0 <= k < |perms| => HtmlEscape.Escape(perms[k]))))
  }

  /**
   * On a built index, a permission's page exists exactly for names some role
   * lists, and it shows one card per granting index (none is out of range).
   */
  lemma PermissionPageOnBuiltIndex(rs: seq<Role>, name: string)
    ensures var ix := BuildIndex(Some(rs));
            SearchSafe(ix)
            && (PermissionPage(ix, name).Some? <==> name != [] && name in AllIncluded(rs))
            && (PermissionPage(ix, name).Some? ==> |PermissionPage(ix, name).value.cards| == PermissionPage(ix, name).value.grantCount)
  {
    var ix := BuildIndex(Some(rs));
    BuildIndexSearchSafe(Some(rs));
    BuildIndexPermissions(rs);
    BuildIndexGrantsInRange(rs);
    PermissionPageExists(ix, rs, name);
    PermissionPageCards(ix, name);
  }

  lemma PermissionPageExists(ix: PrebuiltIndex, rs: seq<Role>, name: string)
    requires SearchSafe(ix) && TableOf(ix, rs)
    ensures PermissionPage(ix, name).Some? <==> name != [] && name in AllIncluded(rs)
  {
    assert name in AllIncluded(rs) <==> name in Elems(AllIncluded(rs));
    assert name in ix.permissionNames <==> name in Elems(ix.permissionNames);
  }

  lemma PermissionPageCards(ix: PrebuiltIndex, name: string)
    requires SearchSafe(ix) && GrantsInRange(ix)
    ensures PermissionPage(ix, name).Some? ==> |PermissionPage(ix, name).value.cards| == PermissionPage(ix, name).value.grantCount
  {
    if PermissionPage(ix, name).Some? {
      var i := Position(ix.permissionNames, name).value;
      var g := ix.permissions[i].grantedByRoles;
      assert forall j :: 0 <= j < |g| ==> g[j] < |ix.roles|;
    }
  }

  /** Escaped page text never holds raw markup, whatever the role's fields. */
  lemma RoleCardHasNoMarkup(role: Role)
    ensures forall i :: 0 <= i < |Card(role).name| ==> !HtmlEscape.IsMarkup(Card(role).name[i])
    ensures forall i :: 0 <= i < |Card(role).title| ==> !HtmlEscape.IsMarkup(Card(role).title[i])
    ensures forall i :: 0 <= i < |Card(role).stage| ==> !HtmlEscape.IsMarkup(Card(role).stage[i])
  {
    HtmlEscape.EscapeHasNoMarkup(role.name);
    HtmlEscape.EscapeHasNoMarkup(role.title);
    HtmlEscape.EscapeHasNoMarkup(role.stage);
  }

  // ---------------------------------------------------------------------------
  // Routing

  datatype Request = Request(verb: string, path: string, host: Option<string>, query: seq<(string, string)>)

  datatype Asset = IndexHtml | StylesCss | AppJs

  datatype Body =
    | NoContent
    | AccessDenied(error: string)
    | StaticFile(asset: Asset)
    | Health(status: string, version: string)
    | Stats(totalPermissions: nat, totalRoles: nat, indexed: bool, version: string)
    | Results(data: SearchData)
    | JsonError(error: string)
    | PermissionHtml(permission: PermissionView)
    | RoleHtml(role: RoleView)
    | NotFoundPage

  datatype Response = Response(status: nat, body: Body)

  /** `serve_json` around the search handler: 200 with the data or 400 with the message. */
  function SearchResponse(result: Result<SearchData, string>): (r: Response)
    ensures r.status == 200 <==> result.Ok?
    ensures r.status == 200 || r.status == 400
    ensures result.Err? ==> r.body == JsonError(result.error)
  {
    match result
    case Ok(d) => Response(200, Results(d))
    case Err(e) => Response(400, JsonError(e))
  }

  /** A page handler's answer: 200 with the page, or the 404 page. */
  function PermissionResponse(page: Option<PermissionView>): (r: Response)
    ensures r.status == 200 <==> page.Some?
    ensures r.status == 200 || r == Response(404, NotFoundPage)
  {
    match page
    case Some(v) => Response(200, PermissionHtml(v))
    case None => Response(404, NotFoundPage)
  }

  function RoleResponse(page: Option<RoleView>): (r: Response)
    ensures r.status == 200 <==> page.Some?
    ensures r.status == 200 || r == Response(404, NotFoundPage)
  {
    match page
    case Some(v) => Response(200, RoleHtml(v))
    case None => Response(404, NotFoundPage)
  }

  /** A path that differs from a route prefix at some position does not start with it. */
  lemma DiffersAt(p: string, route: string, k: nat)
    requires k < |p| && k < |route| && p[k] != route[k]
    ensures !StartsWith(p, route)
  {
    assert |route| <= |p| ==> p[..|route|][k] == p[k];
  }

  /** None of the fixed paths falls under a route prefix. */
  lemma FixedPathsAreNotRoutes()
    ensures forall route :: route in [SearchRoute, PermissionRoute, RoleRoute] ==>
              && !StartsWith("/", route) && !StartsWith("/index.html", route) && !StartsWith("/styles.css", route)
              && !StartsWith("/app.js", route) && !StartsWith("/api/v1/health", route) && !StartsWith("/api/v1/stats", route)
  {
    DiffersAt("/index.html", RoleRoute, 1);
    DiffersAt("/styles.css", RoleRoute, 1);
    DiffersAt("/app.js", RoleRoute, 1);
    DiffersAt("/api/v1/health", SearchRoute, 8);
    DiffersAt("/api/v1/health", PermissionRoute, 1);
    DiffersAt("/api/v1/health", RoleRoute, 1);
    DiffersAt("/api/v1/stats", PermissionRoute, 1);
    DiffersAt("/api/v1/stats", RoleRoute, 1);
  }

  /** A path falls under at most one route prefix: they differ at the second character. */
  lemma RoutesExclusive(path: string)
    ensures StartsWith(path, SearchRoute) ==> !StartsWith(path, PermissionRoute) && !StartsWith(path, RoleRoute)
    ensures StartsWith(path, PermissionRoute) ==> !StartsWith(path, RoleRoute)
  {
    assert StartsWith(path, SearchRoute) ==> path[1] == path[..|SearchRoute|][1] == 'a';
    assert StartsWith(path, PermissionRoute) ==> path[1] == path[..|PermissionRoute|][1] == 'p';
    assert StartsWith(path, RoleRoute) ==> path[1] == path[..|RoleRoute|][1] == 'r';
  }

  /** The routes in order, for a request that passed the preflight and host checks. */
  function Route(req: Request, ix: PrebuiltIndex): (r: Response)
    requires SearchSafe(ix)
    ensures r.status in {200, 400, 404}
    ensures r.status == 400 ==> r.body.JsonError? && StartsWith(req.path, SearchRoute)
    ensures req.path in ["/", "/index.html"] ==> r == Response(200, StaticFile(IndexHtml))
    ensures req.path == "/styles.css" ==> r == Response(200, StaticFile(StylesCss))
    ensures req.path == "/app.js" ==> r == Response(200, StaticFile(AppJs))
    ensures req.path == "/api/v1/health" ==> r == Response(200, Health("healthy", Version))
    ensures req.path == "/api/v1/stats" ==> r == Response(200, Stats(|ix.permissions|, |ix.roles|, true, Version))
    ensures StartsWith(req.path, SearchRoute) ==> r == SearchResponse(HandleSearch(req.query, ix))
    ensures StartsWith(req.path, PermissionRoute) ==> r == PermissionResponse(PermissionPage(ix, req.path[|PermissionRoute|..]))
    ensures StartsWith(req.path, RoleRoute) ==> r == RoleResponse(RolePage(ix, req.path[|RoleRoute|..]))
    // any other path gets the not-found page
    ensures && req.path !in ["/", "/index.html", "/styles.css", "/app.js", "/api/v1/health", "/api/v1/stats"]
            && !StartsWith(req.path, SearchRoute) && !StartsWith(req.path, PermissionRoute) && !StartsWith(req.path, RoleRoute)
            ==> r == Response(404, NotFoundPage)
  {
    var path := req.path;
    FixedPathsAreNotRoutes();
    RoutesExclusive(path);
    if path == "/" || path == "/index.html" then Response(200, StaticFile(IndexHtml))
    else if path == "/styles.css" then Response(200, StaticFile(StylesCss))
    else if path == "/app.js" then Response(200, StaticFile(AppJs))
    else if path == "/api/v1/health" then Response(200, Health("healthy", Version))
    else if path == "/api/v1/stats" then Response(200, Stats(|ix.permissions|, |ix.roles|, true, Version))
    else if StartsWith(path, SearchRoute) then SearchResponse(HandleSearch(req.query, ix))
    else if StartsWith(path, PermissionRoute) then
      PermissionResponse(PermissionPage(ix, path[|PermissionRoute|..]))
    else if StartsWith(path, RoleRoute) then
      RoleResponse(RolePage(ix, path[|RoleRoute|..]))
    else Response(404, NotFoundPage)
  }

  /**
   * `handle_request`: preflight first (whatever the host), then the host
   * check, then the routes.
   */
  function HandleRequest(req: Request, ix: PrebuiltIndex): (r: Response)
    requires SearchSafe(ix)
    ensures req.verb == "OPTIONS" ==> r == Response(204, NoContent)
    ensures r.status == 403 <==> req.verb != "OPTIONS" && !IsAllowedHost(req.host)
    ensures r.status == 403 ==> r.body == AccessDenied(AccessDeniedMessage)
    ensures r.status in {200, 204, 400, 403, 404}
    ensures req.verb != "OPTIONS" && IsAllowedHost(req.host) ==> r == Route(req, ix)
  {
    if req.verb == "OPTIONS" then Response(204, NoContent)
    else if !IsAllowedHost(req.host) then Response(403, AccessDenied(AccessDeniedMessage))
    else Route(req, ix)
  }

  /** A request from a host off the allow-list gets nothing but a preflight answer or a refusal. */
  lemma ForeignHostIsRefused(req: Request, ix: PrebuiltIndex)
    requires SearchSafe(ix)
    requires !IsAllowedHost(req.host)
    ensures HandleRequest(req, ix).status in {204, 403}
    ensures HandleRequest(req, ix).status == 204 <==> req.verb == "OPTIONS"
  {
  }

  /** Appending a port to a host header changes neither its name nor whether it is allowed. */
  lemma PortDoesNotMatter(h: string, port: string)
    ensures HostName(h + ":" + port) == HostName(h)
    ensures IsAllowedHost(Some(h + ":" + port)) == IsAllowedHost(Some(h))
  {
    var hp := h + ":" + port;
    var n := HostName(h);
    FirstPartIs(h, ':', n);
    assert hp[..|n| + 1] == n + [':'] by {
      if h == n {
        assert hp == n + [':'] + port;
      } else {
        assert h[..|n| + 1] == n + [':'];
        assert hp[..|h|] == h;
      }
    }
    FirstPartIs(hp, ':', n);
  }
}

=== FILE: engine.dfy ===
/**
 * The backend's in-memory search engine (backend/src/search/engine.rs):
 * incremental indexing of roles and permissions, the three query modes the
 * HTTP layer uses (exact, prefix, fuzzy) over permissions and over roles, the
 * legacy single-mode searches, and the size statistics.
 *
 * Hash maps become Dafny maps; `Vec`s become sequences; `f64` scores become
 * reals.
 */
module SearchEngine {
  import opened Wrappers
  import opened Text
  import opened Seqs
  import opened Similarity

  datatype Role = Role(
    name: string,
    title: string,
    description: string,
    stage: string,
    includedPermissions: seq<string>)

  datatype Permission = Permission(
    name: string,
    service: string,
    resource: string,
    action: string,
    grantedByRoles: seq<string>)

  datatype RoleSummary = RoleSummary(name: string, title: string, stage: string)

  datatype PermissionSearchResult = PermissionSearchResult(
    name: string,
    service: string,
    resource: string,
    action: string,
    score: real,
    grantedByRoles: seq<RoleSummary>)

  datatype RoleSearchResult = RoleSearchResult(
    name: string,
    title: string,
    description: string,
    stage: string,
    score: real,
    permissionCount: nat,
    samplePermissions: seq<string>)

  /** A scored name: the `(&String, f64)` pairs and the legacy `SearchResult<String>`. */
  datatype Hit = Hit(name: string, score: real)

  datatype Engine = Engine(
    permissions: map<string, Permission>,
    allPermissionNames: seq<string>,
    roles: map<string, Role>,
    allRoleNames: seq<string>,
    permissionToRoles: map<string, seq<string>>,
    serviceToPermissions: map<string, seq<string>>)

  const ResultCap: nat := 20
  const GrantingRoleCap: nat := 5
  const SampleCap: nat := 5

  const ExactScore: real := 1.0
  const PrefixScore: real := 0.9
  const SubstringScore: real := 0.85
  const LegacyPrefixScore: real := 0.8

  /** `SearchEngine::new()`. */
  function New(): Engine {
    Engine(map[], [], map[], [], map[], map[])
  }

  /** The role names recorded for permission `p` (none when it has no entry). */
  function Granted(e: Engine, p: string): seq<string> {
    if p in e.permissionToRoles then e.permissionToRoles[p] else []
  }

  function ServiceList(e: Engine, s: string): seq<string> {
    if s in e.serviceToPermissions then e.serviceToPermissions[s] else []
  }

  /** A permission record built from its dotted name, with no granting roles yet. */
  function FreshPermission(name: string, service: string): Permission {
    Permission(name, service, Part(name, '.', 1), Part(name, '.', 2), [])
  }

  /**
   * Every permission is filed under its own name, `allPermissionNames` lists
   * each of them exactly once, and `serviceToPermissions` files each of them
   * under its service and nothing else.
   */
  ghost predicate PermissionsIndexed(e: Engine) {
    && (forall k :: k in e.permissions ==> e.permissions[k].name == k)
    && NoDup(e.allPermissionNames)
    && Elems(e.allPermissionNames) == e.permissions.Keys
    && (forall k :: k in e.permissions ==> k in ServiceList(e, e.permissions[k].service))
    && (forall s, n :: s in e.serviceToPermissions && n in e.serviceToPermissions[s] ==>
          n in e.permissions && e.permissions[n].service == s)
  }

  /** Every role is filed under its own name, and `allRoleNames` names exactly the filed roles. */
  ghost predicate RolesIndexed(e: Engine) {
    && (forall k :: k in e.roles ==> e.roles[k].name == k)
    && Elems(e.allRoleNames) == e.roles.Keys
  }

  /** The invariant every engine built by `New`, `IndexRole`, `IndexPermission` and `Finalize` keeps. */
  ghost predicate Valid(e: Engine) {
    PermissionsIndexed(e) && RolesIndexed(e)
  }

  lemma NewIsValid()
    ensures Valid(New())
  {
  }

  /** Adds a permission record under `name` and files it under `service`. */
  function AddPermission(e: Engine, name: string, service: string): Engine {
    e.(permissions := e.permissions[name := FreshPermission(name, service)],
       allPermissionNames := e.allPermissionNames + [name],
       serviceToPermissions := e.serviceToPermissions[service := ServiceList(e, service) + [name]])
  }

  lemma AddPermissionKeepsIndex(e: Engine, name: string, service: string)
    requires name !in e.permissions
    ensures PermissionsIndexed(e) ==> PermissionsIndexed(AddPermission(e, name, service))
  {
    if PermissionsIndexed(e) {
      var r := AddPermission(e, name, service);
      assert name !in Elems(e.allPermissionNames);
      NoDupAppend(e.allPermissionNames, name);
      assert Elems(r.allPermissionNames) == Elems(e.allPermissionNames) + {name};
      forall k | k in r.permissions ensures r.permissions[k].name == k && k in ServiceList(r, r.permissions[k].service) {
        if k != name {
          assert r.permissions[k] == e.permissions[k];
          assert k in ServiceList(e, e.permissions[k].service);
        }
      }
      forall s, n | s in r.serviceToPermissions && n in r.serviceToPermissions[s]
        ensures n in r.permissions && r.permissions[n].service == s
      {
        if s == service && n == name {
        } else if s == service {
          assert n in ServiceList(e, service);
        } else {
          assert n in e.serviceToPermissions[s];
        }
      }
    }
  }

  /**
   * One pass of the inner loop of `index_role`: records `roleName` as granting
   * `p`, and creates the permission from its dotted name if it is new.
   */
  function AddGrant(e: Engine, roleName: string, p: string): Engine {
    var e1 := e.(permissionToRoles := e.permissionToRoles[p := Granted(e, p) + [roleName]]);
    if p in e1.permissions then e1 else AddPermission(e1, p, Part(p, '.', 0))
  }

  lemma AddGrantKeepsIndex(e: Engine, roleName: string, p: string)
    ensures PermissionsIndexed(e) ==> PermissionsIndexed(AddGrant(e, roleName, p))
  {
    var e1 := e.(permissionToRoles := e.permissionToRoles[p := Granted(e, p) + [roleName]]);
    if PermissionsIndexed(e) {
      IndexIgnoresGrants(e, e1.permissionToRoles);
      if p !in e1.permissions {
        AddPermissionKeepsIndex(e1, p, Part(p, '.', 0));
      }
    }
  }

  /** The permission index invariant does not look at the recorded grants. */
  lemma IndexIgnoresGrants(e: Engine, grants: map<string, seq<string>>)
    requires PermissionsIndexed(e)
    ensures PermissionsIndexed(e.(permissionToRoles := grants))
  {
    var e1 := e.(permissionToRoles := grants);
    assert e1.permissions == e.permissions && e1.serviceToPermissions == e.serviceToPermissions;
    assert forall s :: ServiceList(e1, s) == ServiceList(e, s);
  }

  /** The inner loop of `index_role` over the role's permission list. */
  function AddGrants(e: Engine, roleName: string, perms: seq<string>): Engine
    decreases |perms|
  {
    if |perms| == 0 then e else AddGrants(AddGrant(e, roleName, perms[0]), roleName, perms[1..])
  }

  /** One pass records the role against its permission only. */
  lemma AddGrantGranted(e: Engine, roleName: string, p: string, q: string)
    ensures Granted(AddGrant(e, roleName, p), q) == Granted(e, q) + (if q == p then [roleName] else [])
  {
  }

  /** The role is recorded once per listing of each permission, after what was recorded before. */
  lemma {:induction false} AddGrantsGranted(e: Engine, roleName: string, perms: seq<string>)
    ensures forall p :: Granted(AddGrants(e, roleName, perms), p) == Granted(e, p) + Repeat(roleName, Count(perms, p))
    decreases |perms|
  {
    if |perms| == 0 {
      forall q ensures Granted(e, q) + Repeat(roleName, Count(perms, q)) == Granted(e, q) {
        assert Repeat(roleName, Count(perms, q)) == [];
      }
    } else {
      var p := perms[0];
      var e1 := AddGrant(e, roleName, p);
      var r := AddGrants(e, roleName, perms);
      assert r == AddGrants(e1, roleName, perms[1..]);
      AddGrantsGranted(e1, roleName, perms[1..]);
      forall q ensures Granted(r, q) == Granted(e, q) + Repeat(roleName, Count(perms, q)) {
        AddGrantGranted(e, roleName, p, q);
        var tail := Repeat(roleName, Count(perms[1..], q));
        if q == p {
          assert Repeat(roleName, Count(perms, q)) == [roleName] + tail;
          AppendAssoc(Granted(e, q), [roleName], tail);
        } else {
          assert Granted(e1, q) == Granted(e, q) + [];
          assert Count(perms, q) == Count(perms[1..], q);
        }
      }
    }
  }

  /** One pass of the loop: the permission is created if new, and nothing else changes but its grants. */
  lemma AddGrantPermissions(e: Engine, roleName: string, p: string)
    ensures var r := AddGrant(e, roleName, p);
            && r.permissions.Keys == e.permissions.Keys + {p}
            && (forall k :: k in e.permissions ==> r.permissions[k] == e.permissions[k])
            && (p !in e.permissions ==> r.permissions[p] == FreshPermission(p, Part(p, '.', 0)))
            && e.allPermissionNames <= r.allPermissionNames
            && r.roles == e.roles && r.allRoleNames == e.allRoleNames
  {
  }

  /**
   * The permissions after the loop: the old ones untouched, one fresh record
   * per newly seen name, the name list only extended, the roles untouched.
   */
  lemma {:induction false} AddGrantsPermissions(e: Engine, roleName: string, perms: seq<string>)
    ensures var r := AddGrants(e, roleName, perms);
            && r.permissions.Keys == e.permissions.Keys + Elems(perms)
            && (forall k :: k in e.permissions ==> r.permissions[k] == e.permissions[k])
            && (forall k :: k in r.permissions && k !in e.permissions ==>
                  r.permissions[k] == FreshPermission(k, Part(k, '.', 0)))
            && e.allPermissionNames <= r.allPermissionNames
            && r.roles == e.roles && r.allRoleNames == e.allRoleNames
    decreases |perms|
  {
    if |perms| > 0 {
      var e1 := AddGrant(e, roleName, perms[0]);
      var r := AddGrants(e, roleName, perms);
      assert r == AddGrants(e1, roleName, perms[1..]);
      AddGrantPermissions(e, roleName, perms[0]);
      AddGrantsPermissions(e1, roleName, perms[1..]);
      assert Elems(perms) == {perms[0]} + Elems(perms[1..]);
      forall k | k in r.permissions && k !in e.permissions
        ensures r.permissions[k] == FreshPermission(k, Part(k, '.', 0))
      {
        if k != perms[0] {
          assert k !in e1.permissions;
        }
      }
    }
  }

  lemma {:induction false} AddGrantsKeepsIndex(e: Engine, roleName: string, perms: seq<string>)
    ensures PermissionsIndexed(e) ==> PermissionsIndexed(AddGrants(e, roleName, perms))
    decreases |perms|
  {
    if |perms| > 0 && PermissionsIndexed(e) {
      AddGrantKeepsIndex(e, roleName, perms[0]);
      AddGrantsKeepsIndex(AddGrant(e, roleName, perms[0]), roleName, perms[1..]);
    }
  }

  /**
   * `index_role`: records the role as granting each listed permission (once
   * per listing), creates the permissions it has not seen, then files the role
   * under its name and appends the name to `allRoleNames` (again on a repeated
   * name).
   */
  function IndexRole(e: Engine, name: string, title: string, description: string, stage: string,
                     perms: seq<string>): (r: Engine)
    ensures forall p :: Granted(r, p) == Granted(e, p) + Repeat(name, Count(perms, p))
    ensures r.roles.Keys == e.roles.Keys + {name}
    ensures r.roles[name] == Role(name, title, description, stage, perms)
    ensures forall k :: k in e.roles && k != name ==> r.roles[k] == e.roles[k]
    ensures r.allRoleNames == e.allRoleNames + [name]
  {
    var e1 := AddGrants(e, name, perms);
    AddGrantsGranted(e, name, perms);
    AddGrantsPermissions(e, name, perms);
    IndexRoleFile(e1, name, title, description, stage, perms)
  }

  /** `index_role` keeps the engine invariant. */
  lemma IndexRoleKeepsValid(e: Engine, name: string, title: string, description: string, stage: string,
                            perms: seq<string>)
    requires Valid(e)
    ensures Valid(IndexRole(e, name, title, description, stage, perms))
  {
    var e1 := AddGrants(e, name, perms);
    AddGrantsKeepsIndex(e, name, perms);
    AddGrantsPermissions(e, name, perms);
    assert RolesIndexed(e1);
    var r := IndexRoleFile(e1, name, title, description, stage, perms);
    assert IndexRole(e, name, title, description, stage, perms) == r;
  }

  /** Files the role under its name once its grants are recorded. */
  function IndexRoleFile(e: Engine, name: string, title: string, description: string, stage: string,
                         perms: seq<string>): (r: Engine)
    ensures r.permissions == e.permissions && r.allPermissionNames == e.allPermissionNames
    ensures r.permissionToRoles == e.permissionToRoles && r.serviceToPermissions == e.serviceToPermissions
    ensures PermissionsIndexed(e) ==> PermissionsIndexed(r)
    ensures RolesIndexed(e) ==> RolesIndexed(r)
    ensures r.roles == e.roles[name := Role(name, title, description, stage, perms)]
    ensures r.allRoleNames == e.allRoleNames + [name]
  {
    var r := e.(roles := e.roles[name := Role(name, title, description, stage, perms)],
                allRoleNames := e.allRoleNames + [name]);
    assert Elems(r.allRoleNames) == Elems(e.allRoleNames) + {name};
    r
  }

  /** What `index_role` does to the permissions: as `AddGrantsPermissions` states for its loop. */
  lemma IndexRolePermissions(e: Engine, name: string, title: string, description: string, stage: string,
                             perms: seq<string>)
    ensures var r := IndexRole(e, name, title, description, stage, perms);
            && r.permissions.Keys == e.permissions.Keys + Elems(perms)
            && (forall k :: k in e.permissions ==> r.permissions[k] == e.permissions[k])
            && (forall k :: k in r.permissions && k !in e.permissions ==>
                  r.permissions[k] == FreshPermission(k, Part(k, '.', 0)))
            && e.allPermissionNames <= r.allPermissionNames
  {
    AddGrantsPermissions(e, name, perms);
  }

  /**
   * `index_permission`: nothing happens when the name is already known;
   * otherwise the permission is created under the caller's service (resource
   * and action still come from the dotted name) and filed under that service.
   */
  function IndexPermission(e: Engine, name: string, service: string): (r: Engine)
    ensures name in e.permissions ==> r == e
    ensures name !in e.permissions ==>
              && r.permissions.Keys == e.permissions.Keys + {name}
              && r.permissions[name] == Permission(name, service, Part(name, '.', 1), Part(name, '.', 2), [])
              && (forall k :: k in e.permissions ==> r.permissions[k] == e.permissions[k])
              && r.allPermissionNames == e.allPermissionNames + [name]
              && name in ServiceList(r, service)
    ensures r.roles == e.roles && r.allRoleNames == e.allRoleNames
    ensures r.permissionToRoles == e.permissionToRoles
    ensures Valid(e) ==> Valid(r)
  {
    if name in e.permissions then e
    else
      AddPermissionKeepsIndex(e, name, service);
      AddPermission(e, name, service)
  }

  /**
   * `finalize`: copies each permission's recorded granting roles into the
   * permission; permissions without a record, and everything else, stay as
   * they were.
   */
  function Finalize(e: Engine): (r: Engine)
    ensures r.permissions.Keys == e.permissions.Keys
    ensures forall k :: k in e.permissions && k in e.permissionToRoles ==>
              r.permissions[k] == e.permissions[k].(grantedByRoles := e.permissionToRoles[k])
    ensures forall k :: k in e.permissions && k !in e.permissionToRoles ==>
              r.permissions[k] == e.permissions[k]
    ensures r.(permissions := e.permissions) == e
  {
    var ps := map k | k in e.permissions ::
      if k in e.permissionToRoles then e.permissions[k].(grantedByRoles := e.permissionToRoles[k])
      else e.permissions[k];
    e.(permissions := ps)
  }

  /** Finalizing only rewrites the `grantedByRoles` of existing permissions, so it keeps the invariant. */
  lemma FinalizeKeepsValid(e: Engine)
    requires Valid(e)
    ensures Valid(Finalize(e))
  {
    var r := Finalize(e);
    assert r.allPermissionNames == e.allPermissionNames && r.roles == e.roles
           && r.allRoleNames == e.allRoleNames && r.serviceToPermissions == e.serviceToPermissions;
    forall k | k in r.permissions
      ensures r.permissions[k].name == k && k in ServiceList(r, r.permissions[k].service)
    {
      assert r.permissions[k].name == e.permissions[k].name;
      assert r.permissions[k].service == e.permissions[k].service;
    }
    forall s, n | s in r.serviceToPermissions && n in r.serviceToPermissions[s]
      ensures n in r.permissions && r.permissions[n].service == s
    {
      assert r.permissions[n].service == e.permissions[n].service;
    }
  }

  /** Finalizing twice is finalizing once. */
  lemma FinalizeIdempotent(e: Engine)
    ensures Finalize(Finalize(e)) == Finalize(e)
  {
    var once := Finalize(e);
    var twice := Finalize(once);
    assert twice.permissions == once.permissions;
  }

  /** `stats`: the number of permissions and of roles. */
  function Stats(e: Engine): (nat, nat) {
    (|e.permissions|, |e.roles|)
  }

  /**
   * On a valid engine the permission count is the length of
   * `allPermissionNames`, and the role count is the number of distinct role
   * names indexed.
   */
  lemma StatsCounts(e: Engine)
    requires Valid(e)
    ensures Stats(e).0 == |e.allPermissionNames|
    ensures Stats(e).1 == |Elems(e.allRoleNames)|
  {
    NoDupCard(e.allPermissionNames);
    assert |e.permissions| == |e.permissions.Keys|;
    assert |e.roles| == |e.roles.Keys|;
  }

  // ---------------------------------------------------------------------------
  // Matching

  /** The `filter_map` over a name list: keeps, in order, the names `decide` scores. */
  function Collect(names: seq<string>, decide: string -> Option<real>): (r: seq<Hit>)
    ensures |r| <= |names|
    ensures forall h :: h in r ==> h.name in names && decide(h.name) == Some(h.score)
    ensures forall n :: n in names && decide(n).Some? ==> Hit(n, decide(n).value) in r
    decreases |names|
  {
    if |names| == 0 then []
    else
      var rest := Collect(names[1..], decide);
      match decide(names[0])
      case Some(s) => [Hit(names[0], s)] + rest
      case None => rest
  }

  /** `x` occurs at some position of `names` before a position holding `y`. */
  ghost predicate Before(names: seq<string>, x: string, y: string) {
    exists i, j :: 0 <= i < j < |names| && names[i] == x && names[j] == y
  }

  lemma BeforeTail(names: seq<string>, x: string, y: string)
    requires |names| > 0 && Before(names[1..], x, y)
    ensures Before(names, x, y)
  {
    var i, j :| 0 <= i < j < |names[1..]| && names[1..][i] == x && names[1..][j] == y;
    assert names[i + 1] == x && names[j + 1] == y;
  }

  /**
   * `filter_map` keeps the order of the names it walks: of any two hits, the
   * earlier one comes from an earlier position of `names`.
   */
  lemma CollectInOrder(names: seq<string>, decide: string -> Option<real>)
    ensures forall a, b :: 0 <= a < b < |Collect(names, decide)| ==>
              Before(names, Collect(names, decide)[a].name, Collect(names, decide)[b].name)
  {
    forall a, b | 0 <= a < b < |Collect(names, decide)|
      ensures Before(names, Collect(names, decide)[a].name, Collect(names, decide)[b].name)
    {
      CollectPairInOrder(names, decide, a, b);
    }
  }

  lemma {:induction false} CollectPairInOrder(names: seq<string>, decide: string -> Option<real>, a: nat, b: nat)
    requires a < b < |Collect(names, decide)|
    ensures Before(names, Collect(names, decide)[a].name, Collect(names, decide)[b].name)
    decreases |names|
  {
    var r := Collect(names, decide);
    var rest := Collect(names[1..], decide);
    if decide(names[0]).Some? {
      assert r == [Hit(names[0], decide(names[0]).value)] + rest;
      if a == 0 {
        assert r[b] == rest[b - 1] && rest[b - 1] in rest;
        var k :| 0 <= k < |names[1..]| && names[1..][k] == r[b].name;
        assert names[0] == r[a].name && names[k + 1] == r[b].name;
      } else {
        CollectPairInOrder(names[1..], decide, a - 1, b - 1);
        BeforeTail(names, r[a].name, r[b].name);
      }
    } else {
      CollectPairInOrder(names[1..], decide, a, b);
      BeforeTail(names, r[a].name, r[b].name);
    }
  }

  /**
   * `filter_map` works name by name: over a concatenation it is the hits of
   * the first part followed by those of the second, and a single name gives
   * its hit or nothing. These two facts determine `Collect` completely.
   */
  lemma {:induction false} CollectAppend(a: seq<string>, b: seq<string>, decide: string -> Option<real>)
    ensures Collect(a + b, decide) == Collect(a, decide) + Collect(b, decide)
    ensures |a| == 1 ==> Collect(a, decide) == if decide(a[0]).Some? then [Hit(a[0], decide(a[0]).value)] else []
    decreases |a|
  {
    if |a| == 0 {
      assert a + b == b;
    } else {
      assert (a + b)[0] == a[0];
      assert (a + b)[1..] == a[1..] + b;
      CollectAppend(a[1..], b, decide);
      if decide(a[0]).Some? {
        AppendAssoc([Hit(a[0], decide(a[0]).value)], Collect(a[1..], decide), Collect(b, decide));
      }
      if |a| == 1 {
        assert a[1..] == [];
      }
    }
  }

  /** Jaccard similarity of the lower-cased query's and text's 3-grams, with the corrected extractor. */
  function GramSimilarity(query: string, text: string): (r: real)
    ensures 0.0 <= r <= 1.0
    ensures Lower(query) == Lower(text) ==> r == 1.0
  {
    JaccardSelf(ExtractNgrams(Lower(query), GramSize));
    Jaccard(ExtractNgrams(Lower(query), GramSize), ExtractNgrams(Lower(text), GramSize))
  }

  /** The similarity as the source computes it, with the byte-length test of `extract_ngrams`. */
  function GramSimilarityAsWritten(query: string, text: string): (r: real)
    ensures 0.0 <= r <= 1.0
  {
    Jaccard(ExtractNgramsAsWritten(Lower(query), GramSize), ExtractNgramsAsWritten(Lower(text), GramSize))
  }

  lemma LowerKeepsAscii(s: string)
    requires IsAscii(s)
    ensures IsAscii(Lower(s))
  {
  }

  /** On ASCII queries and names the engine's similarity is the source's. */
  lemma GramSimilarityAgreesOnAscii(query: string, text: string)
    requires IsAscii(query) && IsAscii(text)
    ensures GramSimilarity(query, text) == GramSimilarityAsWritten(query, text)
  {
    LowerKeepsAscii(query);
    LowerKeepsAscii(text);
    NgramsAgreeOnAscii(Lower(query), GramSize);
    NgramsAgreeOnAscii(Lower(text), GramSize);
  }

  /**
   * Where they differ: "\u{e9}a" against "\u{fc}b" scores 1.0 as written, so the
   * source's fuzzy search returns the name at any threshold up to 1; the
   * engine modelled here scores it 0 and leaves it out at the default 0.2.
   */
  lemma GramSimilarityDiffersOnShortNonAscii()
    ensures GramSimilarityAsWritten("\U{E9}a", "\U{FC}b") == 1.0
    ensures GramSimilarity("\U{E9}a", "\U{FC}b") == 0.0
    ensures FuzzyPermissionScore("\U{E9}a", "\U{FC}b", 0.2) == None
  {
    assert Lower("\U{E9}a") == "\U{E9}a";
    assert Lower("\U{FC}b") == "\U{FC}b";
    AsWrittenScoresDifferentTextsAsEqual();
    assert !Contains("\U{FC}b", "\U{E9}a") by {
      assert "\U{FC}b"[1..] == "b" && "b"[1..] == "";
      assert !Contains("", "\U{E9}a");
      assert !Contains("b", "\U{E9}a");
    }
  }

  /** Case-insensitive prefix test used by prefix mode. */
  predicate PrefixMatch(text: string, query: string) {
    StartsWith(Lower(text), Lower(query))
  }

  /** Case-insensitive substring test used by fuzzy mode. */
  predicate SubstringMatch(text: string, query: string) {
    Contains(Lower(text), Lower(query))
  }

  /** The fuzzy decision for one permission name: a substring hit scores 0.85, else the similarity if it reaches the threshold. */
  function FuzzyPermissionScore(query: string, name: string, threshold: real): (r: Option<real>)
    ensures SubstringMatch(name, query) ==> r == Some(SubstringScore)
    ensures !SubstringMatch(name, query) ==> (r.Some? <==> GramSimilarity(query, name) >= threshold)
    ensures r.Some? ==> 0.0 <= r.value <= 1.0 && (r.value == SubstringScore || r.value >= threshold)
  {
    if SubstringMatch(name, query) then Some(SubstringScore)
    else
      var score := GramSimilarity(query, name);
      if score >= threshold then Some(score) else None
  }

  /** The fuzzy decision for one role: name or title as substring, else the better similarity. */
  function FuzzyRoleScore(query: string, name: string, title: string, threshold: real): (r: Option<real>)
    ensures r.Some? ==> 0.0 <= r.value <= 1.0 && (r.value == SubstringScore || r.value >= threshold)
    ensures r.None? ==> GramSimilarity(query, name) < threshold && GramSimilarity(query, title) < threshold
  {
    if SubstringMatch(name, query) || SubstringMatch(title, query) then Some(SubstringScore)
    else
      var score := RealMax(GramSimilarity(query, name), GramSimilarity(query, title));
      if score >= threshold then Some(score) else None
  }

  function RealMax(a: real, b: real): real {
    if a >= b then a else b
  }

  /** The scored permission names of `search_permissions`, before the cap. */
  function PermissionHits(e: Engine, query: string, mode: string, threshold: real): (r: seq<Hit>)
    // exact: a case-sensitive key lookup, at most one hit, scored 1
    ensures mode == "exact" ==>
              && |r| <= 1
              && (|r| == 1 <==> query in e.permissions)
              && (forall h :: h in r ==> h == Hit(e.permissions[query].name, ExactScore))
    // prefix: exactly the names whose lower-case form starts with the lower-case query, at 0.9
    ensures mode == "prefix" ==>
              && (forall h :: h in r ==>
                    h.name in e.allPermissionNames && PrefixMatch(h.name, query) && h.score == PrefixScore)
              && (forall n :: n in e.allPermissionNames && PrefixMatch(n, query) ==> Hit(n, PrefixScore) in r)
    // fuzzy (any other mode string): substring hits at 0.85 whatever the threshold,
    // otherwise the names whose similarity reaches the threshold, scored by it
    ensures mode != "exact" && mode != "prefix" ==>
              && (forall h :: h in r ==>
                    && h.name in e.allPermissionNames
                    && (SubstringMatch(h.name, query) ==> h.score == SubstringScore)
                    && (!SubstringMatch(h.name, query) ==>
                          h.score == GramSimilarity(query, h.name) && h.score >= threshold))
              && (forall n :: n in e.allPermissionNames && SubstringMatch(n, query) ==>
                    Hit(n, SubstringScore) in r)
              && (forall n ::
                    (n in e.allPermissionNames && !SubstringMatch(n, query) && GramSimilarity(query, n) >= threshold)
                    ==> Hit(n, GramSimilarity(query, n)) in r)
    ensures forall h :: h in r ==> 0.0 <= h.score <= 1.0
    // prefix and fuzzy hits come in the order of `allPermissionNames`
    ensures mode != "exact" ==> forall a, b :: 0 <= a < b < |r| ==> Before(e.allPermissionNames, r[a].name, r[b].name)
  {
    if mode == "exact" then
      if query in e.permissions then [Hit(e.permissions[query].name, ExactScore)] else []
    else if mode == "prefix" then
      var d := n => if PrefixMatch(n, query) then Some(PrefixScore) else None;
      CollectInOrder(e.allPermissionNames, d);
      Collect(e.allPermissionNames, d)
    else
      var d := n => FuzzyPermissionScore(query, n, threshold);
      CollectInOrder(e.allPermissionNames, d);
      Collect(e.allPermissionNames, d)
  }

  /** Every listed role name has a role record (`search_roles` unwraps the lookup in prefix mode). */
  ghost predicate RoleNamesResolve(e: Engine) {
    forall n :: n in e.allRoleNames ==> n in e.roles
  }

  /** The scored role names of `search_roles`, before the cap. */
  function RoleHits(e: Engine, query: string, mode: string, threshold: real): (r: seq<Hit>)
    requires mode == "prefix" ==> RoleNamesResolve(e)
    ensures mode == "exact" ==>
              && |r| <= 1
              && (|r| == 1 <==> query in e.roles)
              && (forall h :: h in r ==> h == Hit(e.roles[query].name, ExactScore))
    // prefix: the names whose name or title starts with the query, at 0.9
    ensures mode == "prefix" ==>
              && (forall h :: h in r ==>
                    && h.name in e.allRoleNames && h.score == PrefixScore
                    && (PrefixMatch(h.name, query) || PrefixMatch(e.roles[h.name].title, query)))
              && (forall n ::
                    (n in e.allRoleNames && (PrefixMatch(n, query) || PrefixMatch(e.roles[n].title, query)))
                    ==> Hit(n, PrefixScore) in r)
    // fuzzy: name or title substring at 0.85, else the larger similarity if it reaches the threshold
    ensures mode != "exact" && mode != "prefix" ==>
              && (forall h :: h in r ==>
                    h.name in e.allRoleNames && h.name in e.roles
                    && FuzzyRoleScore(query, h.name, e.roles[h.name].title, threshold) == Some(h.score))
              && (forall n ::
                    (n in e.allRoleNames && n in e.roles && FuzzyRoleScore(query, n, e.roles[n].title, threshold).Some?)
                    ==> Hit(n, FuzzyRoleScore(query, n, e.roles[n].title, threshold).value) in r)
    // prefix and fuzzy hits come in the order of `allRoleNames`
    ensures mode != "exact" ==> forall a, b :: 0 <= a < b < |r| ==> Before(e.allRoleNames, r[a].name, r[b].name)
  {
    if mode == "exact" then
      if query in e.roles then [Hit(e.roles[query].name, ExactScore)] else []
    else if mode == "prefix" then
      var d := n =>
        if n in e.roles && (PrefixMatch(n, query) || PrefixMatch(e.roles[n].title, query))
        then Some(PrefixScore) else None;
      CollectInOrder(e.allRoleNames, d);
      Collect(e.allRoleNames, d)
    else
      var d := n => if n in e.roles then FuzzyRoleScore(query, n, e.roles[n].title, threshold) else None;
      CollectInOrder(e.allRoleNames, d);
      Collect(e.allRoleNames, d)
  }

  /** The fuzzy role decision: 0.85 on a substring hit, else the larger similarity when it reaches the threshold. */
  lemma FuzzyRoleScoreMeaning(query: string, name: string, title: string, threshold: real)
    ensures SubstringMatch(name, query) || SubstringMatch(title, query) ==>
              FuzzyRoleScore(query, name, title, threshold) == Some(SubstringScore)
    ensures !(SubstringMatch(name, query) || SubstringMatch(title, query)) ==>
              && (FuzzyRoleScore(query, name, title, threshold).Some? <==>
                    GramSimilarity(query, name) >= threshold || GramSimilarity(query, title) >= threshold)
              && (FuzzyRoleScore(query, name, title, threshold).Some? ==>
                    var s := FuzzyRoleScore(query, name, title, threshold).value;
                    s >= GramSimilarity(query, name) && s >= GramSimilarity(query, title)
                    && (s == GramSimilarity(query, name) || s == GramSimilarity(query, title)))
  {
  }

  // ---------------------------------------------------------------------------
  // Results

  function Summary(r: Role): RoleSummary {
    RoleSummary(r.name, r.title, r.stage)
  }

  /** Summaries of the named roles that exist, in order (`filter_map(roles.get)`). */
  function Summaries(e: Engine, names: seq<string>): (r: seq<RoleSummary>)
    ensures |r| <= |names|
    ensures (forall n :: n in names ==> n !in e.roles) ==> r == []
    ensures (forall n :: n in names ==> n in e.roles) ==>
              |r| == |names| && forall i :: 0 <= i < |r| ==> r[i] == Summary(e.roles[names[i]])
    decreases |names|
  {
    if |names| == 0 then []
    else
      var rest := Summaries(e, names[1..]);
      if names[0] in e.roles then [Summary(e.roles[names[0]])] + rest else rest
  }

  /** A permission's fields with at most 5 summaries of the roles recorded as granting it. */
  function PermissionResult(e: Engine, p: Permission, score: real): (r: PermissionSearchResult)
    ensures r.name == p.name && r.service == p.service && r.resource == p.resource && r.action == p.action
    ensures r.score == score
    ensures |r.grantedByRoles| <= GrantingRoleCap
    ensures (forall n :: n in Granted(e, p.name) ==> n in e.roles) ==>
              |r.grantedByRoles| == if |Granted(e, p.name)| < GrantingRoleCap then |Granted(e, p.name)| else GrantingRoleCap
    ensures (forall n :: n in Granted(e, p.name) ==> n in e.roles) ==>
              forall j :: 0 <= j < |r.grantedByRoles| ==> r.grantedByRoles[j] == Summary(e.roles[Granted(e, p.name)[j]])
  {
    PermissionSearchResult(p.name, p.service, p.resource, p.action, score,
                           Take(Summaries(e, Granted(e, p.name)), GrantingRoleCap))
  }

  /** The `filter_map(permissions.get)` step that turns hits into results. */
  function PermissionResults(e: Engine, hits: seq<Hit>): (r: seq<PermissionSearchResult>)
    ensures |r| <= |hits|
    ensures forall x :: x in r ==> |x.grantedByRoles| <= GrantingRoleCap
    ensures (forall h :: h in hits ==> h.name in e.permissions) ==>
              |r| == |hits| && forall i :: 0 <= i < |r| ==>
                r[i] == PermissionResult(e, e.permissions[hits[i].name], hits[i].score)
    ensures (forall h :: h in hits ==> h.name in e.permissions) ==>
              forall i :: 0 <= i < |r| ==>
                var p := e.permissions[hits[i].name];
                && r[i].name == p.name && r[i].service == p.service
                && r[i].resource == p.resource && r[i].action == p.action
                && r[i].score == hits[i].score
    decreases |hits|
  {
    if |hits| == 0 then []
    else
      var rest := PermissionResults(e, hits[1..]);
      if hits[0].name in e.permissions
      then [PermissionResult(e, e.permissions[hits[0].name], hits[0].score)] + rest
      else rest
  }

  /** On a valid engine every hit names a known permission. */
  lemma PermissionHitsKnown(e: Engine, query: string, mode: string, threshold: real)
    ensures Valid(e) ==> forall h :: h in PermissionHits(e, query, mode, threshold) ==> h.name in e.permissions
  {
    assert forall n :: n in e.allPermissionNames ==> n in Elems(e.allPermissionNames);
  }

  /**
   * `search_permissions`: at most 20 results with at most 5 granting roles
   * each; on a valid engine, the first 20 hits in order, each with its
   * permission's fields.
   */
  function SearchPermissions(e: Engine, query: string, mode: string, threshold: real): (r: seq<PermissionSearchResult>)
    ensures |r| <= ResultCap
    ensures forall x :: x in r ==> |x.grantedByRoles| <= GrantingRoleCap
    ensures Valid(e) ==>
              var hits := Take(PermissionHits(e, query, mode, threshold), ResultCap);
              && |r| == |hits|
              && forall i :: 0 <= i < |r| ==>
                   && r[i] == PermissionResult(e, e.permissions[hits[i].name], hits[i].score)
                   && r[i].name == hits[i].name
                   && r[i].service == e.permissions[hits[i].name].service
                   && r[i].resource == e.permissions[hits[i].name].resource
                   && r[i].action == e.permissions[hits[i].name].action
                   && r[i].score == hits[i].score
                   && 0.0 <= r[i].score <= 1.0
  {
    var all := PermissionHits(e, query, mode, threshold);
    var hits := Take(all, ResultCap);
    PermissionHitsKnown(e, query, mode, threshold);
    assert forall h :: h in hits ==> h in all;
    PermissionResults(e, hits)
  }

  /** A role's fields with its full permission count and its first 5 permissions. */
  function RoleResult(role: Role, score: real): (r: RoleSearchResult)
    ensures r.name == role.name && r.title == role.title && r.description == role.description && r.stage == role.stage
    ensures r.score == score
    ensures r.permissionCount == |role.includedPermissions|
    ensures |r.samplePermissions| == if |role.includedPermissions| < SampleCap then |role.includedPermissions| else SampleCap
    ensures r.samplePermissions == role.includedPermissions[..|r.samplePermissions|]
  {
    RoleSearchResult(role.name, role.title, role.description, role.stage, score,
                     |role.includedPermissions|, Take(role.includedPermissions, SampleCap))
  }

  function RoleResults(e: Engine, hits: seq<Hit>): (r: seq<RoleSearchResult>)
    ensures |r| <= |hits|
    ensures (forall h :: h in hits ==> h.name in e.roles) ==>
              |r| == |hits| && forall i :: 0 <= i < |r| ==> r[i] == RoleResult(e.roles[hits[i].name], hits[i].score)
    ensures (forall h :: h in hits ==> h.name in e.roles) ==>
              forall i :: 0 <= i < |r| ==>
                var role := e.roles[hits[i].name];
                && r[i].name == role.name && r[i].title == role.title
                && r[i].description == role.description && r[i].stage == role.stage
                && r[i].score == hits[i].score
    decreases |hits|
  {
    if |hits| == 0 then []
    else
      var rest := RoleResults(e, hits[1..]);
      if hits[0].name in e.roles then [RoleResult(e.roles[hits[0].name], hits[0].score)] + rest else rest
  }

  /** With every listed role name resolving, every hit names a known role. */
  lemma RoleHitsKnown(e: Engine, query: string, mode: string, threshold: real)
    requires mode == "prefix" ==> RoleNamesResolve(e)
    ensures RolesIndexed(e) ==> forall h :: h in RoleHits(e, query, mode, threshold) ==> h.name in e.roles
  {
    assert forall n :: n in e.allRoleNames ==> n in Elems(e.allRoleNames);
  }

  /**
   * `search_roles`: at most 20 results; on an indexed engine, the first 20
   * hits in order, each carrying the role's full permission count and its
   * first 5 permissions as a sample.
   */
  function SearchRoles(e: Engine, query: string, mode: string, threshold: real): (r: seq<RoleSearchResult>)
    requires mode == "prefix" ==> RoleNamesResolve(e)
    ensures |r| <= ResultCap
    ensures RolesIndexed(e) ==>
              var hits := Take(RoleHits(e, query, mode, threshold), ResultCap);
              && |r| == |hits|
              && forall i :: 0 <= i < |r| ==>
                   var role := e.roles[hits[i].name];
                   && r[i].name == hits[i].name && r[i].score == hits[i].score
                   && r[i].title == role.title && r[i].description == role.description && r[i].stage == role.stage
                   && r[i].permissionCount == |role.includedPermissions|
                   && r[i].samplePermissions == Take(role.includedPermissions, SampleCap)
  {
    var all := RoleHits(e, query, mode, threshold);
    var hits := Take(all, ResultCap);
    RoleHitsKnown(e, query, mode, threshold);
    assert forall h :: h in hits ==> h in all;
    RoleResults(e, hits)
  }

  // ---------------------------------------------------------------------------
  // Legacy single-mode searches

  /** `search_exact`: a case-sensitive key lookup scored 1. */
  function SearchExact(e: Engine, query: string): (r: Option<Hit>)
    ensures r.Some? <==> query in e.permissions
    ensures r.Some? ==> r.value.score == ExactScore
    ensures Valid(e) && r.Some? ==> r.value.name == query
  {
    if query in e.permissions then Some(Hit(e.permissions[query].name, ExactScore)) else None
  }

  /** `search_prefix`: as prefix mode but scored 0.8, capped at 20. */
  function SearchPrefix(e: Engine, query: string): (r: seq<Hit>)
    ensures |r| <= ResultCap
    ensures forall h :: h in r ==> h.name in e.allPermissionNames && PrefixMatch(h.name, query) && h.score == LegacyPrefixScore
    ensures forall a, b :: 0 <= a < b < |r| ==> Before(e.allPermissionNames, r[a].name, r[b].name)
  {
    var d := n => if PrefixMatch(n, query) then Some(LegacyPrefixScore) else None;
    CollectInOrder(e.allPermissionNames, d);
    Take(Collect(e.allPermissionNames, d), ResultCap)
  }

  /** `search_fuzzy`: as fuzzy mode, capped at 20. */
  function SearchFuzzy(e: Engine, query: string, threshold: real): (r: seq<Hit>)
    ensures |r| <= ResultCap
    ensures forall h :: h in r ==> h.name in e.allPermissionNames && FuzzyPermissionScore(query, h.name, threshold) == Some(h.score)
    ensures forall a, b :: 0 <= a < b < |r| ==> Before(e.allPermissionNames, r[a].name, r[b].name)
  {
    var d := n => FuzzyPermissionScore(query, n, threshold);
    CollectInOrder(e.allPermissionNames, d);
    Take(Collect(e.allPermissionNames, d), ResultCap)
  }

  /**
   * The legacy searches agree with the permission modes: exact finds the same
   * hit, fuzzy returns the first 20 fuzzy hits, and prefix returns the first 20
   * prefix names, scored 0.8 instead of 0.9.
   */
  lemma LegacyAgreesWithModes(e: Engine, query: string, threshold: real)
    ensures SearchExact(e, query).Some? <==> |PermissionHits(e, query, "exact", threshold)| == 1
    ensures SearchExact(e, query).Some? ==> SearchExact(e, query).value == PermissionHits(e, query, "exact", threshold)[0]
    ensures SearchFuzzy(e, query, threshold) == Take(PermissionHits(e, query, "fuzzy", threshold), ResultCap)
    ensures |SearchPrefix(e, query)| == |Take(PermissionHits(e, query, "prefix", threshold), ResultCap)|
    ensures forall i :: 0 <= i < |SearchPrefix(e, query)| ==>
              SearchPrefix(e, query)[i] == Hit(PermissionHits(e, query, "prefix", threshold)[i].name, LegacyPrefixScore)
  {
    LegacyPrefixRelabel(e.allPermissionNames, query);
  }

  /** Two deciders that accept the same names keep the same names, in the same order. */
  lemma {:induction false} CollectSameNames(names: seq<string>, d1: string -> Option<real>, d2: string -> Option<real>)
    requires forall n :: n in names ==> (d1(n).Some? <==> d2(n).Some?)
    ensures |Collect(names, d1)| == |Collect(names, d2)|
    ensures forall i :: 0 <= i < |Collect(names, d1)| ==> Collect(names, d1)[i].name == Collect(names, d2)[i].name
    decreases |names|
  {
    if |names| > 0 {
      CollectSameNames(names[1..], d1, d2);
    }
  }

  lemma LegacyPrefixRelabel(names: seq<string>, query: string)
    ensures var a := Collect(names, n => if PrefixMatch(n, query) then Some(LegacyPrefixScore) else None);
            var b := Collect(names, n => if PrefixMatch(n, query) then Some(PrefixScore) else None);
            |a| == |b| && forall i :: 0 <= i < |a| ==> a[i] == Hit(b[i].name, LegacyPrefixScore)
  {
    var d1 := n => if PrefixMatch(n, query) then Some(LegacyPrefixScore) else None;
    var d2 := n => if PrefixMatch(n, query) then Some(PrefixScore) else None;
    CollectSameNames(names, d1, d2);
    var a := Collect(names, d1);
    forall i | 0 <= i < |a| ensures a[i].score == LegacyPrefixScore {
      assert a[i] in a;
    }
  }

  /** Every name prefix mode finds, fuzzy mode finds too, as a substring hit. */
  lemma PrefixHitsAreFuzzyHits(e: Engine, query: string, threshold: real)
    ensures forall h :: h in PermissionHits(e, query, "prefix", threshold) ==>
              Hit(h.name, SubstringScore) in PermissionHits(e, query, "fuzzy", threshold)
  {
    forall h | h in PermissionHits(e, query, "prefix", threshold)
      ensures Hit(h.name, SubstringScore) in PermissionHits(e, query, "fuzzy", threshold)
    {
      StartsWithContains(Lower(h.name), Lower(query));
    }
  }

  /** Exact lookup is case-sensitive: a differently-cased query finds nothing. */
  lemma ExactIsCaseSensitive()
    ensures var e := IndexRole(New(), "roles/viewer", "Viewer", "", "GA", ["compute.instances.list"]);
            && PermissionHits(e, "compute.instances.list", "exact", 0.2) != []
            && PermissionHits(e, "Compute.Instances.List", "exact", 0.2) == []
  {
    var e := IndexRole(New(), "roles/viewer", "Viewer", "", "GA", ["compute.instances.list"]);
    assert e.permissions.Keys == {"compute.instances.list"};
    assert "Compute.Instances.List" != "compute.instances.list";
  }
}

=== FILE: order.dfy ===
/**
 * The ordering Rust's `String::cmp` and Python's `str` comparison use on the
 * model's strings (lexicographic by character; on ASCII text this is the byte
 * order), strictly sorted sequences, and sort-with-deduplication.
 */
module StringOrder {
  import opened Seqs

  /** Lexicographic "comes strictly before". */
  predicate Less(a: string, b: string)
    decreases |a|
  {
    if |a| == 0 then |b| > 0
    else if |b| == 0 then false
    else if a[0] == b[0] then Less(a[1..], b[1..])
    else a[0] < b[0]
  }

  lemma {:induction false} LessIrreflexive(a: string)
    ensures !Less(a, a)
    decreases |a|
  {
    if |a| > 0 {
      LessIrreflexive(a[1..]);
    }
  }

  lemma {:induction false} LessTransitive(a: string, b: string, c: string)
    requires Less(a, b) && Less(b, c)
    ensures Less(a, c)
    decreases |a|
  {
    if |a| > 0 && |b| > 0 && |c| > 0 && a[0] == b[0] && b[0] == c[0] {
      LessTransitive(a[1..], b[1..], c[1..]);
    }
  }

  /** Any two different strings are ordered one way or the other. */
  lemma {:induction false} LessTotal(a: string, b: string)
    requires a != b
    ensures Less(a, b) || Less(b, a)
    decreases |a|
  {
    if |a| > 0 && |b| > 0 && a[0] == b[0] {
      assert a == [a[0]] + a[1..] && b == [b[0]] + b[1..];
      LessTotal(a[1..], b[1..]);
    }
  }

  lemma LessAsymmetric(a: string, b: string)
    requires Less(a, b)
    ensures !Less(b, a)
  {
    if Less(b, a) {
      LessTransitive(a, b, a);
      LessIrreflexive(a);
    }
  }

  predicate StrictlySorted(s: seq<string>) {
    forall i, j :: 0 <= i < j < |s| ==> Less(s[i], s[j])
  }

  /** Strictly sorted sequences repeat nothing. */
  lemma SortedNoDup(s: seq<string>)
    requires StrictlySorted(s)
    ensures NoDup(s)
  {
    forall i, j | 0 <= i < j < |s| ensures s[i] != s[j] {
      LessIrreflexive(s[i]);
    }
  }

  /** Inserts `x` into a strictly sorted sequence unless it is already there. */
  function Insert(x: string, s: seq<string>): (r: seq<string>)
    requires StrictlySorted(s)
    ensures StrictlySorted(r)
    ensures Elems(r) == Elems(s) + {x}
    decreases |s|
  {
    if |s| == 0 then [x]
    else if x == s[0] then s
    else if Less(x, s[0]) then
      assert StrictlySorted([x] + s) by {
        var r := [x] + s;
        forall i, j | 0 <= i < j < |r| ensures Less(r[i], r[j]) {
          if i == 0 && j > 1 {
            LessTransitive(x, s[0], s[j - 1]);
          }
        }
      }
      [x] + s
    else
      LessTotal(x, s[0]);
      var t := Insert(x, s[1..]);
      assert Elems(s) == {s[0]} + Elems(s[1..]);
      assert Elems([s[0]] + t) == {s[0]} + Elems(t);
      assert StrictlySorted([s[0]] + t) by {
        forall j | 0 <= j < |t| ensures Less(s[0], t[j]) {
          assert t[j] in Elems(t);
          if t[j] != x {
            var k :| 0 <= k < |s[1..]| && s[1..][k] == t[j];
          }
        }
      }
      [s[0]] + t
  }

  /**
   * The distinct entries of `xs` in ascending order: Rust `sort(); dedup()`,
   * Python `sorted(set(xs))`.
   */
  function SortDedup(xs: seq<string>): (r: seq<string>)
    ensures StrictlySorted(r)
    ensures Elems(r) == Elems(xs)
    decreases |xs|
  {
    if |xs| == 0 then []
    else
      assert Elems(xs) == {xs[0]} + Elems(xs[1..]);
      Insert(xs[0], SortDedup(xs[1..]))
  }

  /** A set has only one strictly sorted enumeration. */
  lemma {:induction false} SortedUnique(s: seq<string>, t: seq<string>)
    requires StrictlySorted(s) && StrictlySorted(t)
    requires Elems(s) == Elems(t)
    ensures s == t
    decreases |s|
  {
    if |s| == 0 {
      ElemsEmpty(t);
    } else {
      assert s[0] in Elems(t);
      assert t != [];
      assert t[0] in Elems(s);
      // s[0] and t[0] are both the least element of the common set
      if s[0] != t[0] {
        var i :| 0 <= i < |s| && s[i] == t[0];
        var j :| 0 <= j < |t| && t[j] == s[0];
        assert i > 0 && j > 0;
        LessAsymmetric(s[0], s[i]);
        assert false;
      }
      SortedNoDup(s);
      SortedNoDup(t);
      assert Elems(s) == {s[0]} + Elems(s[1..]);
      assert Elems(t) == {t[0]} + Elems(t[1..]);
      assert s[0] !in Elems(s[1..]);
      assert t[0] !in Elems(t[1..]);
      assert Elems(s[1..]) == Elems(t[1..]);
      SortedUnique(s[1..], t[1..]);
      assert s == [s[0]] + s[1..] && t == [t[0]] + t[1..];
    }
  }

  /** The number of entries `SortDedup` keeps is the number of distinct inputs. */
  lemma SortDedupCount(xs: seq<string>)
    ensures |SortDedup(xs)| == |Elems(xs)|
  {
    SortedNoDup(SortDedup(xs));
    NoDupCard(SortDedup(xs));
  }
}

=== FILE: scraper_errors.dfy ===
/**
 * The scraper's error type and its classification helpers
 * (scraper/src/error.rs): which errors are authentication or rate-limit
 * failures, and which carry remediation advice.
 */
module ScraperErrors {
  import opened Wrappers

  /**
   * `ScraperError`. The I/O, serialization and HTTP variants wrap foreign
   * error values; here they carry those values' display text.
   */
  datatype ScraperError =
    | GcpAuthError(message: string)
    | GcpRateLimitError(message: string)
    | GcpApiError(message: string)
    | DataValidationError(message: string)
    | FileIoError(message: string)
    | SerializationError(message: string)
    | HttpError(message: string)
    | EnvError(message: string)
    | Unknown(message: string)

  const AuthAdvice: string :=
    "Ensure GOOGLE_APPLICATION_CREDENTIALS is set correctly.\nService account needs: roles/iam.roleViewer, roles/iam.securityReviewer"
  const RateLimitAdvice: string :=
    "Rate limit exceeded. The scraper will retry automatically.\nConsider reducing concurrent requests or waiting before retrying."

  /** `is_auth_error`. */
  predicate IsAuthError(e: ScraperError) {
    e.GcpAuthError?
  }

  /** `is_rate_limit_error`. */
  predicate IsRateLimitError(e: ScraperError) {
    e.GcpRateLimitError?
  }

  /** `remediation_advice`: advice for authentication and rate-limit failures only. */
  function RemediationAdvice(e: ScraperError): (r: Option<string>)
    ensures r.Some? <==> IsAuthError(e) || IsRateLimitError(e)
    ensures IsAuthError(e) ==> r == Some(AuthAdvice)
    ensures IsRateLimitError(e) ==> r == Some(RateLimitAdvice)
  {
    match e
    case GcpAuthError(_) => Some(AuthAdvice)
    case GcpRateLimitError(_) => Some(RateLimitAdvice)
    case _ => None
  }

  /**
   * No error is both an authentication and a rate-limit failure, and the two
   * get different advice, so the advice tells them apart.
   */
  lemma ClassesAreDisjoint(e: ScraperError)
    ensures !(IsAuthError(e) && IsRateLimitError(e))
    ensures RemediationAdvice(e) == Some(AuthAdvice) <==> IsAuthError(e)
    ensures RemediationAdvice(e) == Some(RateLimitAdvice) <==> IsRateLimitError(e)
  {
    assert |AuthAdvice| != |RateLimitAdvice|;
  }

  /** The classification ignores the message. */
  lemma ClassificationIgnoresMessage(e: ScraperError, m: string)
    ensures IsAuthError(e) == IsAuthError(e.(message := m))
    ensures IsRateLimitError(e) == IsRateLimitError(e.(message := m))
    ensures RemediationAdvice(e) == RemediationAdvice(e.(message := m))
  {
  }
}

=== FILE: scraper_gcp.dfy ===
/**
 * The scraper's GCP client (scraper/src/gcp.rs) over abstract exchanges:
 * how one HTTP reply is classified, the retry-with-backoff policy of a page
 * request, and the pagination and permission extraction of a full fetch.
 * The network, the clock and the sleeps are parameters or left out.
 */
module GcpClient {
  import opened Wrappers
  import opened Seqs
  import opened StringOrder
  import opened ScraperErrors
  import opened ScraperModels

  const MaxRetries: nat := 5
  const InitialBackoffMs: nat := 100

  const UnauthorizedMessage: string := "Unauthorized to access GCP IAM API. Check service account permissions."
  const RateLimitedMessage: string := "GCP API rate limit exceeded"
  const UnknownErrorText: string := "Unknown error"

  /**
   * What one HTTP exchange yielded: either the request never got a reply,
   * or a status (with its display text), the body text if it could be read,
   * and the outcome of decoding the body as a page.
   */
  datatype Exchange =
    | NoReply(reason: string)
    | Reply(status: nat, statusText: string, bodyText: Option<string>, decoded: Result<RolesPage, string>)

  predicate IsSuccess(status: nat) {
    200 <= status < 300
  }

  /**
   * `fetch_with_auth`: 401 and 403 are authentication failures, 429 is a
   * rate-limit failure, any other non-2xx status is an API error quoting
   * the status and body, and a 2xx reply is the decoded page; transport and
   * decoding failures are HTTP errors.
   */
  function Classify(x: Exchange): (r: Result<RolesPage, ScraperError>)
    ensures r.Err? && IsAuthError(r.error) <==> x.Reply? && (x.status == 401 || x.status == 403)
    ensures r.Err? && IsRateLimitError(r.error) <==> x.Reply? && x.status == 429
    ensures r.Err? && r.error.GcpApiError? <==>
              x.Reply? && x.status != 401 && x.status != 403 && x.status != 429 && !IsSuccess(x.status)
    ensures r.Ok? <==> x.Reply? && IsSuccess(x.status) && x.decoded.Ok?
    ensures r.Ok? ==> r.value == x.decoded.value
    ensures r.Err? ==> r.error.GcpAuthError? || r.error.GcpRateLimitError? || r.error.GcpApiError? || r.error.HttpError?
  {
    match x
    case NoReply(reason) => Err(HttpError(reason))
    case Reply(status, statusText, bodyText, decoded) =>
      if status == 401 || status == 403 then Err(GcpAuthError(UnauthorizedMessage))
      else if status == 429 then Err(GcpRateLimitError(RateLimitedMessage))
      else if !IsSuccess(status) then
        Err(GcpApiError("GCP API error (" + statusText + "): " + GetOr(bodyText, UnknownErrorText)))
      else if decoded.Err? then Err(HttpError(decoded.error))
      else Ok(decoded.value)
  }

  /** An API error carries the status text and the body, or a fixed text when the body is unreadable. */
  lemma ApiErrorMessage(status: nat, statusText: string, decoded: Result<RolesPage, string>)
    requires status != 401 && status != 403 && status != 429 && !IsSuccess(status)
    ensures Classify(Reply(status, statusText, None, decoded)) == Err(GcpApiError("GCP API error (" + statusText + "): " + UnknownErrorText))
    ensures forall b :: Classify(Reply(status, statusText, Some(b), decoded)) == Err(GcpApiError("GCP API error (" + statusText + "): " + b))
  {
  }

  // ---------------------------------------------------------------------------
  // Retry policy of one page request

  function Pow2(k: nat): (r: nat)
    ensures r >= 1
  {
    if k == 0 then 1 else 2 * Pow2(k - 1)
  }

  /** The wait in milliseconds before retry number `k` (counting from 0). */
  function Backoff(k: nat): nat {
    InitialBackoffMs * Pow2(k)
  }

  /** The result of a page request, how many attempts it made and the waits between them. */
  datatype ListOutcome = ListOutcome(result: Result<RolesPage, ScraperError>, attempts: nat, waits: seq<nat>)

  predicate RateLimited(o: Result<RolesPage, ScraperError>) {
    o.Err? && IsRateLimitError(o.error)
  }

  /** The loop of `list_roles` from retry count `k`, with `attempt(k)` the outcome of attempt `k`. */
  function ListLoop(attempt: nat -> Result<RolesPage, ScraperError>, k: nat): (r: ListOutcome)
    requires k <= MaxRetries
    ensures k < r.attempts <= MaxRetries + 1
    ensures r.result == attempt(r.attempts - 1)
    ensures forall j :: k <= j < r.attempts - 1 ==> RateLimited(attempt(j))
    ensures r.attempts <= MaxRetries ==> !RateLimited(r.result)
    ensures |r.waits| == r.attempts - 1 - k
    ensures forall j :: 0 <= j < |r.waits| ==> r.waits[j] == Backoff(k + j)
    decreases MaxRetries - k
  {
    var o := attempt(k);
    if RateLimited(o) && k < MaxRetries then
      var rest := ListLoop(attempt, k + 1);
      ListOutcome(rest.result, rest.attempts, [Backoff(k)] + rest.waits)
    else ListOutcome(o, k + 1, [])
  }

  /**
   * `list_roles`: attempts until one is not rate limited, at most
   * `MaxRetries` + 1 times; every earlier attempt was rate limited and was
   * followed by a wait of 100·2^k milliseconds.
   */
  function ListRoles(attempt: nat -> Result<RolesPage, ScraperError>): (r: ListOutcome)
    ensures 1 <= r.attempts <= MaxRetries + 1
    ensures r.result == attempt(r.attempts - 1)
    ensures forall j :: 0 <= j < r.attempts - 1 ==> RateLimited(attempt(j))
    ensures r.attempts <= MaxRetries ==> !RateLimited(r.result)
    ensures |r.waits| == r.attempts - 1
    ensures forall j :: 0 <= j < |r.waits| ==> r.waits[j] == InitialBackoffMs * Pow2(j)
  {
    ListLoop(attempt, 0)
  }

  /** The outcome of a page request is the first attempt that is not rate limited, if any. */
  lemma ListRolesFirstSettled(attempt: nat -> Result<RolesPage, ScraperError>, n: nat)
    requires n <= MaxRetries && !RateLimited(attempt(n))
    requires forall j :: 0 <= j < n ==> RateLimited(attempt(j))
    ensures ListRoles(attempt).attempts == n + 1
    ensures ListRoles(attempt).result == attempt(n)
  {
    var r := ListRoles(attempt);
    var last: nat := r.attempts - 1;
    assert last < n ==> RateLimited(attempt(last));
  }

  /** A request rate limited every time gives up after six attempts, having waited 100, 200, 400, 800 and 1600 ms. */
  lemma ListRolesGivesUp(attempt: nat -> Result<RolesPage, ScraperError>)
    requires forall j :: 0 <= j <= MaxRetries ==> RateLimited(attempt(j))
    ensures ListRoles(attempt).attempts == 6
    ensures RateLimited(ListRoles(attempt).result)
    ensures ListRoles(attempt).waits == [100, 200, 400, 800, 1600]
  {
    var r := ListRoles(attempt);
    assert RateLimited(attempt(r.attempts - 1));
    assert Pow2(4) == 16 && Pow2(3) == 8 && Pow2(2) == 4 && Pow2(1) == 2;
  }

  // ---------------------------------------------------------------------------
  // Full fetch

  /** A fetch either settles or runs out of fuel; the source's loop has no bound. */
  datatype FetchOutcome<T> = Done(result: Result<T, ScraperError>) | OutOfFuel

  /**
   * The service: the outcome of each attempt of the `call`-th page request,
   * which asked for page `token`.
   */
  type Server = (Option<string>, nat) -> (nat -> Result<RolesPage, ScraperError>)

  /**
   * The pagination loop of `fetch_all_data` from page `token`, having made
   * `calls` page requests and collected `acc`: a page extends the
   * collection and the loop stops exactly when it has no next token; a
   * rate-limited request is repeated for the same page; any other error
   * ends the fetch. `fuel` bounds the number of page requests.
   */
  function FetchLoop(server: Server, token: Option<string>, calls: nat, acc: seq<GcpRoleResponse>, fuel: nat)
    : (r: FetchOutcome<seq<GcpRoleResponse>>)
    ensures r.Done? && r.result.Err? ==> !IsRateLimitError(r.result.error)
    ensures r.Done? && r.result.Ok? ==> |acc| <= |r.result.value| && r.result.value[..|acc|] == acc
    decreases fuel
  {
    if fuel == 0 then OutOfFuel
    else
      var lr := ListRoles(server(token, calls));
      match lr.result
      case Ok(page) =>
        if page.nextPageToken.None? then Done(Ok(acc + page.roles))
        else
          var r := FetchLoop(server, page.nextPageToken, calls + 1, acc + page.roles, fuel - 1);
          assert r.Done? && r.result.Ok? ==> r.result.value[..|acc + page.roles|][..|acc|] == r.result.value[..|acc|];
          r
      case Err(e) =>
        if IsRateLimitError(e) then FetchLoop(server, token, calls + 1, acc, fuel - 1)
        else Done(Err(e))
  }

  /** Every permission name listed by some role, role by role. */
  function Listed(rs: seq<IamRole>): seq<string>
    decreases |rs|
  {
    if |rs| == 0 then [] else rs[0].includedPermissions + Listed(rs[1..])
  }

  lemma {:induction false} ListedIff(rs: seq<IamRole>, x: string)
    ensures x in Listed(rs) <==> exists k :: 0 <= k < |rs| && x in rs[k].includedPermissions
    decreases |rs|
  {
    if |rs| > 0 {
      ListedIff(rs[1..], x);
      if exists k :: 1 <= k < |rs| && x in rs[k].includedPermissions {
        var k :| 1 <= k < |rs| && x in rs[k].includedPermissions;
        assert rs[1..][k - 1] == rs[k];
      }
    }
  }

  /**
   * The permission step of `fetch_all_data`: one `from_name` permission per
   * distinct listed name. The source collects the names in a hash set, whose
   * order is unspecified; here they come out sorted.
   */
  function ExtractPermissions(rs: seq<IamRole>): (r: seq<IamPermission>)
    ensures NoDup(PermissionNames(r))
    ensures forall i :: 0 <= i < |r| ==> r[i] == FromName(r[i].name)
    ensures forall x :: x in PermissionNames(r) <==> exists k :: 0 <= k < |rs| && x in rs[k].includedPermissions
  {
    var names := SortDedup(Listed(rs));
    SortedNoDup(names);
    var r := seq(|names|, i requires 0 <= i < |names| => FromName(names[i]));
    assert PermissionNames(r) == names;
    forall x ensures x in names <==> exists k :: 0 <= k < |rs| && x in rs[k].includedPermissions {
      ListedIff(rs, x);
      assert x in names <==> x in Elems(names);
      assert x in Listed(rs) <==> x in Elems(Listed(rs));
    }
    r
  }

  function ConvertRoles(gs: seq<GcpRoleResponse>): (r: seq<IamRole>)
    ensures |r| == |gs| && forall i :: 0 <= i < |gs| ==> r[i] == FromGcp(gs[i])
  {
    seq(|gs|, i requires 0 <= i < |gs| => FromGcp(gs[i]))
  }

  /** The server answered some request for page `token`, on some attempt, with `page`. */
  ghost predicate Answered(server: Server, token: Option<string>, page: RolesPage) {
    exists n, k :: server(token, n)(k) == Ok(page)
  }

  /**
   * `pages` were answered in turn starting from page `token`: each later page
   * was asked for with its predecessor's next token, and the chain ends at
   * the first page that names no next token.
   */
  ghost predicate FollowedFrom(server: Server, token: Option<string>, pages: seq<RolesPage>)
    decreases |pages|
  {
    && |pages| > 0
    && Answered(server, token, pages[0])
    && if pages[0].nextPageToken.None? then |pages| == 1
       else FollowedFrom(server, pages[0].nextPageToken, pages[1..])
  }

  /** The roles of `pages`, page by page. */
  function RolesOfPages(pages: seq<RolesPage>): seq<GcpRoleResponse>
    decreases |pages|
  {
    if |pages| == 0 then [] else pages[0].roles + RolesOfPages(pages[1..])
  }

  /** A page answered for `token` that names the start of a followed chain extends that chain. */
  lemma FollowedCons(server: Server, token: Option<string>, page: RolesPage, pages: seq<RolesPage>)
    requires Answered(server, token, page) && page.nextPageToken.Some?
    requires FollowedFrom(server, page.nextPageToken, pages)
    ensures FollowedFrom(server, token, [page] + pages)
  {
    assert ([page] + pages)[1..] == pages;
  }

  lemma RolesOfPagesCons(page: RolesPage, pages: seq<RolesPage>, acc: seq<GcpRoleResponse>)
    ensures acc + page.roles + RolesOfPages(pages) == acc + RolesOfPages([page] + pages)
  {
    assert ([page] + pages)[1..] == pages;
  }

  /**
   * The pages the pagination loop from page `token` receives, in order, when
   * it settles with success; `None` when it ends with an error or runs out of
   * fuel.
   */
  ghost function PagesVisited(server: Server, token: Option<string>, calls: nat, fuel: nat): Option<seq<RolesPage>>
    decreases fuel
  {
    if fuel == 0 then None
    else
      match ListRoles(server(token, calls)).result
      case Ok(page) =>
        if page.nextPageToken.None? then Some([page])
        else
          var rest := PagesVisited(server, page.nextPageToken, calls + 1, fuel - 1);
          if rest.Some? then Some([page] + rest.value) else None
      case Err(e) =>
        if IsRateLimitError(e) then PagesVisited(server, token, calls + 1, fuel - 1) else None
  }

  /** The pages visited form a chain answered by the server. */
  lemma {:induction false} PagesVisitedFollowed(server: Server, token: Option<string>, calls: nat, fuel: nat)
    ensures PagesVisited(server, token, calls, fuel).Some? ==>
              FollowedFrom(server, token, PagesVisited(server, token, calls, fuel).value)
    decreases fuel
  {
    if fuel > 0 {
      var lr := ListRoles(server(token, calls));
      assert server(token, calls)(lr.attempts - 1) == lr.result;
      match lr.result
      case Ok(page) =>
        assert Answered(server, token, page);
        if page.nextPageToken.Some? {
          PagesVisitedFollowed(server, page.nextPageToken, calls + 1, fuel - 1);
          var rest := PagesVisited(server, page.nextPageToken, calls + 1, fuel - 1);
          if rest.Some? {
            FollowedCons(server, token, page, rest.value);
          }
        }
      case Err(e) =>
        PagesVisitedFollowed(server, token, calls + 1, fuel - 1);
    }
  }

  /** A successful fetch from page `token` collected, after `acc`, the roles of the pages it visited. */
  ghost predicate CollectsVisited(server: Server, token: Option<string>, calls: nat, acc: seq<GcpRoleResponse>, fuel: nat) {
    var r := FetchLoop(server, token, calls, acc, fuel);
    r.Done? && r.result.Ok? ==>
      && PagesVisited(server, token, calls, fuel).Some?
      && r.result.value == acc + RolesOfPages(PagesVisited(server, token, calls, fuel).value)
  }

  /** The fetch step after a page that names a next token. */
  lemma CollectsVisitedNext(server: Server, token: Option<string>, calls: nat, acc: seq<GcpRoleResponse>, fuel: nat, page: RolesPage)
    requires fuel > 0 && ListRoles(server(token, calls)).result == Ok(page) && page.nextPageToken.Some?
    requires CollectsVisited(server, page.nextPageToken, calls + 1, acc + page.roles, fuel - 1)
    ensures CollectsVisited(server, token, calls, acc, fuel)
  {
    var rest := PagesVisited(server, page.nextPageToken, calls + 1, fuel - 1);
    assert FetchLoop(server, token, calls, acc, fuel) == FetchLoop(server, page.nextPageToken, calls + 1, acc + page.roles, fuel - 1);
    assert PagesVisited(server, token, calls, fuel) == if rest.Some? then Some([page] + rest.value) else None;
    if rest.Some? {
      RolesOfPagesCons(page, rest.value, acc);
    }
  }

  /** The fetch step after a page that names no next token. */
  lemma CollectsVisitedLast(server: Server, token: Option<string>, calls: nat, acc: seq<GcpRoleResponse>, fuel: nat, page: RolesPage)
    requires fuel > 0 && ListRoles(server(token, calls)).result == Ok(page) && page.nextPageToken.None?
    ensures CollectsVisited(server, token, calls, acc, fuel)
  {
    assert FetchLoop(server, token, calls, acc, fuel) == Done(Ok(acc + page.roles));
    assert PagesVisited(server, token, calls, fuel) == Some([page]);
    assert RolesOfPages([page]) == page.roles + RolesOfPages([]);
  }

  /** The fetch step after a rate-limited page request. */
  lemma CollectsVisitedRetry(server: Server, token: Option<string>, calls: nat, acc: seq<GcpRoleResponse>, fuel: nat)
    requires fuel > 0 && ListRoles(server(token, calls)).result.Err?
    requires IsRateLimitError(ListRoles(server(token, calls)).result.error)
    requires CollectsVisited(server, token, calls + 1, acc, fuel - 1)
    ensures CollectsVisited(server, token, calls, acc, fuel)
  {
    assert FetchLoop(server, token, calls, acc, fuel) == FetchLoop(server, token, calls + 1, acc, fuel - 1);
    assert PagesVisited(server, token, calls, fuel) == PagesVisited(server, token, calls + 1, fuel - 1);
  }

  /** The fetch step after any other error. */
  lemma CollectsVisitedFailed(server: Server, token: Option<string>, calls: nat, acc: seq<GcpRoleResponse>, fuel: nat)
    requires fuel > 0 && ListRoles(server(token, calls)).result.Err?
    requires !IsRateLimitError(ListRoles(server(token, calls)).result.error)
    ensures CollectsVisited(server, token, calls, acc, fuel)
  {
    assert FetchLoop(server, token, calls, acc, fuel).result.Err?;
  }

  /** The page the loop asks for after request `calls` for page `token`. */
  function NextToken(server: Server, token: Option<string>, calls: nat): Option<string> {
    var res := ListRoles(server(token, calls)).result;
    if res.Ok? then res.value.nextPageToken else token
  }

  /** The roles collected after request `calls` for page `token`. */
  function NextAcc(server: Server, token: Option<string>, calls: nat, acc: seq<GcpRoleResponse>): seq<GcpRoleResponse> {
    var res := ListRoles(server(token, calls)).result;
    if res.Ok? then acc + res.value.roles else acc
  }

  /** One step of the loop keeps CollectsVisited, whatever the request's outcome. */
  lemma CollectsVisitedStep(server: Server, token: Option<string>, calls: nat, acc: seq<GcpRoleResponse>, fuel: nat)
    requires fuel > 0
    requires CollectsVisited(server, NextToken(server, token, calls), calls + 1, NextAcc(server, token, calls, acc), fuel - 1)
    ensures CollectsVisited(server, token, calls, acc, fuel)
  {
    var res := ListRoles(server(token, calls)).result;
    if res.Ok? && res.value.nextPageToken.Some? {
      CollectsVisitedNext(server, token, calls, acc, fuel, res.value);
    } else if res.Ok? {
      CollectsVisitedLast(server, token, calls, acc, fuel, res.value);
    } else if IsRateLimitError(res.error) {
      CollectsVisitedRetry(server, token, calls, acc, fuel);
    } else {
      CollectsVisitedFailed(server, token, calls, acc, fuel);
    }
  }

  /** A successful fetch collected, after `acc`, the roles of the pages it visited. */
  lemma {:induction false} FetchLoopCollectsVisited(server: Server, token: Option<string>, calls: nat, acc: seq<GcpRoleResponse>, fuel: nat)
    ensures CollectsVisited(server, token, calls, acc, fuel)
    decreases fuel
  {
    if fuel > 0 {
      FetchLoopCollectsVisited(server, NextToken(server, token, calls), calls + 1, NextAcc(server, token, calls, acc), fuel - 1);
      CollectsVisitedStep(server, token, calls, acc, fuel);
    }
  }

  /**
   * `fetch_all_data`: all pages' roles converted in order, the distinct
   * permission names they list, and the fetch time `now`; errors other than
   * rate limiting are passed on.
   */
  function FetchAllData(server: Server, fuel: nat, now: string): (r: FetchOutcome<RawGcpData>)
    ensures r.Done? && r.result.Err? ==> !IsRateLimitError(r.result.error)
    ensures r.Done? && r.result.Ok? ==>
              var raw := r.result.value;
              raw.fetchedAt == now
              && NoDup(PermissionNames(raw.permissions))
              && (forall i :: 0 <= i < |raw.permissions| ==> raw.permissions[i] == FromName(raw.permissions[i].name))
              && (forall x :: x in PermissionNames(raw.permissions) <==>
                    exists k :: 0 <= k < |raw.roles| && x in raw.roles[k].includedPermissions)
    ensures r.Done? && r.result.Ok? ==>
              exists pages :: FollowedFrom(server, None, pages) && r.result.value.roles == ConvertRoles(RolesOfPages(pages))
  {
    FetchLoopCollectsVisited(server, None, 0, [], fuel);
    PagesVisitedFollowed(server, None, 0, fuel);
    match FetchLoop(server, None, 0, [], fuel)
    case OutOfFuel => OutOfFuel
    case Done(Err(e)) => Done(Err(e))
    case Done(Ok(gs)) =>
      assert [] + gs == gs;
      var roles := ConvertRoles(gs);
      Done(Ok(RawGcpData(roles, ExtractPermissions(roles), now)))
  }

  // ---------------------------------------------------------------------------
  // Pagination against a fixed listing

  /** Roles of the pages reached from `tokens`, in order. */
  function PagesRoles(pageOf: Option<string> -> RolesPage, tokens: seq<Option<string>>): seq<GcpRoleResponse>
    decreases |tokens|
  {
    if |tokens| == 0 then [] else pageOf(tokens[0]).roles + PagesRoles(pageOf, tokens[1..])
  }

  /**
   * `tokens` is the chain of page tokens of a listing: each page names the
   * next token and the last one names none.
   */
  predicate Chain(pageOf: Option<string> -> RolesPage, tokens: seq<Option<string>>) {
    |tokens| > 0
    && (forall i :: 1 <= i < |tokens| ==> pageOf(tokens[i - 1]).nextPageToken == tokens[i] && tokens[i].Some?)
    && pageOf(tokens[|tokens| - 1]).nextPageToken.None?
  }

  /** A server that always answers the requested page on the first attempt. */
  ghost predicate Serves(server: Server, pageOf: Option<string> -> RolesPage) {
    forall t, n, k :: server(t, n)(k) == Ok(pageOf(t))
  }

  lemma {:induction false} FetchLoopFollowsChain(server: Server, pageOf: Option<string> -> RolesPage, tokens: seq<Option<string>>,
                                                 calls: nat, acc: seq<GcpRoleResponse>, fuel: nat)
    requires Serves(server, pageOf) && Chain(pageOf, tokens) && fuel >= |tokens|
    ensures FetchLoop(server, tokens[0], calls, acc, fuel) == Done(Ok(acc + PagesRoles(pageOf, tokens)))
    decreases |tokens|
  {
    var page := pageOf(tokens[0]);
    var lr := ListRoles(server(tokens[0], calls));
    assert !RateLimited(server(tokens[0], calls)(0));
    ListRolesFirstSettled(server(tokens[0], calls), 0);
    assert lr.result == Ok(page);
    if |tokens| == 1 {
      assert PagesRoles(pageOf, tokens) == page.roles + PagesRoles(pageOf, tokens[1..]);
      assert PagesRoles(pageOf, tokens[1..]) == [];
      assert page.roles + [] == page.roles;
    } else {
      var rest := tokens[1..];
      assert Chain(pageOf, rest) by {
        forall i | 1 <= i < |rest| ensures pageOf(rest[i - 1]).nextPageToken == rest[i] && rest[i].Some? {
          assert rest[i - 1] == tokens[i] && rest[i] == tokens[i + 1];
        }
      }
      assert page.nextPageToken == tokens[1] == rest[0];
      FetchLoopFollowsChain(server, pageOf, rest, calls + 1, acc + page.roles, fuel - 1);
      assert acc + page.roles + PagesRoles(pageOf, rest) == acc + (page.roles + PagesRoles(pageOf, rest));
    }
  }

  /**
   * With a server that answers every page, a fetch with enough fuel visits
   * the pages from the first (no token) to the one without a next token and
   * collects their roles in order.
   */
  lemma FetchAllDataCollectsPages(server: Server, pageOf: Option<string> -> RolesPage, tokens: seq<Option<string>>,
                                  fuel: nat, now: string)
    requires Serves(server, pageOf) && Chain(pageOf, tokens) && tokens[0].None? && fuel >= |tokens|
    ensures FetchAllData(server, fuel, now).Done?
    ensures FetchAllData(server, fuel, now).result.Ok?
    ensures FetchAllData(server, fuel, now).result.value.roles == ConvertRoles(PagesRoles(pageOf, tokens))
  {
    FetchLoopFollowsChain(server, pageOf, tokens, 0, [], fuel);
    var gs := PagesRoles(pageOf, tokens);
    assert [] + gs == gs;
    assert FetchLoop(server, None, 0, [], fuel) == Done(Ok(gs));
  }
}

=== FILE: scraper_models.dfy ===
/**
 * The scraper's records (scraper/src/models.rs): launch stages, roles built
 * from the GCP response with their search keywords, and permissions parsed
 * from their dotted names.
 */
module ScraperModels {
  import opened Wrappers
  import opened Text
  import opened Seqs

  // ---------------------------------------------------------------------------
  // Stages

  /** `IamStage`; `Ga` is the default. */
  datatype IamStage = Ga | Beta | Alpha | Deprecated

  const DefaultStage: IamStage := Ga

  /** The serialized name of a stage, which is also its upper-cased debug name. */
  function StageName(s: IamStage): string {
    match s
    case Ga => "GA"
    case Beta => "BETA"
    case Alpha => "ALPHA"
    case Deprecated => "DEPRECATED"
  }

  /** The stage mapping in `from_gcp`: three names recognised, everything else is GA. */
  function StageFromGcp(s: string): (r: IamStage)
    ensures s !in ["BETA", "ALPHA", "DEPRECATED"] ==> r == DefaultStage
  {
    if s == "BETA" then Beta
    else if s == "ALPHA" then Alpha
    else if s == "DEPRECATED" then Deprecated
    else Ga
  }

  /** Parsing a stage's own name gives the stage back, and distinct stages have distinct names. */
  lemma StageNameRoundTrip(s: IamStage)
    ensures StageFromGcp(StageName(s)) == s
    ensures forall t :: StageName(t) == StageName(s) ==> t == s
  {
  }

  /** A stage name is recognised exactly when it is one of the four names. */
  lemma StageFromGcpIsGaUnlessNamed(s: string)
    ensures StageFromGcp(s) != Ga <==> s in ["BETA", "ALPHA", "DEPRECATED"]
    ensures StageFromGcp(s) != Ga ==> StageName(StageFromGcp(s)) == s
  {
  }

  // ---------------------------------------------------------------------------
  // Keywords

  /** Length of the leading run of non-whitespace characters. */
  function RunLength(s: string): (n: nat)
    ensures n <= |s|
    ensures forall i :: 0 <= i < n ==> !IsWhitespace(s[i])
    ensures n < |s| ==> IsWhitespace(s[n])
    decreases |s|
  {
    if |s| == 0 || IsWhitespace(s[0]) then 0 else 1 + RunLength(s[1..])
  }

  /** `split_whitespace`: the maximal runs of non-whitespace characters, in order. */
  function Words(s: string): (r: seq<string>)
    ensures forall k :: 0 <= k < |r| ==> |r[k]| > 0
    ensures forall k, j :: 0 <= k < |r| && 0 <= j < |r[k]| ==> !IsWhitespace(r[k][j]) && r[k][j] in s
    decreases |s|
  {
    if |s| == 0 then []
    else if IsWhitespace(s[0]) then
      var rest := Words(s[1..]);
      assert forall c :: c in s[1..] ==> c in s;
      rest
    else
      var n := RunLength(s);
      var rest := Words(s[n..]);
      assert forall c :: c in s[n..] ==> c in s;
      assert forall j :: 0 <= j < n ==> s[..n][j] in s;
      [s[..n]] + rest
  }

  /** The characters of `s` that are not whitespace, in order. */
  function NonWhitespace(s: string): string
    decreases |s|
  {
    if |s| == 0 then [] else (if IsWhitespace(s[0]) then [] else [s[0]]) + NonWhitespace(s[1..])
  }

  function Concat(ws: seq<string>): string
    decreases |ws|
  {
    if |ws| == 0 then [] else ws[0] + Concat(ws[1..])
  }

  lemma {:induction false} NonWhitespaceRun(s: string, n: nat)
    requires n <= |s|
    requires forall i :: 0 <= i < n ==> !IsWhitespace(s[i])
    ensures NonWhitespace(s) == s[..n] + NonWhitespace(s[n..])
    decreases n
  {
    if n > 0 {
      NonWhitespaceRun(s[1..], n - 1);
      assert s[1..][..n - 1] == s[1..n];
      assert s[1..][n - 1..] == s[n..];
      assert s[..n] == [s[0]] + s[1..n];
    }
  }

  /** The words hold exactly the non-whitespace characters, in order. */
  lemma {:induction false} WordsCoverText(s: string)
    ensures Concat(Words(s)) == NonWhitespace(s)
    decreases |s|
  {
    if |s| == 0 {
    } else if IsWhitespace(s[0]) {
      WordsCoverText(s[1..]);
    } else {
      var n := RunLength(s);
      WordsCoverText(s[n..]);
      NonWhitespaceRun(s, n);
      assert ([s[..n]] + Words(s[n..]))[1..] == Words(s[n..]);
    }
  }

  /** The three-letter words the keyword extractor discards. */
  const StopWords: seq<string> := [
    "the", "and", "for", "you", "all", "not", "but", "can", "her", "was",
    "one", "our", "out", "day", "get", "has", "him", "his", "how", "its",
    "may", "new", "now", "old", "see", "way", "who", "boy", "did"]

  /** A word with every non-alphanumeric character dropped. */
  function Clean(w: string): (r: string)
    ensures |r| <= |w|
    ensures forall j :: 0 <= j < |r| ==> IsAsciiAlphanumeric(r[j]) && r[j] in w
    decreases |w|
  {
    if |w| == 0 then []
    else
      var rest := Clean(w[1..]);
      assert forall c :: c in w[1..] ==> c in w;
      (if IsAsciiAlphanumeric(w[0]) then [w[0]] else []) + rest
  }

  /** A cleaned word that is kept: longer than 3 bytes and not a stop word. */
  predicate IsKeyword(w: string) {
    Utf8Len(w) > 3 && w !in StopWords
  }

  /** Every character of `s` is lower-case. */
  predicate AllLower(s: string) {
    forall i :: 0 <= i < |s| ==> IsLowerChar(s[i])
  }

  lemma InLower(s: string, c: char)
    requires c in s && AllLower(s)
    ensures IsLowerChar(c)
  {
  }

  /** The kept cleaned forms of `words`. */
  function KeywordsOf(words: seq<string>): (r: set<string>)
    ensures forall k :: k in r ==> |k| > 3 && k !in StopWords
    ensures forall k :: k in r ==> forall j :: 0 <= j < |k| ==> IsAsciiAlphanumeric(k[j])
    ensures (forall i :: 0 <= i < |words| ==> AllLower(words[i])) ==> forall k :: k in r ==> AllLower(k)
  {
    var r := set i | 0 <= i < |words| && IsKeyword(Clean(words[i])) :: Clean(words[i]);
    assert forall k :: k in r ==> |k| > 3 by {
      forall k | k in r ensures |k| > 3 {
        assert forall j :: 0 <= j < |k| ==> k[j] as int < 0x80;
      }
    }
    assert (forall i :: 0 <= i < |words| ==> AllLower(words[i])) ==> forall k :: k in r ==> AllLower(k) by {
      if forall i :: 0 <= i < |words| ==> AllLower(words[i]) {
        forall k | k in r ensures AllLower(k) {
          var i :| 0 <= i < |words| && k == Clean(words[i]);
          forall j | 0 <= j < |k| ensures IsLowerChar(k[j]) {
            InLower(words[i], k[j]);
          }
        }
      }
    }
    r
  }

  /** The words of lower-cased text are lower-case. */
  lemma WordsOfLower(s: string)
    requires AllLower(s)
    ensures forall i :: 0 <= i < |Words(s)| ==> AllLower(Words(s)[i])
  {
    var words := Words(s);
    forall i, j | 0 <= i < |words| && 0 <= j < |words[i]| ensures IsLowerChar(words[i][j]) {
      InLower(s, words[i][j]);
    }
  }

  /**
   * `extract_keywords`: the cleaned words of the lower-cased "title
   * description" that are kept, as a set (the source collects them through a
   * hash set, so their order is unspecified).
   */
  function ExtractKeywords(title: string, description: string): (r: set<string>)
    ensures forall k :: k in r ==> |k| > 3 && k !in StopWords
    ensures forall k :: k in r ==> forall j :: 0 <= j < |k| ==> IsAsciiAlphanumeric(k[j]) && IsLowerChar(k[j])
  {
    var text := Lower(title + " " + description);
    LowerIsLower(title + " " + description);
    WordsOfLower(text);
    KeywordsOf(Words(text))
  }

  /** A string is kept from `words` exactly when it is the cleaned form of one of them and passes the filter. */
  lemma KeywordsOfIff(words: seq<string>, k: string)
    ensures k in KeywordsOf(words) <==> exists w :: w in words && Clean(w) == k && IsKeyword(k)
  {
    if exists w :: w in words && Clean(w) == k && IsKeyword(k) {
      var w :| w in words && Clean(w) == k && IsKeyword(k);
      var i :| 0 <= i < |words| && words[i] == w;
      assert k == Clean(words[i]);
    }
  }

  /** A string is a keyword exactly when it is the cleaned form of some word and passes the filter. */
  lemma KeywordsIff(title: string, description: string, k: string)
    ensures k in ExtractKeywords(title, description) <==>
              exists w :: w in Words(Lower(title + " " + description)) && Clean(w) == k && IsKeyword(k)
  {
    KeywordsOfIff(Words(Lower(title + " " + description)), k);
  }

  /**
   * Every stop word has three letters, so the byte-length test alone already
   * rejects them: for alphanumeric ASCII words the stop list changes nothing.
   */
  lemma StopListIsRedundant(w: string)
    requires forall j :: 0 <= j < |w| ==> IsAsciiAlphanumeric(w[j])
    ensures IsKeyword(w) <==> |w| > 3
  {
    assert forall j :: 0 <= j < |w| ==> w[j] as int < 0x80;
    assert forall s :: s in StopWords ==> |s| == 3;
  }

  // ---------------------------------------------------------------------------
  // Roles

  /** One role as the GCP API returns it; absent fields are already defaulted. */
  datatype GcpRoleResponse = GcpRoleResponse(
    name: string,
    title: string,
    description: string,
    stage: string,
    includedPermissions: seq<string>,
    etag: string,
    deleted: bool)

  datatype IamRole = IamRole(
    name: string,
    title: string,
    description: string,
    stage: IamStage,
    includedPermissions: seq<string>,
    etag: string,
    deleted: bool,
    permissionCount: nat,
    keywords: set<string>)

  /** `IamRole::from_gcp`: the fields carried over, the stage parsed, the count and keywords derived. */
  function FromGcp(g: GcpRoleResponse): (r: IamRole)
    ensures r.name == g.name && r.title == g.title && r.description == g.description
    ensures r.includedPermissions == g.includedPermissions && r.etag == g.etag && r.deleted == g.deleted
    ensures r.permissionCount == |r.includedPermissions|
    ensures g.stage !in ["BETA", "ALPHA", "DEPRECATED"] ==> r.stage == Ga
    ensures g.stage in ["BETA", "ALPHA", "DEPRECATED"] ==> StageName(r.stage) == g.stage
    ensures forall k :: k in r.keywords ==> |k| > 3
    ensures r.keywords == ExtractKeywords(g.title, g.description)
  {
    StageFromGcpIsGaUnlessNamed(g.stage);
    IamRole(g.name, g.title, g.description, StageFromGcp(g.stage), g.includedPermissions,
            g.etag, g.deleted, |g.includedPermissions|, ExtractKeywords(g.title, g.description))
  }

  // ---------------------------------------------------------------------------
  // Permissions

  datatype IamPermission = IamPermission(
    name: string,
    service: string,
    resource: string,
    action: string,
    description: Option<string>,
    customRolesSupportLevel: Option<string>,
    stage: Option<string>,
    apiDisabled: Option<bool>,
    rolesGranting: seq<string>)

  /**
   * `IamPermission::from_name`: service, resource and action are the first
   * three dot-separated pieces ("" when missing, extra pieces ignored);
   * nothing else is known yet.
   */
  function FromName(name: string): (r: IamPermission)
    ensures r.name == name
    ensures r.service == Part(name, '.', 0) && r.resource == Part(name, '.', 1) && r.action == Part(name, '.', 2)
    ensures r.description.None? && r.customRolesSupportLevel.None? && r.stage.None? && r.apiDisabled.None?
    ensures r.rolesGranting == []
  {
    IamPermission(name, Part(name, '.', 0), Part(name, '.', 1), Part(name, '.', 2), None, None, None, None, [])
  }

  lemma SplitAfterPiece(a: string, rest: string, d: char)
    requires d !in a
    ensures Split(a + [d] + rest, d) == [a] + Split(rest, d)
    decreases |a|
  {
    if |a| == 0 {
      assert a + [d] + rest == [d] + rest;
      assert ([d] + rest)[1..] == rest;
    } else {
      var s := a + [d] + rest;
      assert s[0] == a[0] && s[1..] == a[1..] + [d] + rest;
      assert d !in a[1..];
      SplitAfterPiece(a[1..], rest, d);
      assert [a[0]] + a[1..] == a;
    }
  }

  lemma SplitLastPiece(a: string, d: char)
    requires d !in a
    ensures Split(a, d) == [a]
    decreases |a|
  {
    if |a| > 0 {
      assert d !in a[1..];
      SplitLastPiece(a[1..], d);
      assert [a[0]] + a[1..] == a;
    }
  }

  /** The first piece of a dot-free text followed by nothing or by a delimiter is that text. */
  lemma {:induction false} FirstPieceBefore(a: string, tail: string, d: char)
    requires d !in a
    requires tail == [] || tail[0] == d
    ensures Split(a + tail, d)[0] == a
    decreases |a|
  {
    if |a| == 0 {
      assert a + tail == tail;
    } else {
      assert (a + tail)[1..] == a[1..] + tail;
      assert d !in a[1..];
      FirstPieceBefore(a[1..], tail, d);
      assert [a[0]] + a[1..] == a;
    }
  }

  /**
   * A name "service.resource.action" made of dot-free pieces parses back into
   * those pieces, whatever dotted pieces follow.
   */
  lemma FromNameParts(service: string, resource: string, action: string, tail: string)
    requires '.' !in service && '.' !in resource && '.' !in action
    requires tail == [] || tail[0] == '.'
    ensures var p := FromName(service + "." + resource + "." + action + tail);
            p.service == service && p.resource == resource && p.action == action
  {
    var last := action + tail;
    var name := service + "." + resource + "." + action + tail;
    assert name == service + ['.'] + (resource + ['.'] + last);
    SplitAfterPiece(service, resource + ['.'] + last, '.');
    SplitAfterPiece(resource, last, '.');
    FirstPieceBefore(action, tail, '.');
    var parts := Split(name, '.');
    assert parts == [service] + ([resource] + Split(last, '.'));
    assert parts[0] == service && parts[1] == resource && parts[2] == action;
  }

  /** A name with fewer than three pieces leaves the missing ones empty. */
  lemma FromNameShort(service: string)
    requires '.' !in service
    ensures FromName(service).service == service
    ensures FromName(service).resource == "" && FromName(service).action == ""
  {
    SplitLastPiece(service, '.');
  }

  // ---------------------------------------------------------------------------
  // Dataset records

  datatype Changes = Changes(
    rolesAdded: seq<string>,
    rolesRemoved: seq<string>,
    rolesModified: seq<string>,
    permissionsAdded: seq<string>,
    permissionsRemoved: seq<string>)

  /** `Changes::default()`: every list empty. */
  const NoChanges: Changes := Changes([], [], [], [], [])

  const ApiVersion: string := "v1"

  datatype IamMetadata = IamMetadata(
    lastUpdated: string,
    totalRoles: nat,
    totalPermissions: nat,
    gcpApiVersion: string,
    changesSinceLastRun: Changes)

  datatype Indexes = Indexes(
    rolesByName: map<string, nat>,
    permissionsByName: map<string, nat>,
    rolesByStage: map<string, seq<nat>>,
    permissionsByService: map<string, seq<nat>>)

  datatype IamDataset = IamDataset(
    metadata: IamMetadata,
    roles: seq<IamRole>,
    permissions: seq<IamPermission>,
    indexes: Indexes)

  /** One page of `roles.list`. */
  datatype RolesPage = RolesPage(roles: seq<GcpRoleResponse>, nextPageToken: Option<string>)

  /** What the fetch step hands over to the transformation. */
  datatype RawGcpData = RawGcpData(roles: seq<IamRole>, permissions: seq<IamPermission>, fetchedAt: string)

  function PermissionNames(ps: seq<IamPermission>): (r: seq<string>)
    ensures |r| == |ps| && forall i :: 0 <= i < |ps| ==> r[i] == ps[i].name
  {
    seq(|ps|, i requires 0 <= i < |ps| => ps[i].name)
  }

  function RoleNames(rs: seq<IamRole>): (r: seq<string>)
    ensures |r| == |rs| && forall i :: 0 <= i < |rs| ==> r[i] == rs[i].name
  {
    seq(|rs|, i requires 0 <= i < |rs| => rs[i].name)
  }
}

=== FILE: scraper_transform.dfy ===
/**
 * The scraper's transformation step (scraper/src/transformer.rs): it records
 * on each permission the roles that grant it (sorted, de-duplicated), builds
 * the name, stage and service lookup indexes, and wraps everything with
 * metadata.
 */
module Transformer {
  import opened Wrappers
  import opened Seqs
  import opened StringOrder
  import opened ScraperModels

  // ---------------------------------------------------------------------------
  // Role references

  /** How many of `names` resolve to position `i`. */
  function Hits(names: seq<string>, idxOf: map<string, nat>, i: nat): (r: nat)
    ensures r > 0 <==> exists j :: 0 <= j < |names| && names[j] in idxOf && idxOf[names[j]] == i
    decreases |names|
  {
    if |names| == 0 then 0
    else
      var rest := Hits(names[1..], idxOf, i);
      assert forall j :: 1 <= j < |names| ==> names[j] == names[1..][j - 1];
      (if names[0] in idxOf && idxOf[names[0]] == i then 1 else 0) + rest
  }

  /** The inner loop: push `roleName` onto the list at each resolved, in-range position. */
  function PushNames(lists: seq<seq<string>>, idxOf: map<string, nat>, roleName: string, names: seq<string>): (r: seq<seq<string>>)
    ensures |r| == |lists|
    decreases |names|
  {
    if |names| == 0 then lists
    else
      var p := names[0];
      var next := if p in idxOf && idxOf[p] < |lists| then lists[idxOf[p] := lists[idxOf[p]] + [roleName]] else lists;
      PushNames(next, idxOf, roleName, names[1..])
  }

  /** The outer loop over roles, in order. */
  function PushRoles(lists: seq<seq<string>>, idxOf: map<string, nat>, roles: seq<IamRole>): (r: seq<seq<string>>)
    ensures |r| == |lists|
    decreases |roles|
  {
    if |roles| == 0 then lists
    else PushRoles(PushNames(lists, idxOf, roles[0].name, roles[0].includedPermissions), idxOf, roles[1..])
  }

  /** Reference: the names pushed onto list `i`, one per resolving listing, in role order. */
  function Granting(roles: seq<IamRole>, idxOf: map<string, nat>, i: nat): seq<string>
    decreases |roles|
  {
    if |roles| == 0 then []
    else Repeat(roles[0].name, Hits(roles[0].includedPermissions, idxOf, i)) + Granting(roles[1..], idxOf, i)
  }

  lemma RepeatAdd(x: string, a: nat, b: nat)
    ensures Repeat(x, a) + Repeat(x, b) == Repeat(x, a + b)
  {
  }

  lemma {:induction false} PushNamesEntry(lists: seq<seq<string>>, idxOf: map<string, nat>, roleName: string, names: seq<string>, i: nat)
    requires i < |lists|
    ensures PushNames(lists, idxOf, roleName, names)[i] == lists[i] + Repeat(roleName, Hits(names, idxOf, i))
    decreases |names|
  {
    if |names| == 0 {
      assert Repeat(roleName, 0) == [];
    } else {
      var p := names[0];
      var next := if p in idxOf && idxOf[p] < |lists| then lists[idxOf[p] := lists[idxOf[p]] + [roleName]] else lists;
      PushNamesEntry(next, idxOf, roleName, names[1..], i);
      var h := if p in idxOf && idxOf[p] == i then 1 else 0;
      assert next[i] == lists[i] + Repeat(roleName, h);
      RepeatAdd(roleName, h, Hits(names[1..], idxOf, i));
    }
  }

  lemma {:induction false} PushRolesEntry(lists: seq<seq<string>>, idxOf: map<string, nat>, roles: seq<IamRole>, i: nat)
    requires i < |lists|
    ensures PushRoles(lists, idxOf, roles)[i] == lists[i] + Granting(roles, idxOf, i)
    decreases |roles|
  {
    if |roles| > 0 {
      var next := PushNames(lists, idxOf, roles[0].name, roles[0].includedPermissions);
      PushNamesEntry(lists, idxOf, roles[0].name, roles[0].includedPermissions, i);
      PushRolesEntry(next, idxOf, roles[1..], i);
    }
  }

  /** A name is pushed onto list `i` exactly when a role of that name lists a permission resolving to `i`. */
  lemma {:induction false} GrantingMembers(roles: seq<IamRole>, idxOf: map<string, nat>, i: nat, x: string)
    ensures x in Granting(roles, idxOf, i) <==>
              exists k :: 0 <= k < |roles| && roles[k].name == x && Hits(roles[k].includedPermissions, idxOf, i) > 0
    decreases |roles|
  {
    if |roles| > 0 {
      GrantingMembers(roles[1..], idxOf, i, x);
      var head := Repeat(roles[0].name, Hits(roles[0].includedPermissions, idxOf, i));
      assert x in head <==> roles[0].name == x && Hits(roles[0].includedPermissions, idxOf, i) > 0 by {
        if |head| > 0 { assert head[0] == roles[0].name; }
      }
      assert x in Granting(roles, idxOf, i) <==> x in head || x in Granting(roles[1..], idxOf, i);
      if exists k :: 1 <= k < |roles| && roles[k].name == x && Hits(roles[k].includedPermissions, idxOf, i) > 0 {
        var k :| 1 <= k < |roles| && roles[k].name == x && Hits(roles[k].includedPermissions, idxOf, i) > 0;
        assert roles[1..][k - 1] == roles[k];
      }
    }
  }

  /**
   * `build_role_permission_references`: each permission's list gets the
   * names of the roles listing it (through the last position of its name),
   * then is sorted and de-duplicated; nothing else changes.
   */
  function BuildRolePermissionReferences(roles: seq<IamRole>, perms: seq<IamPermission>): (r: seq<IamPermission>)
    ensures |r| == |perms|
    ensures forall i :: 0 <= i < |r| ==> r[i] == perms[i].(rolesGranting := r[i].rolesGranting)
    ensures forall i :: 0 <= i < |r| ==> StrictlySorted(r[i].rolesGranting)
  {
    var idxOf := LastIndexMap(PermissionNames(perms));
    var lists := PushRoles(seq(|perms|, i requires 0 <= i < |perms| => perms[i].rolesGranting), idxOf, roles);
    seq(|perms|, i requires 0 <= i < |perms| => perms[i].(rolesGranting := SortDedup(lists[i])))
  }

  /**
   * After the step a permission's list holds exactly what it held before
   * plus the names of the roles listing a permission whose name's last
   * position is this one.
   */
  lemma ReferencesMembers(roles: seq<IamRole>, perms: seq<IamPermission>, i: nat, x: string)
    requires i < |perms|
    ensures var idxOf := LastIndexMap(PermissionNames(perms));
            x in BuildRolePermissionReferences(roles, perms)[i].rolesGranting <==>
              x in perms[i].rolesGranting
              || exists k :: 0 <= k < |roles| && roles[k].name == x && Hits(roles[k].includedPermissions, idxOf, i) > 0
  {
    var idxOf := LastIndexMap(PermissionNames(perms));
    var start := seq(|perms|, j requires 0 <= j < |perms| => perms[j].rolesGranting);
    PushRolesEntry(start, idxOf, roles, i);
    var l := PushRoles(start, idxOf, roles)[i];
    assert BuildRolePermissionReferences(roles, perms)[i].rolesGranting == SortDedup(l);
    assert x in SortDedup(l) <==> x in Elems(SortDedup(l));
    assert x in l <==> x in Elems(l);
    GrantingMembers(roles, idxOf, i, x);
  }

  /** With distinct names, the last position of a permission's name is its own. */
  lemma DistinctNamesResolve(perms: seq<IamPermission>, i: nat)
    requires NoDup(PermissionNames(perms)) && i < |perms|
    ensures forall p :: p in LastIndexMap(PermissionNames(perms)) && LastIndexMap(PermissionNames(perms))[p] == i
              <==> p == perms[i].name
  {
    var names := PermissionNames(perms);
    var idxOf := LastIndexMap(names);
    assert names[i] in Elems(names);
    var m := idxOf[names[i]];
    assert names[m] == names[i];
  }

  /**
   * For permissions with distinct names and empty lists (as `from_name`
   * leaves them), a role name ends up on permission `p` exactly when some
   * role of that name lists `p`'s name; names that match no permission are
   * ignored.
   */
  lemma ReferencesExact(roles: seq<IamRole>, perms: seq<IamPermission>, i: nat, x: string)
    requires NoDup(PermissionNames(perms)) && i < |perms|
    requires forall j :: 0 <= j < |perms| ==> perms[j].rolesGranting == []
    ensures x in BuildRolePermissionReferences(roles, perms)[i].rolesGranting <==>
              exists k :: 0 <= k < |roles| && roles[k].name == x && perms[i].name in roles[k].includedPermissions
  {
    var idxOf := LastIndexMap(PermissionNames(perms));
    ReferencesMembers(roles, perms, i, x);
    DistinctNamesResolve(perms, i);
    forall k | 0 <= k < |roles|
      ensures Hits(roles[k].includedPermissions, idxOf, i) > 0 <==> perms[i].name in roles[k].includedPermissions
    {
      var ps := roles[k].includedPermissions;
      if perms[i].name in ps {
        var j :| 0 <= j < |ps| && ps[j] == perms[i].name;
        assert ps[j] in idxOf && idxOf[ps[j]] == i;
      }
    }
  }

  // ---------------------------------------------------------------------------
  // Indexes

  function StageKeys(rs: seq<IamRole>): (r: seq<string>)
    ensures |r| == |rs| && forall i :: 0 <= i < |rs| ==> r[i] == StageName(rs[i].stage)
  {
    seq(|rs|, i requires 0 <= i < |rs| => StageName(rs[i].stage))
  }

  function Services(ps: seq<IamPermission>): (r: seq<string>)
    ensures |r| == |ps| && forall i :: 0 <= i < |ps| ==> r[i] == ps[i].service
  {
    seq(|ps|, i requires 0 <= i < |ps| => ps[i].service)
  }

  /** The stage index: stage key to the ascending positions of the roles at that stage. */
  function StageIndex(roles: seq<IamRole>): (r: map<string, seq<nat>>)
    ensures r.Keys == Elems(StageKeys(roles))
    ensures r.Keys <= {"GA", "BETA", "ALPHA", "DEPRECATED"}
    ensures forall k :: k in r ==> Ascending(r[k])
    ensures forall k, j :: k in r && 0 <= j < |r[k]| ==> r[k][j] < |roles| && StageName(roles[r[k][j]].stage) == k
    ensures forall i :: 0 <= i < |roles| ==> i in r[StageName(roles[i].stage)]
  {
    var stages := StageKeys(roles);
    GroupSpec(stages, {});
    StageKeysKnown(roles);
    Group(stages, {})
  }

  /** Every stage key is one of the four Debug names. */
  lemma StageKeysKnown(roles: seq<IamRole>)
    ensures Elems(StageKeys(roles)) <= {"GA", "BETA", "ALPHA", "DEPRECATED"}
  {
    forall k | k in Elems(StageKeys(roles)) ensures k in {"GA", "BETA", "ALPHA", "DEPRECATED"} {
      var i :| 0 <= i < |roles| && StageKeys(roles)[i] == k;
      match roles[i].stage
      case Ga =>
      case Beta =>
      case Alpha =>
      case Deprecated =>
    }
  }

  /** The service index: non-empty service to the ascending positions of its permissions. */
  function ServiceIndex(perms: seq<IamPermission>): (r: map<string, seq<nat>>)
    ensures r.Keys == Elems(Services(perms)) - {""}
    ensures forall k :: k in r ==> Ascending(r[k])
    ensures forall k, j :: k in r && 0 <= j < |r[k]| ==> r[k][j] < |perms| && perms[r[k][j]].service == k
    ensures forall i :: 0 <= i < |perms| && perms[i].service != "" ==> i in r[perms[i].service]
  {
    GroupSpec(Services(perms), {""});
    Group(Services(perms), {""})
  }

  /**
   * `build_indexes`: name to last position for roles and permissions, plus
   * the stage and service indexes.
   */
  function BuildIndexes(roles: seq<IamRole>, perms: seq<IamPermission>): (r: Indexes)
    ensures r.rolesByName.Keys == Elems(RoleNames(roles))
    ensures forall n :: n in r.rolesByName ==>
              r.rolesByName[n] < |roles| && roles[r.rolesByName[n]].name == n
              && forall j :: r.rolesByName[n] < j < |roles| ==> roles[j].name != n
    ensures r.permissionsByName.Keys == Elems(PermissionNames(perms))
    ensures forall n :: n in r.permissionsByName ==>
              r.permissionsByName[n] < |perms| && perms[r.permissionsByName[n]].name == n
              && forall j :: r.permissionsByName[n] < j < |perms| ==> perms[j].name != n
    ensures r.rolesByStage == StageIndex(roles)
    ensures r.permissionsByService == ServiceIndex(perms)
  {
    Indexes(LastIndexMap(RoleNames(roles)), LastIndexMap(PermissionNames(perms)), StageIndex(roles), ServiceIndex(perms))
  }

  // ---------------------------------------------------------------------------
  // Transform

  /**
   * `transform`: roles unchanged and in order, permissions in order with
   * their role references, the indexes over both, and metadata whose totals
   * are the two lengths and whose change lists are empty.
   */
  function Transform(raw: RawGcpData): (r: Result<IamDataset, string>)
    ensures r.Ok?
    ensures r.value.roles == raw.roles
    ensures |r.value.permissions| == |raw.permissions|
    ensures forall i :: 0 <= i < |raw.permissions| ==>
              r.value.permissions[i] == raw.permissions[i].(rolesGranting := r.value.permissions[i].rolesGranting)
              && StrictlySorted(r.value.permissions[i].rolesGranting)
    ensures r.value.metadata == IamMetadata(raw.fetchedAt, |raw.roles|, |raw.permissions|, ApiVersion, NoChanges)
    ensures r.value.indexes == BuildIndexes(r.value.roles, r.value.permissions)
    ensures r.value.permissions == BuildRolePermissionReferences(raw.roles, raw.permissions)
  {
    var perms := BuildRolePermissionReferences(raw.roles, raw.permissions);
    Ok(IamDataset(IamMetadata(raw.fetchedAt, |raw.roles|, |perms|, ApiVersion, NoChanges),
                  raw.roles, perms, BuildIndexes(raw.roles, perms)))
  }

  /** The permission lookup index sees the same names as the raw permissions, since references leave names alone. */
  lemma TransformKeepsNames(raw: RawGcpData)
    ensures PermissionNames(Transform(raw).value.permissions) == PermissionNames(raw.permissions)
    ensures Transform(raw).value.indexes.permissionsByName.Keys == Elems(PermissionNames(raw.permissions))
  {
    var ps := Transform(raw).value.permissions;
    assert forall i :: 0 <= i < |ps| ==> ps[i].name == raw.permissions[i].name;
  }

  /**
   * For fetched data (distinct permission names, no references yet) a role
   * name is among a transformed permission's granting roles exactly when a
   * role of that name lists the permission.
   */
  lemma TransformGrantingExact(raw: RawGcpData, i: nat, x: string)
    requires NoDup(PermissionNames(raw.permissions)) && i < |raw.permissions|
    requires forall j :: 0 <= j < |raw.permissions| ==> raw.permissions[j].rolesGranting == []
    ensures x in Transform(raw).value.permissions[i].rolesGranting <==>
              exists k :: 0 <= k < |raw.roles| && raw.roles[k].name == x && raw.permissions[i].name in raw.roles[k].includedPermissions
  {
    ReferencesExact(raw.roles, raw.permissions, i, x);
  }
}

=== FILE: seqs.dfy ===
/**
 * Generic sequence helpers: element sets, duplicate-freedom, occurrence
 * counts, truncation, and the two index-building idioms the Rust code repeats
 * (`map.insert(key, idx)` in a loop, and `map.entry(key).or_default().push(idx)`
 * in a loop).
 */
module Seqs {

  function Elems<T>(s: seq<T>): set<T> {
    set x | x in s
  }

  lemma ElemsEmpty<T>(s: seq<T>)
    ensures Elems(s) == {} <==> s == []
  {
    if s != [] {
      assert s[0] in Elems(s);
    }
  }

  lemma AppendAssoc<T>(a: seq<T>, b: seq<T>, c: seq<T>)
    ensures (a + b) + c == a + (b + c)
  {
  }

  predicate NoDup<T(==)>(s: seq<T>) {
    forall i, j :: 0 <= i < j < |s| ==> s[i] != s[j]
  }

  /** Appending a new element keeps a sequence duplicate-free. */
  lemma NoDupAppend<T>(s: seq<T>, x: T)
    requires NoDup(s) && x !in s
    ensures NoDup(s + [x])
  {
    var t := s + [x];
    forall i, j | 0 <= i < j < |t| ensures t[i] != t[j] {
      if j == |s| {
        assert t[i] == s[i];
      } else {
        assert t[i] == s[i] && t[j] == s[j];
      }
    }
  }

  /** A duplicate-free sequence has as many distinct elements as entries. */
  lemma {:induction false} NoDupCard<T>(s: seq<T>)
    requires NoDup(s)
    ensures |Elems(s)| == |s|
    decreases |s|
  {
    if |s| > 0 {
      NoDupCard(s[1..]);
      assert Elems(s) == {s[0]} + Elems(s[1..]);
      assert s[0] !in Elems(s[1..]);
    }
  }

  /** How often `x` occurs in `s`. */
  function Count<T(==)>(s: seq<T>, x: T): (r: nat)
    ensures r <= |s|
    ensures r > 0 <==> x in s
  {
    if |s| == 0 then 0 else (if s[0] == x then 1 else 0) + Count(s[1..], x)
  }

  /** `n` copies of `x`. */
  function Repeat<T>(x: T, n: nat): (r: seq<T>)
    ensures |r| == n
    ensures forall i :: 0 <= i < n ==> r[i] == x
  {
    if n == 0 then [] else [x] + Repeat(x, n - 1)
  }

  /** Rust's `iter().take(n)`: the first `n` entries, or all when fewer. */
  function Take<T>(s: seq<T>, n: nat): (r: seq<T>)
    ensures |r| <= n && |r| <= |s|
    ensures |r| == n || |r| == |s|
    ensures r == s[..|r|]
  {
    if |s| <= n then s else s[..n]
  }

  predicate Ascending(xs: seq<nat>) {
    forall a, b :: 0 <= a < b < |xs| ==> xs[a] < xs[b]
  }

  /**
   * The map a loop `for (i, k) in keys.enumerate() { m.insert(k, i) }` leaves:
   * each key is sent to the position of its LAST occurrence.
   */
  function LastIndexMap<K>(keys: seq<K>): (m: map<K, nat>)
    ensures m.Keys == Elems(keys)
    ensures forall k :: k in m ==> m[k] < |keys| && keys[m[k]] == k
    ensures forall k, j :: k in m && m[k] < j < |keys| ==> keys[j] != k
    decreases |keys|
  {
    if |keys| == 0 then map[]
    else
      var n := |keys| - 1;
      assert keys == keys[..n] + [keys[n]];
      LastIndexMap(keys[..n])[keys[n] := n]
  }

  /**
   * The map a loop `for (i, k) in keys.enumerate() { if k not excluded {
   * m.entry(k).or_insert_with(Vec::new).push(i) } }` leaves; `GroupSpec`
   * states what it holds.
   */
  function Group<K>(keys: seq<K>, exclude: set<K>): map<K, seq<nat>>
    decreases |keys|
  {
    if |keys| == 0 then map[]
    else
      var n := |keys| - 1;
      var k := keys[n];
      var m := Group(keys[..n], exclude);
      if k in exclude then m
      else m[k := (if k in m then m[k] else []) + [n]]
  }

  /** The kept keys are exactly the keys that occur and are not excluded. */
  lemma {:induction false} GroupKeys<K>(keys: seq<K>, exclude: set<K>)
    ensures Group(keys, exclude).Keys == Elems(keys) - exclude
    decreases |keys|
  {
    if |keys| > 0 {
      var n := |keys| - 1;
      GroupKeys(keys[..n], exclude);
      assert keys == keys[..n] + [keys[n]];
      assert Elems(keys) == Elems(keys[..n]) + {keys[n]};
    }
  }

  /** Every listed position holds its key. */
  lemma {:induction false} GroupSound<K>(keys: seq<K>, exclude: set<K>)
    ensures forall k, j :: k in Group(keys, exclude) && 0 <= j < |Group(keys, exclude)[k]| ==>
              Group(keys, exclude)[k][j] < |keys| && keys[Group(keys, exclude)[k][j]] == k
    decreases |keys|
  {
    if |keys| > 0 {
      var n := |keys| - 1;
      var k := keys[n];
      var pre := keys[..n];
      GroupSound(pre, exclude);
      var m := Group(pre, exclude);
      var r := Group(keys, exclude);
      forall c, j | c in r && 0 <= j < |r[c]| ensures r[c][j] < |keys| && keys[r[c][j]] == c {
        if c == k && k !in exclude && j == |r[c]| - 1 {
          assert r[c][j] == n;
        } else {
          assert r[c][j] == m[c][j];
          assert keys[m[c][j]] == pre[m[c][j]];
        }
      }
    }
  }

  /** Every key's positions are listed in ascending order. */
  lemma {:induction false} GroupAscending<K>(keys: seq<K>, exclude: set<K>)
    ensures forall k :: k in Group(keys, exclude) ==> Ascending(Group(keys, exclude)[k])
    decreases |keys|
  {
    if |keys| > 0 {
      var n := |keys| - 1;
      var k := keys[n];
      var pre := keys[..n];
      GroupAscending(pre, exclude);
      GroupSound(pre, exclude);
      var m := Group(pre, exclude);
      var r := Group(keys, exclude);
      if k !in exclude {
        var old_ := if k in m then m[k] else [];
        assert r[k] == old_ + [n];
        forall a, b | 0 <= a < b < |r[k]| ensures r[k][a] < r[k][b] {
          if b == |r[k]| - 1 {
            assert r[k][a] == old_[a];
          }
        }
      }
    }
  }

  /** Every position of a kept key is listed under it. */
  lemma {:induction false} GroupComplete<K>(keys: seq<K>, exclude: set<K>)
    ensures forall i :: 0 <= i < |keys| && keys[i] !in exclude ==>
              keys[i] in Group(keys, exclude) && i in Group(keys, exclude)[keys[i]]
    decreases |keys|
  {
    if |keys| > 0 {
      var n := |keys| - 1;
      var pre := keys[..n];
      GroupComplete(pre, exclude);
      var m := Group(pre, exclude);
      var r := Group(keys, exclude);
      forall i | 0 <= i < |keys| && keys[i] !in exclude ensures keys[i] in r && i in r[keys[i]] {
        if i < n {
          assert keys[i] == pre[i];
          assert i in m[keys[i]];
        }
      }
    }
  }

  /**
   * Every kept key is sent to the ascending list of exactly the positions
   * where it occurs; excluded keys are absent.
   */
  lemma GroupSpec<K>(keys: seq<K>, exclude: set<K>)
    ensures Group(keys, exclude).Keys == Elems(keys) - exclude
    ensures forall k :: k in Group(keys, exclude) ==> Ascending(Group(keys, exclude)[k])
    ensures forall k, j :: k in Group(keys, exclude) && 0 <= j < |Group(keys, exclude)[k]| ==>
              Group(keys, exclude)[k][j] < |keys| && keys[Group(keys, exclude)[k][j]] == k
    ensures forall i :: 0 <= i < |keys| && keys[i] !in exclude ==> i in Group(keys, exclude)[keys[i]]
  {
    GroupKeys(keys, exclude);
    GroupSound(keys, exclude);
    GroupAscending(keys, exclude);
    GroupComplete(keys, exclude);
  }
}

=== FILE: similarity.dfy ===
/**
 * The similarity scorer of the backend search engine
 * (backend/src/search/engine.rs `extract_ngrams` and `calculate_similarity`):
 * character n-grams and the Jaccard index of two n-gram lists.
 */
module Similarity {
  import opened Text
  import opened Seqs

  /** The engine always compares 3-grams. */
  const GramSize: nat := 3

  /** Every window of `n` consecutive characters, left to right (`windows(n)`). */
  function Windows(text: string, n: nat): (r: seq<string>)
    requires n > 0
    ensures |text| < n ==> r == []
    ensures |text| >= n ==> |r| == |text| - n + 1
    ensures forall i :: 0 <= i < |r| ==> r[i] == text[i..i + n]
  {
    if |text| < n then [] else seq(|text| - n + 1, i requires 0 <= i <= |text| - n => text[i..i + n])
  }

  /**
   * `extract_ngrams(text, n)` as written: the whole text as the only gram
   * when its UTF-8 byte length is below `n`, otherwise the character windows
   * of length `n`. The test counts bytes while the windows count characters.
   */
  function ExtractNgramsAsWritten(text: string, n: nat): (r: seq<string>)
    requires n > 0
    ensures Utf8Len(text) < n ==> r == [text]
    ensures Utf8Len(text) >= n ==> |r| == (if |text| < n then 0 else |text| - n + 1)
  {
    if Utf8Len(text) < n then [text] else Windows(text, n)
  }

  /**
   * The n-grams with the length test counting characters, as the windows do:
   * a text shorter than `n` is its own only gram, so the list is never empty.
   */
  function ExtractNgrams(text: string, n: nat): (r: seq<string>)
    requires n > 0
    ensures |r| >= 1
    ensures |text| < n ==> r == [text]
    ensures |text| >= n ==> |r| == |text| - n + 1 && forall i :: 0 <= i < |r| ==> r[i] == text[i..i + n]
  {
    if |text| < n then [text] else Windows(text, n)
  }

  predicate IsAscii(s: string) {
    forall i :: 0 <= i < |s| ==> s[i] as int < 0x80
  }

  /** On ASCII text bytes and characters coincide, so the extractor as written agrees with the corrected one. */
  lemma NgramsAgreeOnAscii(text: string, n: nat)
    requires n > 0 && IsAscii(text)
    ensures ExtractNgramsAsWritten(text, n) == ExtractNgrams(text, n)
  {
  }

  /**
   * A two-character text of three UTF-8 bytes passes the byte test but has
   * no three-character window, so the extractor as written returns no gram
   * for it; the corrected one returns the text itself.
   */
  lemma ShortNonAsciiTextHasNoGrams()
    ensures Utf8Len("\U{E9}a") == 3
    ensures ExtractNgramsAsWritten("\U{E9}a", GramSize) == []
    ensures ExtractNgrams("\U{E9}a", GramSize) == ["\U{E9}a"]
  {
    assert Utf8Len("\U{E9}a") == Utf8Width('\U{E9}') + Utf8Len("a");
  }

  /**
   * `calculate_similarity`: 1 for two empty lists, otherwise the number of
   * distinct shared grams over the number of distinct grams in either list.
   */
  function Jaccard(a: seq<string>, b: seq<string>): (r: real)
    ensures 0.0 <= r <= 1.0
  {
    if |a| == 0 && |b| == 0 then 1.0
    else
      var inter := |Elems(a) * Elems(b)|;
      var union := |Elems(a) + Elems(b)|;
      SubsetCard(Elems(a) * Elems(b), Elems(a) + Elems(b));
      if union == 0 then 0.0 else RatioInUnit(inter, union); inter as real / union as real
  }

  lemma RatioInUnit(p: nat, q: nat)
    requires 0 < q && p <= q
    ensures 0.0 <= p as real / q as real <= 1.0
    ensures p as real / q as real == 1.0 <==> p == q
    ensures p as real / q as real == 0.0 <==> p == 0
  {
    var x := p as real / q as real;
    assert x * q as real == p as real;
  }

  lemma SubsetCard<T>(x: set<T>, y: set<T>)
    requires x <= y
    ensures |x| <= |y|
    ensures |x| == |y| ==> x == y
  {
    assert y == x + (y - x);
    if x != y {
      var e :| e in y - x;
    }
  }

  /**
   * As written, two different short non-ASCII texts both get no grams and so
   * score a perfect 1.0 against each other; with the corrected extractor they
   * share nothing and score 0.
   */
  lemma AsWrittenScoresDifferentTextsAsEqual()
    ensures "\U{E9}a" != "\U{FC}b"
    ensures Jaccard(ExtractNgramsAsWritten("\U{E9}a", GramSize), ExtractNgramsAsWritten("\U{FC}b", GramSize)) == 1.0
    ensures Jaccard(ExtractNgrams("\U{E9}a", GramSize), ExtractNgrams("\U{FC}b", GramSize)) == 0.0
  {
    ShortNonAsciiTextHasNoGrams();
    assert Utf8Len("\U{FC}b") == Utf8Width('\U{FC}') + Utf8Len("b");
    assert ExtractNgramsAsWritten("\U{FC}b", GramSize) == [];
    JaccardZeroIff(["\U{E9}a"], ["\U{FC}b"]);
    assert "\U{E9}a"[0] != "\U{FC}b"[0];
    assert Elems(["\U{E9}a"]) * Elems(["\U{FC}b"]) == {};
  }

  /** The score is symmetric in its two arguments. */
  lemma JaccardSymmetric(a: seq<string>, b: seq<string>)
    ensures Jaccard(a, b) == Jaccard(b, a)
  {
    assert Elems(a) * Elems(b) == Elems(b) * Elems(a);
    assert Elems(a) + Elems(b) == Elems(b) + Elems(a);
  }

  /** The score is 1 exactly when both lists hold the same distinct grams. */
  lemma JaccardOneIff(a: seq<string>, b: seq<string>)
    ensures Jaccard(a, b) == 1.0 <==> Elems(a) == Elems(b)
  {
    ElemsEmpty(a);
    ElemsEmpty(b);
    if !(|a| == 0 && |b| == 0) {
      var i := Elems(a) * Elems(b);
      var u := Elems(a) + Elems(b);
      SubsetCard(i, u);
      assert u != {} by {
        if |a| > 0 { assert a[0] in u; } else { assert b[0] in u; }
      }
      assert |u| > 0;
      if Jaccard(a, b) == 1.0 {
        assert |i| as real / |u| as real == 1.0;
        assert |i| == |u|;
        assert i == u;
        assert Elems(a) == Elems(b) by {
          assert Elems(a) <= u && Elems(b) <= u;
        }
      }
      if Elems(a) == Elems(b) {
        assert i == u;
      }
    }
  }

  /** Self-similarity is perfect, whatever the list. */
  lemma JaccardSelf(g: seq<string>)
    ensures Jaccard(g, g) == 1.0
  {
    JaccardOneIff(g, g);
  }

  /**
   * With exactly one list empty the score is 0, and in general it is 0 exactly
   * when the lists share no gram and are not both empty.
   */
  lemma JaccardZeroIff(a: seq<string>, b: seq<string>)
    ensures Jaccard(a, b) == 0.0 <==> !(|a| == 0 && |b| == 0) && Elems(a) * Elems(b) == {}
    ensures (|a| == 0) != (|b| == 0) ==> Jaccard(a, b) == 0.0
  {
    ElemsEmpty(a);
    ElemsEmpty(b);
    if !(|a| == 0 && |b| == 0) {
      var u := Elems(a) + Elems(b);
      assert u != {} by {
        if |a| > 0 { assert a[0] in u; } else { assert b[0] in u; }
      }
    }
  }
}

=== FILE: site_dataset.dfy ===
/**
 * The static-site generator's dataset helpers (scripts/generate_static_site.py):
 * the dataset built from the fetched role records, the stage badge class,
 * the role page's meta description and the role page path.
 */
module SiteDataset {
  import opened Wrappers
  import opened Text
  import opened Seqs
  import opened StringOrder

  /** A role record as fetched: every field may be missing. */
  datatype RawRole = RawRole(
    name: Option<string>,
    title: Option<string>,
    description: Option<string>,
    stage: Option<string>,
    includedPermissions: Option<seq<string>>,
    etag: Option<string>)

  const DefaultStage: string := "GA"
  const Source: string := "Google Cloud IAM API"
  const RolePrefix: string := "roles/"
  const DescriptionLimit: nat := 150
  const Ellipsis: string := "..."

  function Included(r: RawRole): seq<string> {
    GetOr(r.includedPermissions, [])
  }

  /** One entry of a permission's `granted_by_roles`. */
  datatype Grant = Grant(name: string, title: string, stage: string)

  datatype RoleData = RoleData(
    name: string,
    title: string,
    description: string,
    stage: string,
    includedPermissions: seq<string>,
    etag: string)

  datatype PermissionData = PermissionData(
    name: string,
    service: string,
    resource: string,
    action: string,
    grantedByRoles: seq<Grant>)

  datatype Metadata = Metadata(totalRoles: nat, totalPermissions: nat, lastUpdated: string, source: string)

  datatype Dataset = Dataset(roles: seq<RoleData>, permissions: seq<PermissionData>, metadata: Metadata)

  function GrantOf(r: RawRole): Grant {
    Grant(GetOr(r.name, ""), GetOr(r.title, ""), GetOr(r.stage, DefaultStage))
  }

  // ---------------------------------------------------------------------------
  // Permission to roles

  function Lookup(m: map<string, seq<Grant>>, p: string): seq<Grant> {
    if p in m then m[p] else []
  }

  /** The inner loop: append `g` to the list of each listed permission. */
  function AddGrants(acc: map<string, seq<Grant>>, perms: seq<string>, g: Grant): map<string, seq<Grant>>
    decreases |perms|
  {
    if |perms| == 0 then acc
    else AddGrants(acc[perms[0] := Lookup(acc, perms[0]) + [g]], perms[1..], g)
  }

  /** The outer loop over roles, in order. */
  function GrantMap(roles: seq<RawRole>, acc: map<string, seq<Grant>>): map<string, seq<Grant>>
    decreases |roles|
  {
    if |roles| == 0 then acc
    else GrantMap(roles[1..], AddGrants(acc, Included(roles[0]), GrantOf(roles[0])))
  }

  /** Reference: one grant per listing of `p`, in role order. */
  function GrantsFor(roles: seq<RawRole>, p: string): seq<Grant>
    decreases |roles|
  {
    if |roles| == 0 then []
    else Repeat(GrantOf(roles[0]), Count(Included(roles[0]), p)) + GrantsFor(roles[1..], p)
  }

  lemma RepeatAdd(g: Grant, a: nat, b: nat)
    ensures Repeat(g, a) + Repeat(g, b) == Repeat(g, a + b)
  {
  }

  lemma {:induction false} AddGrantsLookup(acc: map<string, seq<Grant>>, perms: seq<string>, g: Grant, p: string)
    ensures Lookup(AddGrants(acc, perms, g), p) == Lookup(acc, p) + Repeat(g, Count(perms, p))
    decreases |perms|
  {
    if |perms| == 0 {
      assert Repeat(g, 0) == [];
    } else {
      var next := acc[perms[0] := Lookup(acc, perms[0]) + [g]];
      AddGrantsLookup(next, perms[1..], g, p);
      var h := if perms[0] == p then 1 else 0;
      assert Lookup(next, p) == Lookup(acc, p) + Repeat(g, h);
      RepeatAdd(g, h, Count(perms[1..], p));
    }
  }

  lemma {:induction false} GrantMapLookup(roles: seq<RawRole>, acc: map<string, seq<Grant>>, p: string)
    ensures Lookup(GrantMap(roles, acc), p) == Lookup(acc, p) + GrantsFor(roles, p)
    decreases |roles|
  {
    if |roles| > 0 {
      var next := AddGrants(acc, Included(roles[0]), GrantOf(roles[0]));
      AddGrantsLookup(acc, Included(roles[0]), GrantOf(roles[0]), p);
      GrantMapLookup(roles[1..], next, p);
    }
  }

  /** Every permission name any role lists, role by role. */
  function Listed(roles: seq<RawRole>): seq<string>
    decreases |roles|
  {
    if |roles| == 0 then [] else Included(roles[0]) + Listed(roles[1..])
  }

  lemma {:induction false} CountAppend(a: seq<string>, b: seq<string>, x: string)
    ensures Count(a + b, x) == Count(a, x) + Count(b, x)
    decreases |a|
  {
    if |a| == 0 {
      assert a + b == b;
    } else {
      assert (a + b)[1..] == a[1..] + b;
      CountAppend(a[1..], b, x);
    }
  }

  /**
   * A permission's grants: one per time a role lists it (no
   * de-duplication), each with a role that lists it.
   */
  lemma {:induction false} GrantsForMeaning(roles: seq<RawRole>, p: string)
    ensures |GrantsFor(roles, p)| == Count(Listed(roles), p)
    ensures forall g :: g in GrantsFor(roles, p) <==> exists k :: 0 <= k < |roles| && p in Included(roles[k]) && g == GrantOf(roles[k])
    decreases |roles|
  {
    if |roles| > 0 {
      GrantsForMeaning(roles[1..], p);
      CountAppend(Included(roles[0]), Listed(roles[1..]), p);
      var head := Repeat(GrantOf(roles[0]), Count(Included(roles[0]), p));
      forall g ensures g in GrantsFor(roles, p) <==> exists k :: 0 <= k < |roles| && p in Included(roles[k]) && g == GrantOf(roles[k]) {
        assert g in head <==> p in Included(roles[0]) && g == GrantOf(roles[0]) by {
          if |head| > 0 { assert head[0] == GrantOf(roles[0]); }
        }
        if exists k :: 1 <= k < |roles| && p in Included(roles[k]) && g == GrantOf(roles[k]) {
          var k :| 1 <= k < |roles| && p in Included(roles[k]) && g == GrantOf(roles[k]);
          assert roles[1..][k - 1] == roles[k];
        }
      }
    }
  }

  // ---------------------------------------------------------------------------
  // Dataset

  function RoleDataOf(r: RawRole): RoleData {
    RoleData(GetOr(r.name, ""), GetOr(r.title, ""), GetOr(r.description, ""), GetOr(r.stage, DefaultStage),
             Included(r), GetOr(r.etag, ""))
  }

  function PermissionDataOf(p: string, grants: map<string, seq<Grant>>): PermissionData {
    PermissionData(p, Part(p, '.', 0), Part(p, '.', 1), Part(p, '.', 2), Lookup(grants, p))
  }

  /**
   * `build_dataset`: the roles in order with defaults for missing fields,
   * one permission per distinct listed name in sorted order with its
   * dot-separated parts and the grants of every listing, and totals that
   * are the two lengths. `now` is the timestamp.
   */
  function BuildDataset(roles: seq<RawRole>, now: string): (r: Dataset)
    ensures |r.roles| == |roles|
    ensures forall i :: 0 <= i < |roles| ==>
              && r.roles[i].name == GetOr(roles[i].name, "")
              && r.roles[i].title == GetOr(roles[i].title, "")
              && r.roles[i].description == GetOr(roles[i].description, "")
              && r.roles[i].stage == GetOr(roles[i].stage, DefaultStage)
              && r.roles[i].includedPermissions == Included(roles[i])
              && r.roles[i].etag == GetOr(roles[i].etag, "")
    ensures StrictlySorted(PermissionNamesOf(r.permissions))
    ensures forall x :: x in PermissionNamesOf(r.permissions) <==> exists k :: 0 <= k < |roles| && x in Included(roles[k])
    ensures forall i :: 0 <= i < |r.permissions| ==>
              var p := r.permissions[i];
              p.service == Part(p.name, '.', 0) && p.resource == Part(p.name, '.', 1) && p.action == Part(p.name, '.', 2)
              && p.grantedByRoles == GrantsFor(roles, p.name)
    ensures r.metadata == Metadata(|r.roles|, |r.permissions|, now, Source)
  {
    var names := SortDedup(Listed(roles));
    var grants := GrantMap(roles, map[]);
    var perms := seq(|names|, i requires 0 <= i < |names| => PermissionDataOf(names[i], grants));
    var rs := seq(|roles|, i requires 0 <= i < |roles| => RoleDataOf(roles[i]));
    assert PermissionNamesOf(perms) == names;
    forall x ensures x in names <==> exists k :: 0 <= k < |roles| && x in Included(roles[k]) {
      ListedIff(roles, x);
      assert x in names <==> x in Elems(names);
      assert x in Listed(roles) <==> x in Elems(Listed(roles));
    }
    forall i | 0 <= i < |perms| ensures perms[i].grantedByRoles == GrantsFor(roles, perms[i].name) {
      GrantMapLookup(roles, map[], names[i]);
    }
    Dataset(rs, perms, Metadata(|rs|, |perms|, now, Source))
  }

  lemma {:induction false} ListedIff(roles: seq<RawRole>, x: string)
    ensures x in Listed(roles) <==> exists k :: 0 <= k < |roles| && x in Included(roles[k])
    decreases |roles|
  {
    if |roles| > 0 {
      ListedIff(roles[1..], x);
      if exists k :: 1 <= k < |roles| && x in Included(roles[k]) {
        var k :| 1 <= k < |roles| && x in Included(roles[k]);
        assert roles[1..][k - 1] == roles[k];
      }
    }
  }

  function PermissionNamesOf(ps: seq<PermissionData>): (r: seq<string>)
    ensures |r| == |ps| && forall i :: 0 <= i < |ps| ==> r[i] == ps[i].name
  {
    seq(|ps|, i requires 0 <= i < |ps| => ps[i].name)
  }

  /** A role listing the same permission twice grants it twice. */
  lemma RepeatedListingCountsTwice(r: RawRole, p: string)
    requires r.includedPermissions == Some([p, p])
    ensures |BuildDataset([r], "").permissions| == 1
    ensures BuildDataset([r], "").permissions[0].grantedByRoles == [GrantOf(r), GrantOf(r)]
  {
    var d := BuildDataset([r], "");
    var names := PermissionNamesOf(d.permissions);
    assert p in Included([r][0]);
    assert p in names;
    SortedNoDup(names);
    NoDupCard(names);
    assert Elems(names) == {p} by {
      forall x | x in Elems(names) ensures x == p {
        assert x in Included([r][0]);
      }
    }
    assert Count([p, p], p) == 2 by {
      assert [p, p][1..] == [p];
      assert [p][1..] == [];
    }
    assert GrantsFor([r], p) == Repeat(GrantOf(r), 2) + GrantsFor([r][1..], p);
  }

  // ---------------------------------------------------------------------------
  // Stage badge, meta description and role path

  const BadgeStages: seq<string> := ["ga", "beta", "alpha", "deprecated"]

  datatype Badge = Badge(cssClass: string, text: string)

  /**
   * `get_stage_badge`: a missing or empty stage reads as GA; the class is
   * `badge-` plus the lower-cased stage when that is a known stage and
   * `badge-ga` otherwise; the text is the stage as given, or GA.
   */
  function StageBadge(stage: Option<string>): (r: Badge)
    ensures r.cssClass in {"badge-ga", "badge-beta", "badge-alpha", "badge-deprecated"}
    ensures stage.Some? && stage.value != [] && Lower(stage.value) in BadgeStages ==> r.cssClass == "badge-" + Lower(stage.value)
    ensures (stage.None? || stage.value == [] || Lower(stage.value) !in BadgeStages) ==> r.cssClass == "badge-ga"
    ensures r.text == if stage.Some? && stage.value != [] then stage.value else DefaultStage
  {
    var lower := if stage.Some? && stage.value != [] then Lower(stage.value) else "ga";
    var cls := if lower in BadgeStages then "badge-" + lower else "badge-ga";
    assert "badge-" + "ga" == "badge-ga" && "badge-" + "beta" == "badge-beta";
    assert "badge-" + "alpha" == "badge-alpha" && "badge-" + "deprecated" == "badge-deprecated";
    Badge(cls, if stage.Some? && stage.value != [] then stage.value else DefaultStage)
  }

  /** The stages the edge and the site both know get their own class, in any letter case. */
  lemma KnownStagesHaveOwnBadge()
    ensures StageBadge(Some("GA")).cssClass == "badge-ga"
    ensures StageBadge(Some("BETA")).cssClass == "badge-beta"
    ensures StageBadge(Some("Alpha")).cssClass == "badge-alpha"
    ensures StageBadge(Some("DEPRECATED")).cssClass == "badge-deprecated"
    ensures StageBadge(Some("")).text == "GA" && StageBadge(None).text == "GA"
  {
    assert Lower("GA") == "ga";
    assert Lower("BETA") == "beta";
    assert Lower("Alpha") == "alpha";
    assert Lower("DEPRECATED") == "deprecated";
  }

  /**
   * The meta description of a role page: the title, a dash, and the
   * description cut to its first 150 characters followed by an ellipsis
   * when it is longer than that.
   */
  function MetaDescription(title: string, description: string): (r: string)
    ensures StartsWith(r, title + " - ")
    ensures |r| <= |title| + 3 + DescriptionLimit + |Ellipsis|
    ensures |description| <= DescriptionLimit ==> r[|title| + 3..] == description
    ensures |description| > DescriptionLimit ==>
              r[|title| + 3..] == description[..DescriptionLimit] + Ellipsis && StartsWith(description, r[|title| + 3..|r| - 3])
  {
    var shown := if |description| > DescriptionLimit then description[..DescriptionLimit] + Ellipsis else description;
    assert (title + " - " + shown)[..|title| + 3] == title + " - ";
    assert (title + " - " + shown)[|title| + 3..] == shown;
    title + " - " + shown
  }

  /**
   * The description is cut exactly when the result runs past the title, the
   * dash and 150 characters; a description that fits is shown whole.
   */
  lemma MetaDescriptionCut(title: string, description: string)
    ensures |MetaDescription(title, description)| > |title| + 3 + DescriptionLimit <==> |description| > DescriptionLimit
    ensures |description| <= DescriptionLimit ==> MetaDescription(title, description) == title + " - " + description
  {
    var r := MetaDescription(title, description);
    assert |r| == |title| + 3 + |r[|title| + 3..]|;
  }

  /** The role page path: every occurrence of `roles/` removed from the name. */
  function RolePath(name: string): (r: string)
    ensures |r| <= |name|
    ensures !Contains(name, RolePrefix) ==> r == name
  {
    RemoveAll(name, RolePrefix)
  }

  /** A predefined role's path is its name after the `roles/` prefix. */
  lemma PredefinedRolePath(rest: string)
    requires !Contains(rest, RolePrefix)
    ensures RolePath(RolePrefix + rest) == rest
  {
    var s := RolePrefix + rest;
    assert s[..|RolePrefix|] == RolePrefix;
    assert s[|RolePrefix|..] == rest;
  }
}

=== FILE: text.dfy ===
/**
 * String primitives the services share: whitespace trimming, ASCII
 * lower-casing, UTF-8 byte length, prefix and substring tests, splitting on a
 * separator character, and removing every occurrence of a pattern.
 *
 * Strings are sequences of Unicode scalar values. Case folding and the
 * alphanumeric test cover ASCII only; that is the model's standing assumption
 * about the data (GCP permission and role names are ASCII).
 */
module Text {

  /** Unicode White_Space, the set Rust's `trim` and `split_whitespace` use. */
  predicate IsWhitespace(c: char) {
    var n := c as int;
    n == 0x20 || (0x09 <= n <= 0x0D) || n == 0x85 || n == 0xA0 || n == 0x1680
    || (0x2000 <= n <= 0x200A) || n == 0x2028 || n == 0x2029 || n == 0x202F
    || n == 0x205F || n == 0x3000
  }

  predicate AllWhitespace(s: string) {
    forall i :: 0 <= i < |s| ==> IsWhitespace(s[i])
  }

  /** Drops leading whitespace. */
  function TrimStart(s: string): (r: string)
    ensures |r| <= |s| && r == s[|s| - |r|..]
    ensures AllWhitespace(s[..|s| - |r|])
    ensures |r| > 0 ==> !IsWhitespace(r[0])
    decreases |s|
  {
    if |s| > 0 && IsWhitespace(s[0]) then TrimStart(s[1..]) else s
  }

  /** Drops trailing whitespace. */
  function TrimEnd(s: string): (r: string)
    ensures |r| <= |s| && r == s[..|r|]
    ensures AllWhitespace(s[|r|..])
    ensures |r| > 0 ==> !IsWhitespace(r[|r| - 1])
    decreases |s|
  {
    if |s| > 0 && IsWhitespace(s[|s| - 1]) then TrimEnd(s[..|s| - 1]) else s
  }

  /** How many leading characters `Trim` drops. */
  function TrimOffset(s: string): (a: nat)
    ensures a <= |s|
  {
    |s| - |TrimStart(s)|
  }

  /** Rust's `str::trim`: the slice of `s` without leading and trailing whitespace. */
  function Trim(s: string): (r: string)
    ensures TrimOffset(s) + |r| <= |s|
    ensures r == s[TrimOffset(s)..TrimOffset(s) + |r|]
    ensures AllWhitespace(s[..TrimOffset(s)]) && AllWhitespace(s[TrimOffset(s) + |r|..])
    ensures |r| > 0 ==> !IsWhitespace(r[0]) && !IsWhitespace(r[|r| - 1])
  {
    var t := TrimStart(s);
    var r := TrimEnd(t);
    SuffixPrefixSlice(s, t, r);
    r
  }

  /** A prefix `r` of a suffix `t` of `s` is a slice of `s`, followed by the rest of `t`. */
  lemma SuffixPrefixSlice(s: string, t: string, r: string)
    requires |t| <= |s| && t == s[|s| - |t|..]
    requires |r| <= |t| && r == t[..|r|]
    ensures r == s[|s| - |t|..|s| - |t| + |r|]
    ensures s[|s| - |t| + |r|..] == t[|r|..]
    ensures |r| > 0 ==> r[0] == t[0]
  {
  }

  /** A string is empty after trimming exactly when it is all whitespace. */
  lemma TrimEmptyIff(s: string)
    ensures Trim(s) == [] <==> AllWhitespace(s)
  {
    var r := Trim(s);
    var a := TrimOffset(s);
    if r == [] {
      var t := TrimStart(s);
      assert t[0..] == t;
      assert |t| == 0;
      assert s[..a] == s;
    } else {
      assert r[0] == s[a];
    }
  }

  /** Trimming a trimmed string changes nothing. */
  lemma TrimIdempotent(s: string)
    ensures Trim(Trim(s)) == Trim(s)
  {
    var r := Trim(s);
    if |r| > 0 {
      assert TrimStart(r) == r;
      assert TrimEnd(r) == r;
    }
  }

  /** ASCII lower-casing of one character. */
  function LowerChar(c: char): char {
    if 'A' <= c <= 'Z' then (c as int + 32) as char else c
  }

  /** ASCII lower-casing (Rust `to_lowercase`, Python `lower` on ASCII text). */
  function Lower(s: string): (r: string)
    ensures |r| == |s|
    ensures forall i :: 0 <= i < |s| ==> r[i] == LowerChar(s[i])
  {
    seq(|s|, i requires 0 <= i < |s| => LowerChar(s[i]))
  }

  predicate IsLowerChar(c: char) {
    !('A' <= c <= 'Z')
  }

  /** Lower-casing yields lower-case text, so doing it twice is doing it once. */
  lemma LowerIsLower(s: string)
    ensures forall i :: 0 <= i < |s| ==> IsLowerChar(Lower(s)[i])
    ensures Lower(Lower(s)) == Lower(s)
  {
  }

  predicate IsAsciiAlphanumeric(c: char) {
    ('a' <= c <= 'z') || ('A' <= c <= 'Z') || ('0' <= c <= '9')
  }

  /** Number of bytes `c` occupies in UTF-8. */
  function Utf8Width(c: char): nat {
    var n := c as int;
    if n < 0x80 then 1 else if n < 0x800 then 2 else if n < 0x10000 then 3 else 4
  }

  /** Rust's `str::len`: the UTF-8 byte length of `s`. */
  function Utf8Len(s: string): (r: nat)
    ensures r >= |s|
    ensures r <= 4 * |s|
    ensures (forall i :: 0 <= i < |s| ==> s[i] as int < 0x80) ==> r == |s|
  {
    if |s| == 0 then 0 else Utf8Width(s[0]) + Utf8Len(s[1..])
  }

  predicate StartsWith(s: string, prefix: string) {
    |prefix| <= |s| && s[..|prefix|] == prefix
  }

  /** Substring test (Rust `str::contains`); the empty pattern occurs everywhere. */
  predicate Contains(s: string, pat: string)
    decreases |s|
  {
    StartsWith(s, pat) || (|s| > 0 && Contains(s[1..], pat))
  }

  /** `pat` occurs in `s` starting at position `i`. */
  predicate OccursAt(s: string, pat: string, i: int) {
    0 <= i && i + |pat| <= |s| && s[i..i + |pat|] == pat
  }

  /** A substring found by `Contains` occurs at some position. */
  lemma {:induction false} ContainsOccurs(s: string, pat: string)
    requires Contains(s, pat)
    ensures exists i :: OccursAt(s, pat, i)
    decreases |s|
  {
    if StartsWith(s, pat) {
      assert OccursAt(s, pat, 0);
    } else {
      ContainsOccurs(s[1..], pat);
      var i :| OccursAt(s[1..], pat, i);
      assert s[i + 1..i + 1 + |pat|] == s[1..][i..i + |pat|];
      assert OccursAt(s, pat, i + 1);
    }
  }

  /** An occurrence at any position is found by `Contains`. */
  lemma {:induction false} OccursContains(s: string, pat: string, i: nat)
    requires OccursAt(s, pat, i)
    ensures Contains(s, pat)
    decreases i
  {
    if i == 0 {
      assert s[..|pat|] == s[0..0 + |pat|];
    } else {
      assert s[1..][i - 1..i - 1 + |pat|] == s[i..i + |pat|];
      OccursContains(s[1..], pat, i - 1);
    }
  }

  /** `Contains` holds exactly when `pat` occurs at some position of `s`. */
  lemma ContainsIff(s: string, pat: string)
    ensures Contains(s, pat) <==> exists i :: OccursAt(s, pat, i)
  {
    if Contains(s, pat) {
      ContainsOccurs(s, pat);
    }
    forall i | OccursAt(s, pat, i) ensures Contains(s, pat) {
      OccursContains(s, pat, i);
    }
  }

  /** A prefix is in particular a substring. */
  lemma StartsWithContains(s: string, pat: string)
    requires StartsWith(s, pat)
    ensures Contains(s, pat)
  {
  }

  /**
   * The pieces of `s` between occurrences of `d`, in order (Rust
   * `str::split(char)`, Python `str.split(sep)`): never empty, and "" splits
   * into [""].
   */
  function Split(s: string, d: char): (r: seq<string>)
    ensures |r| >= 1
    decreases |s|
  {
    if |s| == 0 then [""]
    else if s[0] == d then [""] + Split(s[1..], d)
    else
      var rest := Split(s[1..], d);
      [[s[0]] + rest[0]] + rest[1..]
  }

  /** Puts pieces back together with `d` between neighbours. */
  function Join(parts: seq<string>, d: char): string
    requires |parts| >= 1
    decreases |parts|
  {
    if |parts| == 1 then parts[0] else parts[0] + [d] + Join(parts[1..], d)
  }

  /** No piece contains the delimiter. */
  lemma {:induction false} SplitNoDelimiter(s: string, d: char)
    ensures forall k :: 0 <= k < |Split(s, d)| ==> d !in Split(s, d)[k]
    decreases |s|
  {
    if |s| > 0 {
      SplitNoDelimiter(s[1..], d);
      var rest := Split(s[1..], d);
      var parts := Split(s, d);
      if s[0] == d {
        assert parts == [""] + rest;
        forall k | 0 < k < |parts| ensures d !in parts[k] {
          assert parts[k] == rest[k - 1];
        }
      } else {
        assert parts == [[s[0]] + rest[0]] + rest[1..];
        forall k | 0 < k < |parts| ensures d !in parts[k] {
          assert parts[k] == rest[k];
        }
      }
    }
  }

  /** Joining the pieces with the delimiter restores the string. */
  lemma {:induction false} SplitJoinRestores(s: string, d: char)
    ensures Join(Split(s, d), d) == s
    decreases |s|
  {
    if |s| > 0 {
      SplitJoinRestores(s[1..], d);
      var rest := Split(s[1..], d);
      var parts := Split(s, d);
      if s[0] == d {
        assert parts == [""] + rest;
        assert parts[1..] == rest;
        assert Join(parts, d) == "" + [d] + Join(rest, d);
        assert s == [d] + s[1..];
      } else {
        assert parts == [[s[0]] + rest[0]] + rest[1..];
        if |rest| > 1 {
          assert parts[1..] == rest[1..];
          assert Join(parts, d) == [s[0]] + rest[0] + [d] + Join(rest[1..], d);
          assert Join(rest, d) == rest[0] + [d] + Join(rest[1..], d);
        }
        assert Join(parts, d) == [s[0]] + Join(rest, d);
        assert s == [s[0]] + s[1..];
      }
    }
  }

  /** Joining the pieces restores the string, and no piece contains `d`. */
  lemma SplitJoin(s: string, d: char)
    ensures Join(Split(s, d), d) == s
    ensures forall k :: 0 <= k < |Split(s, d)| ==> d !in Split(s, d)[k]
  {
    SplitJoinRestores(s, d);
    SplitNoDelimiter(s, d);
  }

  /**
   * Piece `i` of `s` split on `d`, or "" when there are fewer pieces:
   * `parts.get(i).unwrap_or("")` in Rust, `parts[i] if len(parts) > i else ''`
   * in Python.
   */
  function Part(s: string, d: char, i: nat): (r: string)
    ensures d !in r
  {
    SplitNoDelimiter(s, d);
    var parts := Split(s, d);
    if i < |parts| then parts[i] else ""
  }

  /** The first piece is everything before the first `d` (all of `s` when none). */
  lemma {:induction false} FirstPartIsPrefix(s: string, d: char)
    ensures StartsWith(s, Part(s, d, 0))
    ensures |Part(s, d, 0)| < |s| ==> s[|Part(s, d, 0)|] == d
    decreases |s|
  {
    if |s| > 0 && s[0] != d {
      FirstPartIsPrefix(s[1..], d);
    }
  }

  /**
   * A text free of `d` is the first piece exactly when the whole string is
   * that text, or that text followed by `d` and anything.
   */
  lemma FirstPartIs(s: string, d: char, a: string)
    requires d !in a
    ensures Part(s, d, 0) == a <==> s == a || StartsWith(s, a + [d])
  {
    var p := Part(s, d, 0);
    FirstPartIsPrefix(s, d);
    assert p == s[..|p|];
    assert forall i :: 0 <= i < |p| ==> p[i] == s[i] && p[i] != d;
    if s == a {
      assert forall i :: 0 <= i < |s| ==> s[i] != d;
      assert |p| == |s|;
    } else if StartsWith(s, a + [d]) {
      assert s[..|a| + 1] == a + [d];
      assert s[|a|] == d;
      assert forall i :: 0 <= i < |a| ==> s[i] == a[i] && s[i] != d;
      assert |p| == |a|;
      assert a == s[..|a|];
    }
    if p == a && s != a {
      assert |p| != |s|;
      assert s[..|a| + 1] == a + [d];
    }
  }

  /**
   * Python's `s.replace(pat, '')`: every occurrence of `pat`, scanning left to
   * right without overlap, is removed.
   */
  function RemoveAll(s: string, pat: string): (r: string)
    requires |pat| > 0
    ensures |r| <= |s|
    ensures !Contains(s, pat) ==> r == s
    decreases |s|
  {
    if |s| == 0 then []
    else if StartsWith(s, pat) then RemoveAll(s[|pat|..], pat)
    else [s[0]] + RemoveAll(s[1..], pat)
  }
}

=== FILE: wrappers.dfy ===
/** Option and Result values shared by every module of the model. */
module Wrappers {

  datatype Option<+T> = None | Some(value: T)

  datatype Result<+T, +E> = Ok(value: T) | Err(error: E)

  /** The value in `o`, or `default` when there is none (Rust's `unwrap_or`). */
  function GetOr<T>(o: Option<T>, default: T): (r: T)
    ensures o.Some? ==> r == o.value
    ensures o.None? ==> r == default
  {
    match o
    case Some(v) => v
    case None => default
  }
}
